=== FILE: README.md ===
# wonk policy combiner, modelled in Dafny

wonk merges AWS IAM policy documents into as few managed policies as fit
AWS's 6,144-character limit, and writes them into an output directory as
`<set>_1.json`, `<set>_2.json`, …. This project models its core as pure
functions over immutable values and proves what the code promises:

- the statement model (`which_type`, `rest`, `replace`, `as_json`, the two
  grouping keys, the eight-field sorting key) and the wildcard
  canonicaliser (`deduped_items`, `collect_wildcard_matches`,
  `canonicalize_resources`) with a case-insensitive `*` matcher;
- `Policy` construction, `from_dict`, `render`, `id` and `==`;
- the pipeline of `combine`: grouping statements by
  `grouping_for_actions`, rendering in sorting-key order, choosing the
  first JSON layout that fits (`packed_json`), the fragment capacity, the
  two action splitters, the bin packer's constraints and result
  extraction, and the per-bin regrouping;
- the output synchroniser (`policy_set_pattern`, `write_policy_set`,
  `policies_are_identical`) as a transition on a directory
  `map<string, string>`;
- configuration inheritance (`PolicySet.__ior__`, `parse_policy_sets`,
  `parse_config`) and the ARN helpers `arn_for` and `name_for`.

One module per concern: `Exceptions` (the error kinds of
`wonk/exceptions.py` plus `Result`/`Option`), `Strings` (ASCII case
folding, Python's string order, decimal numerals), `Glob`, `Json` (JSON
values, the constants of `wonk/constants.py`, `packed_json`), `Canon`,
`Chunks` (ceiling division and slicing), `Statements`, `Sorting`, `Split`,
`PolicyDoc`, `Grouping`, `Optimizer`, `Combine`, `Output`, `Config` and
`Aws`.

Things the core reaches outside itself for are parameters:
`dumps: (Json, Format) -> string` stands for `json.dumps` with a layout,
`hexdigest` for sha256, `uuid: nat -> string` for the successive
`uuid4().hex` values (the merged document draws number 0, the envelope
used to size fragments number 1, and bin `k` numbers `2 + 2k` and
`3 + 2k`), `loads` for `json.loads` of a file's text, and a `Solution`
value (status plus 0/1 assignment) for the SCIP solver. The
`toposort_flatten` order is passed to `parse_policy_sets` as a parameter
and must be a topological order of the sets.

Notes on the code's behaviour:

- `deduped_items` orders its result by case-folded spelling
  (`wonk/models.py:305`).
- `grouped_statements` makes one pass that unions the actions of statements
  with equal `grouping_for_actions` keys (`wonk/policy.py:36-45`).
- `grouping_for_resources` is never called by the pipeline
  (`wonk/models.py:113-133`).
- `combine` names its documents with `uuid4().hex`
  (`wonk/policy.py:55`).
- `collect_wildcard_matches` yields an empty list for an empty set
  (`wonk/models.py:316-337`).
- A cleanup candidate is a file the glob `<base>_*` reaches
  (`wonk/policy.py:191`).
- A candidate's last path component, less its last suffix, must match
  `^<final>_\d+$`, where `<final>` is the base after its last `/`
  (`wonk/policy.py:172-176`, `wonk/policy.py:192`).
- The packer keeps items in input order within a bin
  (`wonk/optimizer.py:53-60`).

## Model

| member | source | states |
|---|---|---|
| Strings.DecimalInjective | wonk/policy.py:203-204 | different file numbers have different decimal spellings |
| Glob.MatchesItself | wonk/models.py:324-325 | every pattern matches its own text |
| Strings.WithoutFinalNewline | wonk/models.py:325 | what a regular expression's `$` treats as the end: the text less one final newline, if it has one, and otherwise the text itself |
| Glob.StarMatchesAll | wonk/models.py:324-325 | the pattern `*` (the regex `^.*$`) matches exactly the strings with no newline other than one final newline |
| Glob.LiteralMatches | wonk/models.py:324-325 | a pattern without `*` matches exactly the strings equal to it ignoring case, alone or followed by one newline |
| Glob.PrefixStarMatches | wonk/models.py:324-325 | `q*` matches exactly the strings that start with `q` ignoring case and whose remainder holds no newline other than one final newline |
| Glob.MatchesIgnoresCase | wonk/models.py:325 | matching gives the same answer for two subjects that agree ignoring case |
| Glob.PatternIgnoresCase | wonk/models.py:325 | matching gives the same answer for two patterns that agree ignoring case |
| Canon.RepresentativeOf | wonk/models.py:297-305 | every case class present has a representative: the member that sorts first in case-sensitive order |
| Canon.DedupedItems | wonk/models.py:294-305 | the result is strictly increasing by case-folded spelling and holds exactly the representatives of the input's case classes |
| Canon.DedupedCovers | wonk/models.py:294-305 | every input has a member of its case class in the result |
| Canon.DedupedOfFoldSorted | wonk/models.py:294-305 | deduplicating the elements of a list already in result form gives that list back |
| Canon.FoldSortedUnique | wonk/models.py:305 | two lists sorted by case-folded spelling with the same elements are equal |
| Canon.Unshadowed | wonk/models.py:327-337 | the filter keeps exactly the entries no other-case-class `*` pattern of the input matches, and keeps their order |
| Canon.ShadowedMonotone | wonk/models.py:319-335 | an entry shadowed within a subset stays shadowed in the whole set |
| Canon.CollectWildcardMatches | wonk/models.py:308-337 | a one-element set comes back as that bare string; otherwise a case-fold-sorted list of exactly the representatives that no other-case-class `*` entry matches |
| Canon.CollectIsSubset | wonk/models.py:308-337 | the reduction only drops entries |
| Canon.SortedUnshadowedFixed | wonk/models.py:308-337 | a case-fold-sorted list with no shadowed entry is returned unchanged |
| Canon.CollectListIdempotent | wonk/models.py:308-337 | reducing an already reduced list gives the same list |
| Canon.CollectIdempotent | wonk/models.py:308-337 | reducing twice gives the same elements as reducing once, and the same value when it is a list |
| Canon.CanonicalizeResources | wonk/models.py:340-346 | a set holding `*` becomes the bare `*`; any other set is reduced as actions are |
| Canon.StarShadows | wonk/models.py:343-344 | `*` shadows every other resource with no newline before its last character |
| Canon.StarIsRepresentative | wonk/models.py:343-344 | `*` is its own case class's representative |
| Canon.StarShortCircuitAgrees | wonk/models.py:340-346 | when no other entry matches the text `*` and no entry has a newline before its last character, the `*` short cut gives the same elements as the general reduction |
| Chunks.CeilDiv | wonk/models.py:190 | `math.ceil(a / b)` for both signs of `b`: the least `r` with `a <= r * b` when `b > 0` |
| Chunks.CeilDivUnique | wonk/models.py:190 | the ceiling is the only integer with that bracketing |
| Chunks.CeilDivFraction | wonk/models.py:189 | `ceil(a / (num / den))` is the least `r` with `a * den <= r * num` |
| Chunks.ChunkSize | wonk/models.py:189-190 | a zero maximum raises ZeroDivision, zero actions raise the zero-step error, otherwise the size brackets the action count against the chunk count `ceil(L / (0.45 M))` |
| Chunks.Chunk | wonk/models.py:192-196 | every slice is non-empty and at most `size` long, and every slice but the last is exactly `size` long |
| Chunks.ChunkPartitions | wonk/models.py:192-196 | the slices glued together give the list back, and there are `ceil(n / size)` of them |
| Chunks.ChunkFlatten | wonk/models.py:192-196 | the slices glued together give the list back |
| Chunks.ChunkCount | wonk/models.py:192-196 | there are `ceil(n / size)` slices |
| Chunks.ChunkAt | wonk/models.py:192-196 | slice `k` is `xs[k*size : (k+1)*size]`, clipped at the end |
| Statements.WhichType | wonk/models.py:367-383 | succeeds exactly when one key of the pair is present and returns that key; otherwise the error says whether both or neither were present |
| Statements.ToSet | wonk/models.py:349-354 | a string becomes a one-element set, an array of strings the set of its elements, an object the set of its keys; other values fail |
| Statements.ToSetOfValue | wonk/models.py:349-354 | converting a canonical value to JSON and back to a set gives its elements |
| Statements.ValueToSet | wonk/models.py:357-364 | a missing key gives the empty set, a present one its `to_set` |
| Statements.ParseAll | wonk/models.py:276 | succeeds exactly when every statement is usable, keeping them in order; otherwise reports the first unusable one |
| Statements.Parse | wonk/models.py:35-57 | a statement is usable exactly when both key pairs resolve and both values convert to sets; the errors are those of the action pair first |
| Statements.ActionKey | wonk/models.py:35-39 | the key is `Action` or `NotAction`, is present, and is `Action` exactly when `NotAction` is absent |
| Statements.ResourceKey | wonk/models.py:47-51 | the key is `Resource` or `NotResource`, is present, and is `Resource` exactly when `NotResource` is absent |
| Statements.Rest | wonk/models.py:59-67 | exactly the entries other than `Sid` and the two chosen keys, with their values |
| Statements.Replace | wonk/models.py:69-78 | the same keys; a given non-null value replaces the action or resource entry; everything else is unchanged |
| Statements.ReplaceKeepsShape | wonk/models.py:69-78 | replacing keeps both keys and the rest, and the new values are what the replaced entries convert to |
| Statements.AsJsonCanonical | wonk/models.py:80-88 | the output is a usable statement with the same keys and rest, no `Sid`, the reduced actions (a subset of the originals) and the same resource elements |
| Statements.ResourceValueStable | wonk/models.py:340-346 | canonicalising canonical resources again changes nothing |
| Statements.GroupingForActionsAgrees | wonk/models.py:90-111 | two statements share an action grouping key exactly when they have the same action key and their rendered forms agree on everything but the actions |
| Statements.GroupingIgnoresSid | wonk/models.py:59-67 | the `Sid` never affects the action grouping key |
| Statements.GroupingIgnoresActions | wonk/models.py:90-111 | replacing the actions leaves the action grouping key unchanged |
| Statements.GroupingForResourcesAgrees | wonk/models.py:113-133 | two statements share a resource grouping key exactly when they agree on both keys, the action set and the rest |
| Statements.GroupingIgnoresResources | wonk/models.py:113-133 | replacing the resources leaves the resource grouping key unchanged |
| Sorting.KeyLessTransitive | wonk/models.py:135-174 | tuple comparison of sorting keys is transitive |
| Sorting.KeyLessTotal | wonk/models.py:135-174 | of two different sorting keys one is below the other |
| Sorting.SortingKeyFields | wonk/models.py:155-165 | the first five fields are the Action, Resource, `*`, bare-Allow and rest-size tests |
| Sorting.SortingKeyOrder | wonk/models.py:155-165 | Action before NotAction, then Resource before NotResource, then `*` resources first, then a bare Allow rest first, then shorter rests |
| Sorting.InsertSorted | wonk/models.py:213 | inserting into a sorted list keeps it sorted |
| Sorting.Insert | wonk/models.py:213 | inserting adds exactly the one element |
| Sorting.SortBy | wonk/models.py:213 | the result is a permutation of the input with no key below an earlier key |
| Sorting.InsertWithKey | wonk/models.py:213 | inserting into a sorted list puts the entry after every entry of equal key |
| Sorting.SortByStable | wonk/models.py:213 | the sort is stable: the entries of each key come out in their input order |
| Sorting.SortStatements | wonk/models.py:208-213 | the statements are permuted into non-decreasing sorting-key order |
| Split.SplitCanonicalChunks | wonk/models.py:176-196 | the pieces are the canonical action list cut into slices of the computed size |
| Split.SplitCanonicalPieces | wonk/models.py:176-196 | every piece is a usable statement with the original keys, rest and canonical resources; slices have the computed size except the last, and together they are the canonical action list |
| Split.PiecesOfChunks | wonk/models.py:192-196 | pieces built from slices carry the rest and resources and glue back to the sliced list |
| Split.SplitCanonicalExample | tests/test_models.py:291-307 | 26 actions in a 133-character statement split at 100 give slices of 9, 9 and 8 |
| Split.SplitStatement | wonk/policy.py:92-113 | an ambiguous action pair is reported as `which_type` reports it |
| Split.SplitStatementPieces | wonk/policy.py:92-113 | every piece keeps every other entry, `Sid` included; slices have the computed size except the last, and together they are the raw action array |
| Split.SplitStatementExample | tests/test_policy.py:130-140 | 120 actions in a 492-character statement split at 300 give four slices of 30 |
| PolicyDoc.NewPolicy | wonk/models.py:199-213 | construction succeeds exactly when every statement is usable, keeps the version, and holds a permutation of the statements in sorting-key order |
| PolicyDoc.StatementList | wonk/models.py:264-274 | a single object counts as a one-element list, an array must hold objects |
| PolicyDoc.FromDict | wonk/models.py:260-285 | a non-object fails; the version defaults to `2012-10-17` |
| PolicyDoc.FromDictMissingStatement | wonk/models.py:264 | a document without `Statement` has no statements |
| PolicyDoc.FromDictSingleStatement | wonk/models.py:266-274 | a lone statement object parses as a one-element list holding it |
| PolicyDoc.FromDictStatements | wonk/models.py:264-285 | a list of usable statements gives a policy holding exactly those statements |
| PolicyDoc.Document | wonk/models.py:231-238 | the JSON form has exactly `Version`, `Id` and `Statement`, the statements in their `as_json` form |
| PolicyDoc.Id | wonk/models.py:253-258 | the id is the first 32 characters of the digest |
| PolicyDoc.Render | wonk/models.py:240-251 | the text fits the limit, exists exactly when some layout fits, and otherwise is UnshrinkablePolicy |
| PolicyDoc.EqualIffSameContent | wonk/models.py:226-229 | two policies are equal exactly when version and rendered statements agree |
| Json.FirstFittingFrom | wonk/policy.py:77-80 | from a given layout on, the result is the first layout whose text fits |
| Json.FirstFitting | wonk/policy.py:75-84 | the result is the text of the first layout that fits, and UnshrinkablePolicy exactly when none does |
| Grouping.IndexOf | wonk/policy.py:40-43 | the first position filed under the key, or none when no group has it |
| Grouping.Merge | wonk/policy.py:44-45 | the merged statement keeps its grouping key and every other entry, and its actions are the union |
| Grouping.AddNewGroup | wonk/policy.py:42-43 | a statement with a new key is appended as its own group |
| Grouping.AddToGroup | wonk/policy.py:44-45 | a statement with a known key changes no key and no group count |
| Grouping.AddNewGroupActions | wonk/policy.py:42-43 | a new group adds exactly the statement's actions under its key |
| Grouping.AddToGroupActions | wonk/policy.py:44-45 | merging adds exactly the statement's actions under its key and nothing elsewhere |
| Grouping.AddSpec | wonk/policy.py:36-45 | one step adds the statement's key, at most one group, and the statement's actions under that key only |
| Grouping.Grouped | wonk/policy.py:20-47 | the groups are well formed: each filed under its statement's key, no key twice |
| Grouping.GroupedSpec | wonk/policy.py:20-47 | the keys are exactly the statements' keys, there are at most as many groups as statements, and each group's actions are the union over its statements |
| Grouping.SameGroupIff | wonk/policy.py:36-45 | two statements land in the same group exactly when their action grouping keys are equal |
| Grouping.StatementsOf | wonk/policy.py:32-34 | a non-object document fails, and one without `Statement` raises the KeyError |
| Grouping.SingleStatementEntry | wonk/policy.py:32-34 | a lone statement object counts as a one-element list |
| Grouping.CollectStatements | wonk/policy.py:25-37 | every collected statement is usable |
| Grouping.CollectStatementsSpec | wonk/policy.py:25-37 | collecting succeeds exactly when every document's entry is well formed and every statement parses; it then gives one statement per entry of every document, in document order, and otherwise raises the first failing document's error |
| Grouping.GroupedStatements | wonk/policy.py:20-47 | succeeds exactly when collecting does, and gives the groups of the collected statements: well formed, no more than the statements, with the keys and action unions that Grouping.GroupedSpec states |
| Combine.Blank | wonk/policy.py:50-57 | the skeleton has exactly `Version` `2012-10-17`, the given `Id` and an empty `Statement` list |
| Combine.Ordered | wonk/policy.py:69 | the groups' statements permuted into non-decreasing sorting-key order |
| Combine.Render | wonk/policy.py:60-72 | a skeleton document with one rendered statement per group, in sorting-key order |
| Combine.RenderHoldsEveryGroup | wonk/policy.py:69-70 | every group's statement appears in the rendered document |
| Combine.CapacityAsWrittenOverflows | wonk/policy.py:129-143 | with the capacity as written, a solver answer putting both of two statements in one bin meets every packing constraint, yet that bin's statements, comma and envelope come to 6,145 characters |
| Combine.Capacity | wonk/policy.py:138-143 | the corrected capacity is one character below the one as written, leaving room for `n - 1` commas |
| Combine.CapacityRoom | wonk/policy.py:129-143 | when no statement is split, every bin the packer returns under the constraints fits, with its commas and the smallest envelope, in 6,144 characters |
| Combine.FragmentsOf | wonk/policy.py:146-152 | a statement within capacity is kept whole; a larger one is split |
| Combine.FragmentsConcat | wonk/policy.py:145-152 | fragmenting succeeds exactly when every statement does, and the fragments are each statement's in turn |
| Combine.FragmentsKeepFitting | wonk/policy.py:146-152 | when every statement fits, the fragments are the statements themselves |
| Combine.OversizedIsSplit | wonk/policy.py:147-150 | an oversized statement is cut into pieces that keep every other entry and whose action arrays glue back together |
| Combine.Unmerged | wonk/policy.py:162-165 | a bin's unmerged document holds its fragments in bin order |
| Combine.RegroupBin | wonk/policy.py:157-167 | a regrouped bin is a policy document with the second identifier drawn for it, and it holds every fragment of the bin: the fragment parses, and a statement filed under its grouping key carries all of its actions |
| Combine.RegroupedHolds | wonk/policy.py:162-166 | grouping a bin's unmerged document and rendering the groups loses no fragment: each is held, under its grouping key, with all of its actions |
| Combine.Regroup | wonk/policy.py:156-169 | one document per bin, in bin order |
| Combine.RegroupHolds | wonk/policy.py:156-169 | the `k`-th document holds every fragment of the `k`-th bin |
| Combine.RegroupDocuments | wonk/policy.py:156-169 | bin `k` becomes a document named by identifier `3 + 2k` |
| Combine.Combine | wonk/policy.py:116-169 | an error from collecting statements propagates; a merged document that fits is returned alone; otherwise the result is splitting and packing under the given capacity rule |
| Combine.SplitAndPack | wonk/policy.py:138-169 | a failed split propagates its error; success needs an optimal solver answer and gives at most ten documents |
| Combine.CombineMergedHolds | wonk/policy.py:116-127 | when the merged document fits it is returned alone, and every statement of every input document is held in it under its grouping key with all of its actions |
| Combine.CombineDocuments | wonk/policy.py:116-169 | the result is the merged document alone or at most ten regrouped documents, each a policy document with its identifier |
| Combine.SplitAndPackHolds | wonk/policy.py:138-169 | after splitting, every fragment the solver packed is held by exactly one returned document, the one for the only bin that contains it, under its grouping key with all of its actions |
| Combine.PackFragments | wonk/policy.py:154-169 | no optimum raises UnpackableStatements; at most ten documents come back |
| Combine.PackFragmentsHolds | wonk/policy.py:154-169 | every fragment lands in exactly one bin, and that bin's document holds it under its grouping key with all of its actions |
| Combine.PackFragmentsDocuments | wonk/policy.py:154-169 | every packed document is a policy document named by identifier `3 + 2k` |
| Optimizer.MembersExact | wonk/optimizer.py:56-59 | a bin holds exactly the items assigned to it, in increasing index order |
| Optimizer.Extract | wonk/optimizer.py:52-61 | at most one list per bin, holding valid indices |
| Optimizer.ExtractBins | wonk/optimizer.py:52-61 | every extracted list is a non-empty open bin's items, in increasing bin order |
| Optimizer.ExtractComplete | wonk/optimizer.py:52-61 | every non-empty open bin is extracted |
| Optimizer.PackIndices | wonk/optimizer.py:47-61 | fails with UnpackableStatements exactly when the status is not optimal; otherwise at most `bins` lists |
| Optimizer.PackStatements | wonk/optimizer.py:10-63 | the loop's lists are the items of the extracted bins, and it fails exactly when the status is not optimal |
| Optimizer.MembersLoad | wonk/optimizer.py:38-42 | the size of a bin's items is the constraint's load for that bin |
| Optimizer.PackBinAtMostAll | wonk/optimizer.py:52-61 | a returned bin holds at most as many entries as there are items |
| Optimizer.PackFits | wonk/optimizer.py:37-42 | under the constraints every returned bin's items fit the capacity |
| Optimizer.OneBin | wonk/optimizer.py:33-35 | under the constraints each item has exactly one bin |
| Optimizer.PackCovers | wonk/optimizer.py:33-61 | every item of positive size is in exactly one returned list, once |
| Optimizer.LoadsBounded | wonk/optimizer.py:37-42 | the load over the first `m` bins is at most the open ones' capacity |
| Optimizer.TotalFits | wonk/optimizer.py:33-42 | the items' total size is at most the capacity of the open bins |
| Optimizer.Unpackable | tests/test_optimizer.py:19-23 | sizes 35, 45, 55, 65 fit no two bins of 99 |
| Optimizer.PackedFull | tests/test_optimizer.py:8-16 | sizes 35, 45, 55, 65 in two bins of 100 open both and fill both exactly |
| Output.FileNameInjective | wonk/policy.py:203-204 | different numbers give different file names |
| Output.MatchesOwnPattern | wonk/policy.py:172-176 | the last path component of the base, an underscore and a number match the set's pattern |
| Output.StemOfFileName | wonk/policy.py:192 | the stem of a written file's last path component is the base's last component, `_` and the number, whatever slashes and dots the base holds |
| Output.FileNameIsCandidate | wonk/policy.py:188-193 | every file the set writes is one of its cleanup candidates, for every base |
| Output.NewlineAfterDigits | wonk/policy.py:176 | `$` accepts one newline after the digits and no more, and at least one digit is needed |
| Output.SecondUnderscoreNoMatch | wonk/policy.py:176 | a stem with another underscore after `<final>_` does not match |
| Output.OtherSetNotCandidate | wonk/policy.py:182-193 | files of any set `<base>_<name>`, `foo_bar` and `foo_1` alike, are never candidates of `<base>` |
| Output.Identical | wonk/policy.py:232-251 | a document without `Id` is never identical; otherwise identical means equal apart from `Id` under Python's `==` |
| Output.IdenticalIffSameButId | wonk/policy.py:237-251 | an on-disk document with an `Id` that agrees with the new one apart from `Id` is identical; identical documents have the same keys apart from `Id`; without booleans, identical means exactly equal apart from `Id` |
| Output.TrueOnDiskIdentical | wonk/policy.py:237-251 | a file holding `true` where the new document holds `1` is identical to it |
| Json.PyEqReflexive | wonk/policy.py:251 | every JSON value is `==` to itself |
| Json.PyEqSymmetric | wonk/policy.py:251 | `==` on JSON values is symmetric |
| Json.PyEqBoolFree | wonk/policy.py:251 | on values holding no boolean, `==` is equality of values |
| Output.WriteOne | wonk/policy.py:203-223 | a write touches only its own file |
| Output.WriteOneSpec | wonk/policy.py:210-223 | an identical file is left alone, a missing or different file gets the packed text or UnshrinkablePolicy, a non-JSON file fails |
| Output.WriteFromNames | wonk/policy.py:202-205 | the names returned are `<base>_i` to `<base>_(i+n-1)` |
| Output.WriteFromFrame | wonk/policy.py:203-223 | files not named by the loop are untouched |
| Output.WriteFromFiles | wonk/policy.py:203-223 | each file of the loop holds what writing its document alone would leave |
| Output.WritePolicySet | wonk/policy.py:179-198 | more than ten candidates raise TooManyPolicies with the count, and nothing changes |
| Output.WritePolicySetNames | wonk/policy.py:200-229 | a successful write found at most ten candidates and returns `<base>_1` to `<base>_N` |
| Output.WritePolicySetFiles | wonk/policy.py:203-223 | file `<base>_(k+1)` holds what writing document `k` alone would leave |
| Output.WritePolicySetDir | wonk/policy.py:200-227 | the final directory is the written one less the candidates that were not rewritten |
| Output.WritePolicySetOthers | wonk/policy.py:188-227 | stale candidates are deleted, unrelated files are untouched, and nothing else appears |
| Output.IdenticalKept | wonk/policy.py:215-221 | a file identical to its document keeps its contents |
| Output.IdenticalFileKept | wonk/policy.py:215-221 | a set file identical apart from `Id` to its new document keeps its contents |
| Config.AppendNew | wonk/config.py:28-34 | existing entries stay in place, the result holds exactly both lists' values, and nothing appended is a repeat |
| Config.AppendNewFresh | wonk/config.py:28-30 | every appended value comes from the other list and was not present |
| Config.AppendNewOrder | wonk/config.py:28-30 | appended values keep the other list's order |
| Config.AppendNewKnown | wonk/config.py:28-30 | appending values already present changes nothing |
| Config.IOr | wonk/config.py:21-36 | name and parents unchanged; managed and local keep their entries and gain exactly the other set's |
| Config.IOrIdempotent | wonk/config.py:21-36 | merging the same parent twice is merging it once |
| Config.IOrDistinct | wonk/config.py:21-36 | merging adds no duplicates to duplicate-free lists |
| Config.InheritAll | wonk/config.py:89-90 | inheriting keeps the name and parents and never drops an entry |
| Config.Step | wonk/config.py:88-90 | one pass changes only the named set, and never names or parents |
| Config.Process | wonk/config.py:87-90 | the loop keeps every set's name and parents |
| Config.ProcessUntouched | wonk/config.py:87-90 | a set the loop has not reached is as defined |
| Config.ProcessResolves | wonk/config.py:87-90 | in topological order each processed set ends as its own entries merged with its final parents in `inherits` order, a set named among its own parents standing for its definition |
| Config.InheritSelfIgnored | wonk/config.py:89-90 | merging a set into itself adds nothing: inheriting with the set itself among the parents equals inheriting from the other parents only |
| Config.Initial | wonk/config.py:74-78 | one set per entry, named by its key |
| Config.UnknownIn | wonk/config.py:80-82 | the first parent that is not defined, if any |
| Config.FirstUnknown | wonk/config.py:74-82 | the first entry with an undefined parent, if any |
| Config.ParsePolicySets | wonk/config.py:68-92 | succeeds exactly when every parent is defined; its sets are named by their keys and keep their parents |
| Config.ParseUnknownParent | wonk/config.py:80-82 | the error names the first child and its first undefined parent |
| Config.ParseProcesses | wonk/config.py:87-92 | on success the result is the merge loop run over the initial sets |
| Config.ParseResolved | wonk/config.py:87-92 | each set is its own entries merged with its resolved parents other than itself, in order, and keeps its own entries |
| Config.ExampleParses | tests/test_config.py:8-30 | the four-set example parses |
| Config.EggsInheritsInOrder | tests/test_config.py:41-45 | `Eggs` ends with managed `Bar, Squawk, Foo` and local `file2, file1` |
| Config.SelfParentIgnored | wonk/config.py:84-90 | a set that names itself in `inherits` parses, and ends as its own definition |
| Config.MisspeltParentReported | tests/test_config.py:63-82 | a misspelt parent raises UnknownParent(`Eggs`, `Spammers`) |
| Config.ParseConfig | wonk/config.py:55-65 | a missing, null or empty `policy_sets` gives no sets; otherwise the sets are parsed |
| Aws.ArnFor | wonk/aws.py:17-20 | the ARN is the managed-policy prefix followed by the name |
| Aws.Split | wonk/aws.py:26 | at least one piece, and no piece holds the separator |
| Aws.SplitJoin | wonk/aws.py:26 | joining the pieces with `/` gives the string back |
| Aws.NameFor | wonk/aws.py:23-26 | a `/`-free suffix of the ARN, the whole ARN when it has no `/` |
| Aws.NameForIsLastPiece | wonk/aws.py:23-26 | the name is the last piece of `arn.split("/")` |
| Aws.NameForArnFor | wonk/aws.py:17-26 | a name without `/` survives the round trip through its ARN |
| Aws.NameForArnForNested | wonk/aws.py:17-26 | a name with a path loses everything up to its last `/` |

## Left out

- AWS access (`iam_client`, `get_policy_version`, `get_policy`), policy fetching and caching, the command line and YAML loading: network and disk I/O.
- The SCIP solver and its minimisation: the solution is a parameter; the constraints are a predicate, and nothing states that the number of bins is minimal.
- `json.dumps` layouts: the text of each layout is a parameter function, so only lengths and the order of `JSON_ARGS` are modelled; `json.loads` of a freshly dumped fragment is taken to give the fragment back.
- sha256 and `uuid4`: parameters.
- The 0.45 factor is a float in Python; the model uses the exact rational 9/20, so results at float rounding boundaries may differ.
- Regular-expression metacharacters other than `*` in names and base names: treated literally, as if escaped.
- Output.IsCandidate: `\d` is ASCII `0`-`9` here; Python's `\d` matches every Unicode decimal digit, so a file such as `foo_١.json` is a candidate of `foo` in the source and not here.
- Output.IsCandidate: the glob `<base>_*` is taken literally; the source's `Path.glob` reads `[`, `]`, `?` and `*` in the base as wildcards, so for base `a[b]` it reaches `ab_1.json`, whose stem then matches the pattern, and the source deletes another set's file.
- Output.WritePolicySet: counts candidates with Output.IsCandidate, so the Unicode-digit and glob-wildcard files above are not counted toward the limit of ten.
- Output.WritePolicySetNames: its "at most ten candidates" uses the same narrower candidate set.
- Output.WritePolicySetDir: removes the model's candidates only, not the Unicode-digit or glob-wildcard files the source also deletes.
- Output.WritePolicySetOthers: calls untouched the Unicode-digit and glob-wildcard files the source deletes.
- Statements.ToSet: an array holding a non-string (`"Action": [1]`) is MalformedDocument here; `to_set` (wonk/models.py:349-354) returns the set of whatever the elements are, and a lone element is popped as is (wonk/models.py:314-315). The declared type is a string or a list of strings, and the model's sets hold strings only.
- `str.casefold`: modelled as ASCII lower-casing.
- Glob.Matches: IGNORECASE is modelled by the same ASCII lower-casing; Python folds case with Unicode rules, so for `{"s*", "ſx"}` (U+017F) or `{"k*", "Kx"}` (the Kelvin sign U+212A) the source drops the second entry and the model keeps it.
- Glob.LiteralMatches: "ignoring case" is ASCII case, as for Glob.Matches; the Unicode case pairs of IGNORECASE are not modelled.
- Glob.PrefixStarMatches: "ignoring case" is ASCII case, as for Glob.Matches; the Unicode case pairs of IGNORECASE are not modelled.
- `toposort_flatten`: its order is a parameter that must put every parent other than the set itself first; cyclic inheritance between different sets, which it rejects, is not modelled.
- pydantic validation of policy-set definitions: missing lists default to empty, and the `abstract` field of the tests is not modelled.
- Python `TypeError`s from values of the wrong JSON type are reported as MalformedDocument.
- JSON objects are maps and JSON numbers are integers: the key order of objects and numbers that are not integers are not modelled. Python's `==` between `true` and `1`, and `false` and `0`, is modelled (Json.PyEq); between `1` and `1.0` it cannot arise.
- Statements.GroupingForActionsAgrees: the key is the parts themselves, not the `str` of the list of pairs, so two statements whose remaining entries differ only in the key order of a nested object, or in `1` against `1.0`, share a key here but not in the source; the JSON model cannot hold either difference.
- Statements.GroupingForResourcesAgrees: the same as for the action key; the rest is compared as a map of JSON values, not as the `str` of its sorted pairs.
- PolicyDoc.StatementList: a non-empty string as the `Statement` entry, or a string element of the list, is reported as MalformedDocument; the source iterates it and hands each string to `which_type`, whose `in` is then a substring test, so it raises a ValueError (or a TypeError when the string happens to contain one key of each pair).
- Optimizer.Solution: the solver's values are taken to be exact integers; the source reads floats and compares them with `!= 1` and `> 0`, so a value a rounding error away from 0 or 1 is not modelled.
- `InternalStatement`, which `wonk/policy.py` imports but `wonk/models.py` does not define, is modelled as `Statement`, with `grouping_for_actions` as its grouping key. Construction is taken to parse each statement in full, action set included, as soon as it is read; `Statement` computes its properties lazily (wonk/models.py:35-57), so the order in which errors surface may differ.
- Grouping.CollectStatements: because statements are parsed as they are collected, the first statement error wins over a later document's missing `Statement` key; for `[{"Statement": [{"Action": 5, "Resource": "*", "Effect": "Allow"}]}, {"Version": "x"}]` the model reports MalformedDocument for the first document, where a lazily parsed statement would let the source reach the second and raise `KeyError('Statement')`.
- Grouping.CollectStatementsSpec: its "first failing document's error" rests on the same eager parsing as Grouping.CollectStatements.
- Combine.BinResults: states only that there is one result per bin; the content of each result is stated by Combine.RegroupDocuments and Combine.RegroupHolds.
- Combine.Combine: its contract only says which branch is taken; what the result holds is stated by Combine.CombineMergedHolds, Combine.SplitAndPackHolds and Combine.CombineDocuments. The capacity rule is a parameter: given Combine.CapacityAsWritten it is the source's `combine`, given Combine.Capacity the corrected one; Combine.CapacityRoom holds for the corrected rule only.
- Combine.SplitAndPack: its contract only says that errors propagate and that at most ten documents come back; what they hold is stated by Combine.SplitAndPackHolds, for any capacity rule.
- Combine.Regroup: its contract gives only the number of documents; what the `k`-th one holds is stated by Combine.RegroupHolds and Combine.RegroupDocuments.
- Combine.RegroupDocuments: states the shape and identifier of each document; its link to the bin's fragments is Combine.RegroupHolds.
- Combine.CombineDocuments: states the shape and identifiers only; what the documents hold is stated by Combine.CombineMergedHolds and Combine.SplitAndPackHolds.
- Combine.PackFragments: its contract gives the error case and the count; that every fragment lands in exactly one returned document is Combine.PackFragmentsHolds.
- Combine.PackFragmentsDocuments: states the shape and identifier of each document; what each holds is Combine.PackFragmentsHolds.
- Combine.Capacity: one character below the source's `max_statement_size`; see "## Findings".
- Combine.CapacityRoom: covers bins of unsplit statements only; once a statement is split, a bin can hold more fragments than there were statements, and no comma allowance fixed before splitting bounds their commas.
- Combine.SplitAndPackHolds: no single lemma carries an input statement through to the packed documents; the chain is Combine.RenderHoldsEveryGroup (statements to the merged document), Combine.FragmentsConcat and Combine.OversizedIsSplit (merged statements to fragments) and Combine.SplitAndPackHolds (fragments to documents). The last link assumes the solver's answer meets the packing constraints and every fragment has a positive size.

## Findings

| source | as written | input that shows it | evidently intended | confidence | as-written member | corrected member |
|---|---|---|---|---|---|---|
| wonk/policy.py:138-143 | `max_number_of_commas = len(statements) - 2`, on the claim that a bin never holds all `n` statements | two statements whose sizes `a`, `b` give `envelope + a + b + 1 == 6145`: the merged document misses the limit by one, the solver may put both in one bin (it meets the constraint `a + b <= max_statement_size`), and regrouping that bin rebuilds a 6,145-character document, which `packed_json` then rejects | room for the `n - 1` commas of a bin holding all `n` statements: `MAX_MANAGED_POLICY_SIZE - envelope - (n - 1)` | not executed; high | Combine.CapacityAsWrittenOverflows | Combine.CapacityRoom |

=== FILE: aws.dfy ===
/** The two pure ARN helpers of wonk/aws.py:17-26: the ARN of an AWS-managed
    policy and the policy name an ARN ends with. */
module Aws {
  import opened Strings

  /** The ARN prefix of AWS-managed policies. */
  const MANAGED_ARN_PREFIX: string := "arn:aws:iam::aws:policy/"

  /** `arn_for`: the ARN that probably holds the named AWS-managed policy. */
  function ArnFor(name: string): (r: string)
    ensures MANAGED_ARN_PREFIX <= r && r[|MANAGED_ARN_PREFIX|..] == name
  {
    MANAGED_ARN_PREFIX + name
  }

  /** Python's `s.split(sep)`: the pieces between the separators, from left
      to right, with an empty piece before a leading, after a trailing and
      between two adjacent separators. */
  function Split(s: string, sep: char): (r: seq<string>)
    ensures |r| >= 1
    ensures forall k :: 0 <= k < |r| ==> sep !in r[k]
  {
    if s == [] then [[]]
    else
      var pieces := Split(s[..|s| - 1], sep);
      var c := s[|s| - 1];
      if c == sep then pieces + [[]]
      else pieces[..|pieces| - 1] + [pieces[|pieces| - 1] + [c]]
  }

  /** Python's `sep.join(pieces)`. */
  function Join(pieces: seq<string>, sep: char): string {
    if |pieces| <= 1 then (if pieces == [] then [] else pieces[0])
    else Join(pieces[..|pieces| - 1], sep) + [sep] + pieces[|pieces| - 1]
  }

  /** Splitting loses nothing: joining the pieces with the separator gives
      the string back. */
  lemma {:induction false} SplitJoin(s: string, sep: char)
    ensures Join(Split(s, sep), sep) == s
  {
    if s != [] {
      var init, c := s[..|s| - 1], s[|s| - 1];
      SplitJoin(init, sep);
      assert s == init + [c];
      if c == sep {
        JoinSnoc(Split(init, sep), [], sep);
      } else {
        JoinExtendLast(Split(init, sep), c, sep);
      }
    }
  }

  /** One more piece adds a separator and the piece. */
  lemma JoinSnoc(pieces: seq<string>, p: string, sep: char)
    requires |pieces| >= 1
    ensures Join(pieces + [p], sep) == Join(pieces, sep) + [sep] + p
  {
    assert (pieces + [p])[..|pieces|] == pieces;
  }

  /** A character more on the last piece is a character more at the end. */
  lemma JoinExtendLast(pieces: seq<string>, c: char, sep: char)
    requires |pieces| >= 1
    ensures Join(pieces[..|pieces| - 1] + [pieces[|pieces| - 1] + [c]], sep) == Join(pieces, sep) + [c]
  {
    var front := pieces[..|pieces| - 1];
    if |pieces| > 1 {
      JoinSnoc(front, pieces[|pieces| - 1], sep);
      JoinSnoc(front, pieces[|pieces| - 1] + [c], sep);
      assert front + [pieces[|pieces| - 1]] == pieces;
    }
  }

  /** `name_for`: the last `/`-separated piece of an ARN, which is the whole
      string when it has no `/`. */
  function NameFor(arn: string): (r: string)
    ensures '/' !in r
    ensures |r| <= |arn| && r == arn[|arn| - |r|..]
    ensures '/' !in arn ==> r == arn
  {
    AfterLast(arn, '/')
  }

  /** `name_for` is `arn.split("/")[-1]`. */
  lemma {:induction false} NameForIsLastPiece(arn: string)
    ensures var pieces := Split(arn, '/'); NameFor(arn) == pieces[|pieces| - 1]
  {
    if arn != [] {
      NameForIsLastPiece(arn[..|arn| - 1]);
    }
  }

  /** Appending text without a separator to a string that ends with one
      leaves exactly that text after the last separator. */
  lemma {:induction false} AfterLastSuffix(prefix: string, tail: string, sep: char)
    requires |prefix| > 0 && prefix[|prefix| - 1] == sep
    requires sep !in tail
    ensures AfterLast(prefix + tail, sep) == tail
  {
    var s := prefix + tail;
    if tail == [] {
      assert s == prefix;
    } else {
      var front := tail[..|tail| - 1];
      assert s[..|s| - 1] == prefix + front;
      AfterLastSuffix(prefix, front, sep);
      assert front + [tail[|tail| - 1]] == tail;
    }
  }

  /** A name without `/` survives the round trip through its ARN. */
  lemma NameForArnFor(name: string)
    requires '/' !in name
    ensures NameFor(ArnFor(name)) == name
  {
    AfterLastSuffix(MANAGED_ARN_PREFIX, name, '/');
  }

  /** A name with a path does not: only the part after the last `/` comes
      back. */
  lemma NameForArnForNested(path: string, name: string)
    requires '/' !in name
    ensures NameFor(ArnFor(path + "/" + name)) == name
  {
    var prefix := MANAGED_ARN_PREFIX + path + "/";
    assert ArnFor(path + "/" + name) == prefix + name;
    AfterLastSuffix(prefix, name, '/');
  }
}

=== FILE: canon.dfy ===
/** The wildcard canonicaliser (wonk/models.py:294-346): reduces a set of
    action or resource names to the entries that no other entry's `*`
    pattern covers, one spelling per case-insensitive class, ordered by the
    case-folded spelling. */
module Canon {
  import opened Strings
  import opened Glob

  /** What `collect_wildcard_matches` and `canonicalize_resources` return:
      a bare string or a list of strings. */
  datatype Value = Str(s: string) | List(items: seq<string>)

  /** `to_set` on a canonical value (models.py:349-354). */
  function Elements(v: Value): set<string> {
    match v
    case Str(s) => {s}
    case List(xs) => set x | x in xs
  }

  /** The case-folded spellings present in `items`: the keys of the
      `unique` dictionary of `deduped_items`. */
  function Folds(items: set<string>): set<string> {
    set x | x in items :: Lower(x)
  }

  /** `x` is the spelling `deduped_items` keeps for its case class: the
      first of the class in case-sensitive order. */
  predicate Representative(items: set<string>, x: string) {
    x in items && forall y :: y in items && y != x && Lower(y) == Lower(x) ==> Less(x, y)
  }

  /** Strictly increasing by case-folded spelling. */
  predicate FoldSorted(xs: seq<string>) {
    forall i, j :: 0 <= i < j < |xs| ==> Less(Lower(xs[i]), Lower(xs[j]))
  }

  lemma RepresentativeUnique(items: set<string>, x: string, y: string)
    requires Representative(items, x) && Representative(items, y)
    requires Lower(x) == Lower(y)
    ensures x == y
  {
    if x != y {
      LessAsymmetric(x, y);
    }
  }

  /** `sorted(values)[0]` for the case class whose folded spelling is `k`. */
  function RepresentativeOf(items: set<string>, k: string): (x: string)
    requires k in Folds(items)
    ensures Representative(items, x) && Lower(x) == k
  {
    var cls := set y | y in items && Lower(y) == k;
    assert cls != {} by {
      var w :| w in items && Lower(w) == k;
      assert w in cls;
    }
    MinOf(cls)
  }

  /** `deduped_items` (models.py:294-305): one entry per case class, the
      class's first case-sensitive spelling, in case-folded order. */
  function DedupedItems(items: set<string>): (r: seq<string>)
    ensures FoldSorted(r)
    ensures forall x :: x in r <==> Representative(items, x)
  {
    var keys := SortedSet(Folds(items));
    var r := seq(|keys|, i requires 0 <= i < |keys| => RepresentativeOf(items, keys[i]));
    assert forall i :: 0 <= i < |r| ==> Lower(r[i]) == keys[i];
    forall x | Representative(items, x)
      ensures x in r
    {
      assert Lower(x) in Folds(items);
      var i :| 0 <= i < |keys| && keys[i] == Lower(x);
      RepresentativeUnique(items, x, r[i]);
    }
    r
  }

  /** Deduplication loses no case class: every entry's folded spelling is
      that of some kept entry. */
  lemma DedupedCovers(items: set<string>, x: string)
    requires x in items
    ensures exists y :: y in DedupedItems(items) && Lower(y) == Lower(x)
  {
    var y := RepresentativeOf(items, Lower(x));
    assert y in DedupedItems(items);
  }

  /** Some entry of `items` other than `x`'s own case class has a `*`
      pattern that matches `x` (models.py:331-334). The source keeps one
      pattern per case-folded wildcard entry; by `PatternIgnoresCase` every
      entry of that class yields the same matches, so ranging over all
      wildcard entries is the same test. */
  predicate Shadowed(items: set<string>, x: string) {
    exists p :: p in items && '*' in p && Lower(p) != Lower(x) && Matches(p, x)
  }

  /** The filtering loop of `collect_wildcard_matches` (models.py:327-337). */
  function Unshadowed(items: set<string>, xs: seq<string>): (r: seq<string>)
    ensures forall x :: x in r <==> x in xs && !Shadowed(items, x)
    ensures FoldSorted(xs) ==> FoldSorted(r)
  {
    if xs == [] then []
    else
      var rest := Unshadowed(items, xs[1..]);
      assert FoldSorted(xs) ==> FoldSorted(xs[1..]) by {
        if FoldSorted(xs) {
          forall i, j | 0 <= i < j < |xs[1..]|
            ensures Less(Lower(xs[1..][i]), Lower(xs[1..][j]))
          {
            assert xs[1..][i] == xs[i + 1] && xs[1..][j] == xs[j + 1];
          }
        }
      }
      if Shadowed(items, xs[0]) then rest
      else
        var r := [xs[0]] + rest;
        assert FoldSorted(xs) ==> FoldSorted(r) by {
          if FoldSorted(xs) {
            forall i, j | 0 <= i < j < |r|
              ensures Less(Lower(r[i]), Lower(r[j]))
            {
              assert r[j] == rest[j - 1];
              if i == 0 {
                assert r[j] in rest;
                var k :| 0 <= k < |xs[1..]| && xs[1..][k] == r[j];
                assert xs[k + 1] == r[j];
              } else {
                assert r[i] == rest[i - 1];
              }
            }
          }
        }
        r
  }

  lemma SingletonSet(s: set<string>, m: string)
    requires |s| == 1 && m in s
    ensures s == {m}
  {
    var t := s - {m};
    assert |t| == 0;
  }

  /** `collect_wildcard_matches` (models.py:308-337). A one-element set comes
      back as that bare string; any other set comes back as the list of its
      case-class representatives that no differently-cased wildcard entry
      matches, in case-folded order. */
  function CollectWildcardMatches(items: set<string>): (r: Value)
    ensures |items| == 1 ==> r.Str? && items == {r.s}
    ensures |items| != 1 ==> r.List? && FoldSorted(r.items)
    ensures |items| != 1 ==> forall x :: x in r.items <==> Representative(items, x) && !Shadowed(items, x)
  {
    if |items| == 1 then
      var m := MinOf(items);
      SingletonSet(items, m);
      Str(m)
    else
      List(Unshadowed(items, DedupedItems(items)))
  }

  /** `canonicalize_resources` (models.py:340-346): a universal resource
      short-circuits the reduction. */
  function CanonicalizeResources(resources: set<string>): (r: Value)
    ensures "*" in resources ==> r == Str("*")
    ensures "*" !in resources ==> r == CollectWildcardMatches(resources)
  {
    if "*" in resources then Str("*") else CollectWildcardMatches(resources)
  }

  /** Every canonical value names only entries of its input. */
  lemma CollectIsSubset(items: set<string>)
    ensures Elements(CollectWildcardMatches(items)) <= items
  {
  }

  lemma {:induction false} FoldSortedUnique(a: seq<string>, b: seq<string>)
    requires FoldSorted(a) && FoldSorted(b)
    requires forall x :: x in a <==> x in b
    ensures a == b
  {
    if |a| > 0 && |b| > 0 {
      assert a[0] in a && b[0] in b;
      if a[0] != b[0] {
        var k :| 0 <= k < |b| && b[k] == a[0];
        var m :| 0 <= m < |a| && a[m] == b[0];
        LessAsymmetric(Lower(a[0]), Lower(b[0]));
      }
      forall x
        ensures x in a[1..] <==> x in b[1..]
      {
        if x in a[1..] {
          var i :| 0 <= i < |a[1..]| && a[1..][i] == x;
          assert a[1 + i] == x;
          LessIrreflexive(Lower(a[0]));
          assert x in b;
          var k :| 0 <= k < |b| && b[k] == x;
          assert k != 0;
          assert b[1..][k - 1] == x;
        }
        if x in b[1..] {
          var i :| 0 <= i < |b[1..]| && b[1..][i] == x;
          assert b[1 + i] == x;
          LessIrreflexive(Lower(b[0]));
          assert x in a;
          var k :| 0 <= k < |a| && a[k] == x;
          assert k != 0;
          assert a[1..][k - 1] == x;
        }
      }
      FoldSortedUnique(a[1..], b[1..]);
      assert a == [a[0]] + a[1..];
      assert b == [b[0]] + b[1..];
    } else if |a| > 0 {
      HeadIn(a);
      assert false;
    } else if |b| > 0 {
      HeadIn(b);
      assert false;
    }
  }

  /** In a list with distinct case-folded spellings every entry is its own
      case class's representative. */
  lemma FoldSortedRepresentative(xs: seq<string>, y: string)
    requires FoldSorted(xs) && y in xs
    ensures Representative((set z | z in xs), y)
  {
    forall z | z in xs && z != y
      ensures Lower(z) != Lower(y)
    {
      var i :| 0 <= i < |xs| && xs[i] == y;
      var j :| 0 <= j < |xs| && xs[j] == z;
      if i < j {
        assert Less(Lower(y), Lower(z));
      } else {
        assert Less(Lower(z), Lower(y));
      }
      LessIrreflexive(Lower(y));
    }
  }

  /** Deduplicating a list that is already strictly case-folded sorted
      returns it unchanged. */
  lemma DedupedOfFoldSorted(xs: seq<string>)
    requires FoldSorted(xs)
    ensures DedupedItems(set z | z in xs) == xs
  {
    var x := set z | z in xs;
    forall y
      ensures y in DedupedItems(x) <==> y in xs
    {
      if y in xs {
        FoldSortedRepresentative(xs, y);
      }
    }
    FoldSortedUnique(DedupedItems(x), xs);
  }

  /** Shadowing by a subset of the entries implies shadowing by all of them. */
  lemma ShadowedMonotone(sub: set<string>, items: set<string>, y: string)
    requires sub <= items && Shadowed(sub, y)
    ensures Shadowed(items, y)
  {
    var p :| p in sub && '*' in p && Lower(p) != Lower(y) && Matches(p, y);
    assert p in items;
  }

  /** Entries no wildcard of `items` shadows are not shadowed by any part
      of `items` either. */
  lemma UnshadowedWithin(sub: set<string>, items: set<string>, xs: seq<string>)
    requires sub <= items
    requires forall y :: y in xs ==> !Shadowed(items, y)
    ensures forall y :: y in xs ==> !Shadowed(sub, y)
  {
    forall y | y in xs
      ensures !Shadowed(sub, y)
    {
      if Shadowed(sub, y) {
        ShadowedMonotone(sub, items, y);
      }
    }
  }

  /** A case-folded sorted list none of whose entries the others shadow is
      its own canonical form. */
  lemma SortedUnshadowedFixed(xs: seq<string>)
    requires FoldSorted(xs) && |set z | z in xs| != 1
    requires forall y :: y in xs ==> !Shadowed((set z | z in xs), y)
    ensures CollectWildcardMatches(set z | z in xs) == List(xs)
  {
    var x := set z | z in xs;
    DedupedOfFoldSorted(xs);
    var again := Unshadowed(x, xs);
    assert forall y :: y in again <==> y in xs;
    FoldSortedUnique(again, xs);
  }

  /** Canonicalising a canonical list of other than one entry again returns
      the same list. */
  lemma CollectListIdempotent(items: set<string>)
    requires |items| != 1
    requires |Elements(CollectWildcardMatches(items))| != 1
    ensures CollectWildcardMatches(Elements(CollectWildcardMatches(items))) == CollectWildcardMatches(items)
  {
    var xs := CollectWildcardMatches(items).items;
    CollectIsSubset(items);
    UnshadowedWithin((set z | z in xs), items, xs);
    SortedUnshadowedFixed(xs);
  }

  /** Canonicalising a canonical value again changes nothing: the reduction
      is idempotent as a set, and also as a value unless the list it
      produced holds exactly one entry (which a second pass unwraps to a
      bare string). */
  lemma CollectIdempotent(items: set<string>)
    ensures var c := CollectWildcardMatches(items);
      Elements(CollectWildcardMatches(Elements(c))) == Elements(c)
    ensures var c := CollectWildcardMatches(items);
      |Elements(c)| != 1 ==> CollectWildcardMatches(Elements(c)) == c
  {
    var c := CollectWildcardMatches(items);
    if |items| != 1 && |Elements(c)| != 1 {
      CollectListIdempotent(items);
    }
  }

  /** Only `*` itself folds to `*`. */
  lemma FoldsToStar(y: string)
    requires Lower(y) == "*"
    ensures y == "*"
  {
    assert |y| == 1;
    assert Lower(y)[0] == Fold(y[0]);
    FoldStar(y[0]);
    assert y == [y[0]];
  }

  /** The universal resource shadows every other resource that has no
      newline before its last character. */
  lemma StarShadows(resources: set<string>, y: string)
    requires "*" in resources && y != "*"
    requires '\n' !in WithoutFinalNewline(y)
    ensures Shadowed(resources, y)
  {
    StarMatchesAll(y);
    assert Lower("*") == "*";
    if Lower(y) == "*" {
      FoldsToStar(y);
    }
    assert '*' in "*";
  }

  /** With `*` present, `*` is its own case class's representative and
      nothing else in its class exists. */
  lemma StarIsRepresentative(resources: set<string>)
    requires "*" in resources
    ensures Representative(resources, "*")
  {
    forall y | y in resources && y != "*"
      ensures Lower(y) != Lower("*")
    {
      assert Lower("*") == "*";
      if Lower(y) == "*" {
        FoldsToStar(y);
      }
    }
  }

  /** The universal resource short-circuit agrees, as a set, with the
      general reduction whenever no other entry's pattern matches the
      literal name `*` and no entry has a newline before its last
      character: `*` then shadows every other entry anyway. */
  lemma StarShortCircuitAgrees(resources: set<string>)
    requires "*" in resources
    requires forall y :: y in resources ==> '\n' !in WithoutFinalNewline(y)
    requires forall p :: p in resources && p != "*" ==> !Matches(p, "*")
    ensures Elements(CollectWildcardMatches(resources)) == Elements(CanonicalizeResources(resources))
  {
    if |resources| != 1 {
      var c := CollectWildcardMatches(resources);
      StarIsRepresentative(resources);
      assert !Shadowed(resources, "*");
      forall y | y in Elements(c)
        ensures y == "*"
      {
        if y != "*" {
          StarShadows(resources, y);
        }
      }
      assert "*" in Elements(c);
    } else {
      SingletonSet(resources, "*");
    }
  }
}

=== FILE: chunks.dfy ===
/** The chunk arithmetic shared by the two action splitters
    (wonk/models.py:189-192 and wonk/policy.py:107-110): how many pieces a
    statement is cut into, how long each piece is, and the slicing itself. */
module Chunks {
  import opened Exceptions

  /** Python's `math.ceil(a / b)` for integers, exact (no float rounding). */
  function CeilDiv(a: int, b: int): (r: int)
    requires b != 0
    ensures b > 0 ==> (r - 1) * b < a <= r * b
    ensures b < 0 ==> (r - 1) * b > a >= r * b
  {
    if b > 0 then
      var q := (-a) / b;
      assert -a == q * b + (-a) % b;
      -q
    else
      var q := a / (-b);
      assert a == q * (-b) + a % (-b);
      -q
  }

  /** The bounds of `CeilDiv` pin its value down. */
  lemma CeilDivUnique(a: int, b: int, r: int)
    requires b > 0 && (r - 1) * b < a <= r * b
    ensures r == CeilDiv(a, b)
  {
    var c := CeilDiv(a, b);
    if r < c {
      MulLe(r, c - 1, b);
    } else if c < r {
      MulLe(c, r - 1, b);
    }
  }

  lemma MulLe(x: int, y: int, b: int)
    requires x <= y && b >= 0
    ensures x * b <= y * b
  {
    assert y * b - x * b == (y - x) * b;
  }

  /** Python's `a / b` raised to the next integer when `b` is written as a
      fraction `num / den` of positive denominator: `ceil(a / (num / den))`. */
  function CeilDivFraction(a: int, num: int, den: nat): (r: int)
    requires num != 0 && den > 0
    ensures num > 0 ==> (r - 1) * num < a * den <= r * num
  {
    CeilDiv(a * den, num)
  }

  /** The number of chunks and the chunk size a splitter uses for a
      statement whose compact form is `textLen` long and whose action list
      holds `count` entries, against the size limit `maxSize`. The factor
      0.45 is the exact fraction 9/20. The errors are the ones Python raises:
      a zero limit divides by zero, so does a zero chunk count, and a zero
      chunk size is an invalid `range` step. A negative chunk size makes the
      `range` empty, which the caller sees as no chunks at all. */
  function ChunkSize(textLen: nat, maxSize: int, count: nat): (r: Result<int>)
    ensures maxSize == 0 ==> r == Err(ZeroDivision)
    ensures maxSize > 0 && textLen > 0 && count > 0 ==> r.Ok? && r.value > 0
    ensures maxSize > 0 && textLen > 0 && count > 0 ==>
      var chunks := CeilDivFraction(textLen, 9 * maxSize, 20);
      (r.value - 1) * chunks < count <= r.value * chunks
    ensures count == 0 && maxSize > 0 && textLen > 0 ==> r == Err(ZeroRangeStep)
  {
    if maxSize == 0 then Err(ZeroDivision)
    else
      var chunks := CeilDivFraction(textLen, 9 * maxSize, 20);
      assert maxSize > 0 && textLen > 0 ==> chunks > 0 by {
        if maxSize > 0 && textLen > 0 && chunks <= 0 {
          MulLe(chunks, 0, 9 * maxSize);
        }
      }
      if chunks == 0 then Err(ZeroDivision)
      else
        var size := CeilDiv(count, chunks);
        assert chunks > 0 && count > 0 ==> size > 0 by {
          if chunks > 0 && count > 0 && size <= 0 {
            MulLe(size, 0, chunks);
          }
        }
        if size == 0 then Err(ZeroRangeStep) else Ok(size)
  }

  /** `[xs[b : b + size] for b in range(0, len(xs), size)]`. */
  function Chunk<T>(xs: seq<T>, size: nat): (r: seq<seq<T>>)
    requires size > 0
    ensures forall k :: 0 <= k < |r| ==> 0 < |r[k]| <= size
    ensures forall k :: 0 <= k < |r| - 1 ==> |r[k]| == size
    decreases |xs|
  {
    if |xs| == 0 then []
    else if |xs| <= size then [xs]
    else
      var rest := Chunk(xs[size..], size);
      var r := [xs[..size]] + rest;
      assert forall k :: 1 <= k < |r| ==> r[k] == rest[k - 1];
      r
  }

  function Flatten<T>(xss: seq<seq<T>>): seq<T> {
    if |xss| == 0 then [] else xss[0] + Flatten(xss[1..])
  }

  /** The chunks are consecutive slices: glued back together they give the
      original list, and there are exactly `ceil(len(xs) / size)` of them. */
  lemma ChunkPartitions<T>(xs: seq<T>, size: nat)
    requires size > 0
    ensures Flatten(Chunk(xs, size)) == xs
    ensures |Chunk(xs, size)| == CeilDiv(|xs|, size)
  {
    ChunkFlatten(xs, size);
    ChunkCount(xs, size);
  }

  lemma {:induction false} ChunkFlatten<T>(xs: seq<T>, size: nat)
    requires size > 0
    ensures Flatten(Chunk(xs, size)) == xs
    decreases |xs|
  {
    if 0 < |xs| <= size {
      assert Flatten(Chunk(xs, size)) == xs + Flatten<T>([]);
    } else if |xs| > size {
      var rest := Chunk(xs[size..], size);
      ChunkFlatten(xs[size..], size);
      assert Chunk(xs, size)[1..] == rest;
      assert xs == xs[..size] + xs[size..];
    }
  }

  lemma {:induction false} ChunkCount<T>(xs: seq<T>, size: nat)
    requires size > 0
    ensures |Chunk(xs, size)| == CeilDiv(|xs|, size)
    decreases |xs|
  {
    if |xs| == 0 {
      CeilDivUnique(0, size, 0);
    } else if |xs| <= size {
      CeilDivUnique(|xs|, size, 1);
    } else {
      ChunkCount(xs[size..], size);
      assert |Chunk(xs, size)| == 1 + |Chunk(xs[size..], size)|;
      CeilDivStep(|xs| - size, size);
    }
  }

  /** One more `size` is one more chunk. */
  lemma CeilDivStep(a: int, size: int)
    requires size > 0
    ensures CeilDiv(a + size, size) == CeilDiv(a, size) + 1
  {
    var c := CeilDiv(a, size);
    MulSucc(c - 1, size);
    MulSucc(c, size);
    CeilDivUnique(a + size, size, c + 1);
  }

  lemma MulSucc(k: int, size: int)
    ensures (k + 1) * size == k * size + size
  {
  }

  /** The `k`-th chunk starts at `k * size`. */
  lemma {:induction false} ChunkAt<T>(xs: seq<T>, size: nat, k: nat)
    requires size > 0 && k < |Chunk(xs, size)|
    ensures k * size < |xs|
    ensures Chunk(xs, size)[k] == xs[k * size .. if (k + 1) * size <= |xs| then (k + 1) * size else |xs|]
    decreases |xs|
  {
    if |xs| > size && k > 0 {
      var tail := xs[size..];
      assert Chunk(xs, size)[k] == Chunk(tail, size)[k - 1];
      ChunkAt(tail, size, k - 1);
      MulSucc(k - 1, size);
      MulSucc(k, size);
      var lo := (k - 1) * size;
      var hi := if k * size <= |tail| then k * size else |tail|;
      SliceOfTail(xs, size, lo, hi);
    }
  }

  lemma SliceOfTail<T>(xs: seq<T>, size: nat, lo: nat, hi: nat)
    requires size <= |xs| && lo <= hi <= |xs| - size
    ensures xs[size..][lo..hi] == xs[size + lo .. size + hi]
  {
  }
}

=== FILE: combine.dfy ===
/** `render`, `blank_policy` and `combine` (wonk/policy.py:50-169): the
    grouped statements as one policy document, and, when that document does
    not fit in a managed policy, its statements cut into fragments, packed
    into at most ten bins and regrouped bin by bin. `uuid4().hex` is the
    caller's `uuid`, indexed by the order of the calls; the packer's solver is
    the caller's `sol`. */
module Combine {
  import opened Exceptions
  import opened Json
  import opened Statements
  import opened Sorting
  import opened Chunks
  import opened PolicyDoc
  import opened Grouping
  import opened Split
  import opened Optimizer

  /** A policy document as `blank_policy` lays it out, with identifier `id`. */
  predicate Document(d: Json, id: string) {
    && d.JObj? && d.obj.Keys == {VERSION, ID, STATEMENT}
    && d.obj[VERSION] == JStr(POLICY_VERSION) && d.obj[ID] == JStr(id)
  }

  /** The number of bins `combine` offers the packer. */
  const MAX_POLICIES: nat := 10

  /** `blank_policy()`: a document with no statements. */
  function Blank(id: string): (r: Json)
    ensures r.JObj? && r.obj.Keys == {VERSION, ID, STATEMENT}
    ensures r.obj[VERSION] == JStr(POLICY_VERSION) && r.obj[ID] == JStr(id) && r.obj[STATEMENT] == JArr([])
  {
    JObj(map[VERSION := JStr(POLICY_VERSION), ID := JStr(id), STATEMENT := JArr([])])
  }

  /** The groups' statements, in group order. */
  function GroupStatements(groups: seq<Group>): (r: seq<Statement>)
    requires WellGrouped(groups)
    ensures |r| == |groups| && AllValid(r)
    ensures forall i :: 0 <= i < |groups| ==> r[i] == groups[i].statement
  {
    seq(|groups|, i requires 0 <= i < |groups| => groups[i].statement)
  }

  /** `sorted(statement_sets.values(), key=sorting_key)`: every group once,
      in ascending sorting-key order. */
  function Ordered(groups: seq<Group>, dumps: Dumps): (r: seq<Statement>)
    requires WellGrouped(groups)
    ensures AllValid(r)
    ensures multiset(r) == multiset(GroupStatements(groups))
    ensures forall i, j :: 0 <= i < j < |r| ==> !KeyLess(SortingKey(r[j], dumps), SortingKey(r[i], dumps))
  {
    SortStatements(GroupStatements(groups), dumps)
  }

  /** `render(statement_sets)`: a blank document holding the AWS-ready form
      of every group's statement, in ascending sorting-key order. */
  function Render(groups: seq<Group>, id: string, dumps: Dumps): (r: Json)
    requires WellGrouped(groups)
    ensures r.JObj? && r.obj.Keys == {VERSION, ID, STATEMENT}
    ensures r.obj[VERSION] == JStr(POLICY_VERSION) && r.obj[ID] == JStr(id)
    ensures r.obj[STATEMENT].JArr? && |r.obj[STATEMENT].arr| == |groups|
    ensures forall i :: 0 <= i < |groups| ==> r.obj[STATEMENT].arr[i] == JObj(AsJson(Ordered(groups, dumps)[i]))
  {
    var ordered := Ordered(groups, dumps);
    assert |ordered| == |groups| by {
      assert |multiset(ordered)| == |multiset(GroupStatements(groups))|;
    }
    JObj(Blank(id).obj[STATEMENT := StatementsJson(ordered)])
  }

  /** Every group's statement appears in the rendered document exactly as
      often as among the groups, and each group is a different key, so the
      document holds one statement per group. */
  lemma RenderHoldsEveryGroup(groups: seq<Group>, id: string, dumps: Dumps, k: nat)
    requires WellGrouped(groups) && k < |groups|
    ensures exists i :: 0 <= i < |groups| && Render(groups, id, dumps).obj[STATEMENT].arr[i] == JObj(AsJson(groups[k].statement))
  {
    var ordered := Ordered(groups, dumps);
    assert groups[k].statement == GroupStatements(groups)[k];
    assert groups[k].statement in multiset(GroupStatements(groups));
    assert groups[k].statement in multiset(ordered);
    var i :| 0 <= i < |ordered| && ordered[i] == groups[k].statement;
    assert |multiset(ordered)| == |multiset(GroupStatements(groups))|;
    assert Render(groups, id, dumps).obj[STATEMENT].arr[i] == JObj(AsJson(ordered[i]));
  }

  /** `tiniest_json(statement)`. */
  function Tiniest(data: Data, dumps: Dumps): string {
    dumps(JObj(data), TINIEST)
  }

  /** How `combine` sizes the room for statements in one document, from the
      number of statements and the size of the smallest envelope. */
  type CapacityRule = (nat, nat) -> int

  /** `max_statement_size` as written: the maximum size less the smallest
      envelope and less `n - 2` commas, on the claim that a bin never holds
      all `n` statements. The packer does not keep that claim: a bin may
      hold all of them, and `n` statements need `n - 1` commas. */
  function CapacityAsWritten(n: nat, envelope: nat): int {
    MAX_MANAGED_POLICY_SIZE - envelope - (n - 2)
  }

  /** One for the first bin, zero for the others. */
  function FirstOnly(j: nat): int {
    if j == 0 then 1 else 0
  }

  /** Two statements that just miss the limit together: the merged
      document is one character too long, yet a single bin holding both
      meets every packing constraint at the capacity as written, and
      regrouping that bin rebuilds a document of the same size. */
  lemma CapacityAsWrittenOverflows(envelope: nat, a: nat, b: nat) returns (sol: Solution)
    requires a + b == CapacityAsWritten(2, envelope)
    ensures sol.status == Optimal
    ensures Satisfies([a, b], CapacityAsWritten(2, envelope), MAX_POLICIES, sol)
    ensures PackIndices([a, b], CapacityAsWritten(2, envelope), MAX_POLICIES, sol) == Ok([Bin(0, [0, 1])])
    ensures envelope + SizeOf([a, b], [0, 1]) + 1 == MAX_MANAGED_POLICY_SIZE + 1
  {
    sol := Solution(Optimal, (i: nat, j: nat) => FirstOnly(j), FirstOnly);
    var sizes: seq<nat> := [a, b];
    var cap := CapacityAsWritten(2, envelope);
    forall i, j | 0 <= i < |sizes| && 0 <= j < MAX_POLICIES
      ensures ZeroOne(sol.x(i, j)) && ZeroOne(sol.y(j))
    {
    }
    forall i | 0 <= i < |sizes|
      ensures RowSum(sol, i, MAX_POLICIES) == 1
    {
      RowSumFirstOnly(sol, i, MAX_POLICIES);
    }
    forall j | 0 <= j < MAX_POLICIES
      ensures Load(sizes, sol, j, |sizes|) <= sol.y(j) * cap
    {
      if j == 0 {
        assert Load(sizes, sol, 0, 1) == a;
      } else {
        assert sol.y(j) == 0 && sol.x(0, j) == 0 && sol.x(1, j) == 0;
        assert Load(sizes, sol, j, 1) == 0;
      }
    }
    assert Members(sol, 0, 1) == [0];
    assert Members(sol, 0, 2) == [0, 1];
    ExtractClosed(sol, 2, MAX_POLICIES);
    assert Extract(sol, 2, 1) == [Bin(0, [0, 1])];
    assert SizeOf(sizes, [0]) == a by {
      assert [0][..0] == [];
    }
    assert SizeOf(sizes, [0, 1]) == a + b by {
      assert [0, 1][..1] == [0];
    }
  }

  /** The room for statements in one document: the maximum size less the
      smallest envelope and less the `n - 1` commas that glue `n`
      statements together, one character less than as written. */
  function Capacity(n: nat, envelope: nat): (r: int)
    ensures r == CapacityAsWritten(n, envelope) - 1
  {
    MAX_MANAGED_POLICY_SIZE - envelope - (n - 1)
  }

  /** Why the capacity is enough: when no statement is split, every bin the
      packer returns under the constraints holds at most the `n` statements,
      so its statements, the commas between them and the smallest envelope
      fit in a managed policy. */
  lemma CapacityRoom(sizes: seq<nat>, envelope: nat, sol: Solution, k: nat)
    requires Satisfies(sizes, Capacity(|sizes|, envelope), MAX_POLICIES, sol)
    requires PackIndices(sizes, Capacity(|sizes|, envelope), MAX_POLICIES, sol).Ok?
    requires k < |PackIndices(sizes, Capacity(|sizes|, envelope), MAX_POLICIES, sol).value|
    ensures var members := PackIndices(sizes, Capacity(|sizes|, envelope), MAX_POLICIES, sol).value[k].members;
      envelope + SizeOf(sizes, members) + (|members| - 1) <= MAX_MANAGED_POLICY_SIZE
  {
    var cap := Capacity(|sizes|, envelope);
    PackFits(sizes, cap, MAX_POLICIES, sol);
    PackBinAtMostAll(sizes, cap, MAX_POLICIES, sol, k);
  }

  /** The `packed_list` entries one statement contributes: the statement
      itself when its compact form fits in `cap`, its `split_statement`
      pieces otherwise. */
  function FragmentsOf(data: Data, cap: int, dumps: Dumps): (r: Result<seq<Data>>)
    ensures |Tiniest(data, dumps)| <= cap ==> r == Ok([data])
    ensures |Tiniest(data, dumps)| > cap ==> r == SplitStatement(data, cap, dumps)
  {
    if |Tiniest(data, dumps)| > cap then SplitStatement(data, cap, dumps) else Ok([data])
  }

  /** The `packed_list` of `combine`, before serialisation. */
  function Fragments(datas: seq<Data>, cap: int, dumps: Dumps): (r: Result<seq<Data>>)
  {
    if datas == [] then Ok([])
    else
      var first :- FragmentsOf(datas[0], cap, dumps);
      var rest :- Fragments(datas[1..], cap, dumps);
      Ok(first + rest)
  }

  /** The fragments of each statement, when every split succeeds. */
  function FragmentLists(datas: seq<Data>, cap: int, dumps: Dumps): (r: seq<seq<Data>>)
    requires forall i :: 0 <= i < |datas| ==> FragmentsOf(datas[i], cap, dumps).Ok?
    ensures |r| == |datas|
    ensures forall i :: 0 <= i < |datas| ==> r[i] == FragmentsOf(datas[i], cap, dumps).value
  {
    if datas == [] then []
    else [FragmentsOf(datas[0], cap, dumps).value] + FragmentLists(datas[1..], cap, dumps)
  }

  /** The fragments are the statements' own fragments, in statement order,
      and there are fragments exactly when every statement's split
      succeeds. */
  lemma {:induction false} FragmentsConcat(datas: seq<Data>, cap: int, dumps: Dumps)
    ensures Fragments(datas, cap, dumps).Ok? <==> forall i :: 0 <= i < |datas| ==> FragmentsOf(datas[i], cap, dumps).Ok?
    ensures Fragments(datas, cap, dumps).Ok? ==> Fragments(datas, cap, dumps).value == Flatten(FragmentLists(datas, cap, dumps))
  {
    if datas != [] {
      var tail := datas[1..];
      FragmentsConcat(tail, cap, dumps);
      assert forall i :: 0 <= i < |tail| ==> tail[i] == datas[i + 1];
      if forall i :: 0 <= i < |datas| ==> FragmentsOf(datas[i], cap, dumps).Ok? {
        var lists := FragmentLists(datas, cap, dumps);
        assert lists[1..] == FragmentLists(tail, cap, dumps);
      }
    }
  }

  /** Statements whose compact form fits in the capacity are not split. */
  lemma {:induction false} FragmentsKeepFitting(datas: seq<Data>, cap: int, dumps: Dumps)
    requires forall i :: 0 <= i < |datas| ==> |Tiniest(datas[i], dumps)| <= cap
    ensures Fragments(datas, cap, dumps) == Ok(datas)
  {
    if datas != [] {
      FragmentsKeepFitting(datas[1..], cap, dumps);
      assert [datas[0]] + datas[1..] == datas;
    }
  }

  /** A statement too large for the capacity, with a list of actions, is
      cut into pieces that keep every other entry and whose actions, glued
      back together, are its own. */
  lemma OversizedIsSplit(data: Data, cap: int, dumps: Dumps)
    requires |Tiniest(data, dumps)| > cap > 0
    requires WhichType(data, ACTION_KEYS).Ok?
    requires data[WhichType(data, ACTION_KEYS).value].JArr?
    requires |data[WhichType(data, ACTION_KEYS).value].arr| > 0
    ensures var ak := WhichType(data, ACTION_KEYS).value;
      var r := FragmentsOf(data, cap, dumps);
      && r.Ok?
      && (forall k :: 0 <= k < |r.value| ==>
            && r.value[k].Keys == data.Keys
            && (forall key :: key in data && key != ak ==> r.value[k][key] == data[key])
            && r.value[k][ak].JArr?)
      && JoinedRaw(r.value, ak) == data[ak].arr
  {
    SplitStatementPieces(data, cap, dumps);
  }

  /** One `unmerged_policy` of `combine`: a blank document holding the
      fragments of one bin. */
  function Unmerged(frags: seq<Data>, members: seq<nat>, id: string): (r: Json)
    requires Below(members, |frags|)
    ensures r.JObj? && STATEMENT in r.obj && r.obj[STATEMENT].JArr? && |r.obj[STATEMENT].arr| == |members|
    ensures forall k :: 0 <= k < |members| ==> r.obj[STATEMENT].arr[k] == JObj(frags[members[k]])
  {
    JObj(Blank(id).obj[STATEMENT := JArr(seq(|members|, k requires 0 <= k < |members| => JObj(frags[members[k]])))])
  }

  /** A bin's merged policy: its fragments regrouped and rendered with a
      fresh identifier. */
  function RegroupBin(frags: seq<Data>, members: seq<nat>, unmergedId: string, id: string, dumps: Dumps): (r: Result<Json>)
    requires Below(members, |frags|)
    ensures r.Ok? ==> Document(r.value, id)
    ensures r.Ok? ==> forall m :: 0 <= m < |members| ==>
      Valid(frags[members[m]]) && Holds(r.value, Statement(frags[members[m]]))
  {
    var groups :- GroupedStatements([Unmerged(frags, members, unmergedId)]);
    RegroupedHoldEvery(frags, members, unmergedId, id, dumps, groups);
    Ok(Render(groups, id, dumps))
  }

  lemma RegroupedHoldEvery(frags: seq<Data>, members: seq<nat>, unmergedId: string, id: string, dumps: Dumps, groups: seq<Group>)
    requires Below(members, |frags|)
    requires GroupedStatements([Unmerged(frags, members, unmergedId)]) == Ok(groups)
    ensures forall m :: 0 <= m < |members| ==>
      Valid(frags[members[m]]) && Holds(Render(groups, id, dumps), Statement(frags[members[m]]))
  {
    forall m | 0 <= m < |members|
      ensures Valid(frags[members[m]]) && Holds(Render(groups, id, dumps), Statement(frags[members[m]]))
    {
      RegroupedHolds(frags, members, unmergedId, id, dumps, groups, m);
    }
  }

  /** `doc` is a document holding, among its statements, one filed under
      the grouping key of `s` whose actions include those of `s`. */
  ghost predicate Holds(doc: Json, s: Statement)
    requires Valid(s.data)
  {
    && doc.JObj? && STATEMENT in doc.obj && doc.obj[STATEMENT].JArr?
    && exists t: Statement ::
      && Valid(t.data)
      && JObj(AsJson(t)) in doc.obj[STATEMENT].arr
      && GroupingForActions(t) == GroupingForActions(s)
      && ActionValue(s) <= ActionValue(t)
  }

  lemma HoldsAt(doc: Json, s: Statement, t: Statement, i: nat)
    requires Valid(s.data) && Valid(t.data)
    requires doc.JObj? && STATEMENT in doc.obj && doc.obj[STATEMENT].JArr?
    requires i < |doc.obj[STATEMENT].arr| && doc.obj[STATEMENT].arr[i] == JObj(AsJson(t))
    requires GroupingForActions(t) == GroupingForActions(s) && ActionValue(s) <= ActionValue(t)
    ensures Holds(doc, s)
  {
  }

  /** The statement entries of a bin's unmerged document are its fragments,
      in bin order. */
  lemma UnmergedStatements(frags: seq<Data>, members: seq<nat>, id: string)
    requires Below(members, |frags|)
    ensures StatementsOf(Unmerged(frags, members, id)).Ok?
    ensures var datas := StatementsOf(Unmerged(frags, members, id)).value;
      |datas| == |members| && forall k :: 0 <= k < |members| ==> datas[k] == frags[members[k]]
  {
    var u := Unmerged(frags, members, id);
    var arr := u.obj[STATEMENT].arr;
    assert forall k :: 0 <= k < |arr| ==> arr[k] == JObj(frags[members[k]]);
  }

  /** Regrouping a bin loses none of its fragments: each parses, and the
      rendered groups of the bin's unmerged document hold a statement
      under its key with all of its actions. */
  lemma RegroupedHolds(frags: seq<Data>, members: seq<nat>, unmergedId: string, id: string, dumps: Dumps, groups: seq<Group>, m: nat)
    requires Below(members, |frags|)
    requires GroupedStatements([Unmerged(frags, members, unmergedId)]) == Ok(groups)
    requires m < |members|
    ensures Valid(frags[members[m]])
    ensures Holds(Render(groups, id, dumps), Statement(frags[members[m]]))
  {
    var u := Unmerged(frags, members, unmergedId);
    UnmergedStatements(frags, members, unmergedId);
    CollectStatementsSpec([u]);
    assert DocumentParses([u][0]);
    var datas := StatementsOf(u).value;
    AllDataSingle(u);
    var ss := CollectStatements([u]).value;
    assert Valid(datas[m]) && ss[m] == Statement(frags[members[m]]);
    assert groups == Grouped(ss);
    var g := GroupOf(ss, m);
    var t := groups[g].statement;
    RenderHoldsEveryGroup(groups, id, dumps, g);
    var doc := Render(groups, id, dumps);
    var i :| 0 <= i < |groups| && doc.obj[STATEMENT].arr[i] == JObj(AsJson(t));
    HoldsAt(doc, Statement(frags[members[m]]), t, i);
  }

  /** The results in order, or the first error among them. */
  function Collect<T>(rs: seq<Result<T>>): (r: Result<seq<T>>)
    ensures r.Ok? <==> forall k :: 0 <= k < |rs| ==> rs[k].Ok?
    ensures r.Ok? ==> |r.value| == |rs| && forall k :: 0 <= k < |rs| ==> r.value[k] == rs[k].value
    ensures r.Err? ==> exists k :: 0 <= k < |rs| && rs[k] == Err(r.error) && forall j :: 0 <= j < k ==> rs[j].Ok?
  {
    if rs == [] then Ok([])
    else
      var first :- rs[0];
      var rest :- Collect(rs[1..]);
      assert forall k :: 1 <= k < |rs| ==> rs[k] == rs[1..][k - 1];
      Ok([first] + rest)
  }

  /** The merged policies of the packed bins, in bin order. The `k`-th
      bin's blank documents are the `2 + 2k`-th and `3 + 2k`-th identifiers
      drawn. */
  function Regroup(frags: seq<Data>, bins: seq<Bin>, uuid: nat -> string, dumps: Dumps): (r: Result<seq<Json>>)
    requires forall k :: 0 <= k < |bins| ==> Below(bins[k].members, |frags|)
    ensures r.Ok? ==> |r.value| == |bins|
  {
    Collect(BinResults(frags, bins, uuid, dumps))
  }

  function BinResults(frags: seq<Data>, bins: seq<Bin>, uuid: nat -> string, dumps: Dumps): (r: seq<Result<Json>>)
    requires forall k :: 0 <= k < |bins| ==> Below(bins[k].members, |frags|)
    ensures |r| == |bins|
  {
    seq(|bins|, k requires 0 <= k < |bins| => BinResult(frags, bins, uuid, dumps, k))
  }

  /** The `k`-th bin regrouped, with the `2 + 2k`-th and `3 + 2k`-th
      identifiers. */
  function BinResult(frags: seq<Data>, bins: seq<Bin>, uuid: nat -> string, dumps: Dumps, k: nat): Result<Json>
    requires k < |bins| && Below(bins[k].members, |frags|)
  {
    RegroupBin(frags, bins[k].members, uuid(2 + 2 * k), uuid(3 + 2 * k), dumps)
  }

  /** The `k`-th result is the `k`-th bin regrouped, with the
      `2 + 2k`-th and `3 + 2k`-th identifiers. */
  lemma BinResultAt(frags: seq<Data>, bins: seq<Bin>, uuid: nat -> string, dumps: Dumps, k: nat)
    requires forall k :: 0 <= k < |bins| ==> Below(bins[k].members, |frags|)
    requires k < |bins|
    ensures BinResults(frags, bins, uuid, dumps)[k] == BinResult(frags, bins, uuid, dumps, k)
  {
  }

  /** The `k`-th regrouped document holds every fragment of the `k`-th
      bin. */
  lemma RegroupHolds(frags: seq<Data>, bins: seq<Bin>, uuid: nat -> string, dumps: Dumps, k: nat, m: nat)
    requires forall k :: 0 <= k < |bins| ==> Below(bins[k].members, |frags|)
    requires Regroup(frags, bins, uuid, dumps).Ok?
    requires k < |bins| && m < |bins[k].members|
    ensures Valid(frags[bins[k].members[m]])
    ensures Holds(Regroup(frags, bins, uuid, dumps).value[k], Statement(frags[bins[k].members[m]]))
  {
    var rs := BinResults(frags, bins, uuid, dumps);
    BinResultAt(frags, bins, uuid, dumps, k);
    assert rs[k].Ok? && Regroup(frags, bins, uuid, dumps).value[k] == rs[k].value;
  }

  /** Every regrouped bin is a policy document, the `k`-th bin's named by
      the `3 + 2k`-th identifier drawn. */
  lemma RegroupDocuments(frags: seq<Data>, bins: seq<Bin>, uuid: nat -> string, dumps: Dumps)
    requires forall k :: 0 <= k < |bins| ==> Below(bins[k].members, |frags|)
    requires Regroup(frags, bins, uuid, dumps).Ok?
    ensures forall k :: 0 <= k < |bins| ==> Document(Regroup(frags, bins, uuid, dumps).value[k], uuid(3 + 2 * k))
  {
    var rs := BinResults(frags, bins, uuid, dumps);
    var r := Regroup(frags, bins, uuid, dumps).value;
    forall k | 0 <= k < |bins|
      ensures Document(r[k], uuid(3 + 2 * k))
    {
      BinResultAt(frags, bins, uuid, dumps, k);
      assert rs[k].Ok? && r[k] == rs[k].value;
    }
  }

  /** The statements of the single merged document, as JSON objects. */
  function RenderedStatements(groups: seq<Group>, dumps: Dumps): (r: seq<Data>)
    requires WellGrouped(groups)
    ensures |r| == |groups|
  {
    var ordered := Ordered(groups, dumps);
    assert |multiset(ordered)| == |multiset(GroupStatements(groups))|;
    seq(|ordered|, i requires 0 <= i < |ordered| => AsJson(ordered[i]))
  }

  /** `combine(policies)`, with the rule for the statement capacity passed
      in: `CapacityAsWritten` is the rule of policy.py:138-143, and
      `Capacity` the corrected one. */
  function Combine(policies: seq<Json>, capacity: CapacityRule, uuid: nat -> string, dumps: Dumps, sol: Solution): (r: Result<seq<Json>>)
    ensures GroupedStatements(policies).Err? ==> r == Err(GroupedStatements(policies).error)
    ensures GroupedStatements(policies).Ok? ==>
      var merged := Render(GroupedStatements(policies).value, uuid(0), dumps);
      && (FirstFitting(merged, MAX_MANAGED_POLICY_SIZE, true, dumps).Ok? ==> r == Ok([merged]))
      && (FirstFitting(merged, MAX_MANAGED_POLICY_SIZE, true, dumps).Err? ==> r == SplitAndPack(capacity, GroupedStatements(policies).value, uuid, dumps, sol))
  {
    var groups :- GroupedStatements(policies);
    var newPolicy := Render(groups, uuid(0), dumps);
    if FirstFitting(newPolicy, MAX_MANAGED_POLICY_SIZE, true, dumps).Ok? then Ok([newPolicy])
    else SplitAndPack(capacity, groups, uuid, dumps, sol)
  }

  /** Whatever `combine` returns is a list of policy documents: the merged
      document alone, named by the first identifier drawn, or at most ten
      regrouped bins, the `k`-th named by the `3 + 2k`-th. */
  lemma CombineDocuments(policies: seq<Json>, capacity: CapacityRule, uuid: nat -> string, dumps: Dumps, sol: Solution)
    requires Combine(policies, capacity, uuid, dumps, sol).Ok?
    ensures var r := Combine(policies, capacity, uuid, dumps, sol).value;
      || (|r| == 1 && Document(r[0], uuid(0)))
      || (|r| <= MAX_POLICIES && forall k :: 0 <= k < |r| ==> Document(r[k], uuid(3 + 2 * k)))
  {
    var groups := GroupedStatements(policies).value;
    var merged := Render(groups, uuid(0), dumps);
    if FirstFitting(merged, MAX_MANAGED_POLICY_SIZE, true, dumps).Err? {
      PackFragmentsDocuments(SplitFragments(capacity, groups, uuid, dumps).value, SplitCapacity(capacity, groups, uuid, dumps), uuid, dumps, sol);
    }
  }

  /** When the merged document fits, `combine` returns it alone, and it
      holds every statement of every input document: one filed under the
      statement's grouping key, with all of its actions. */
  lemma CombineMergedHolds(policies: seq<Json>, capacity: CapacityRule, uuid: nat -> string, dumps: Dumps, sol: Solution, i: nat)
    requires Combine(policies, capacity, uuid, dumps, sol).Ok?
    requires i < |CollectStatements(policies).value|
    ensures Valid(CollectStatements(policies).value[i].data)
    ensures var merged := Render(GroupedStatements(policies).value, uuid(0), dumps);
      FirstFitting(merged, MAX_MANAGED_POLICY_SIZE, true, dumps).Ok? ==>
        && Combine(policies, capacity, uuid, dumps, sol).value == [merged]
        && Holds(merged, CollectStatements(policies).value[i])
  {
    var ss := CollectStatements(policies).value;
    var groups := GroupedStatements(policies).value;
    var merged := Render(groups, uuid(0), dumps);
    var g := GroupOf(ss, i);
    RenderHoldsEveryGroup(groups, uuid(0), dumps, g);
    var j :| 0 <= j < |groups| && merged.obj[STATEMENT].arr[j] == JObj(AsJson(groups[g].statement));
    HoldsAt(merged, ss[i], groups[g].statement, j);
  }

  /** `max_statement_size`: the capacity the rule gives for the merged
      document's statements, with the tightest blank document (the second
      identifier drawn) as the envelope. */
  function SplitCapacity(capacity: CapacityRule, groups: seq<Group>, uuid: nat -> string, dumps: Dumps): int
    requires WellGrouped(groups)
  {
    capacity(|RenderedStatements(groups, dumps)|, |dumps(Blank(uuid(1)), TINIEST)|)
  }

  /** `packed_list` before serialisation: the merged document's statements
      cut against the capacity. */
  function SplitFragments(capacity: CapacityRule, groups: seq<Group>, uuid: nat -> string, dumps: Dumps): Result<seq<Data>>
    requires WellGrouped(groups)
  {
    Fragments(RenderedStatements(groups, dumps), SplitCapacity(capacity, groups, uuid, dumps), dumps)
  }

  /** The second half of `combine`: the merged document's statements cut
      against the capacity, packed, and regrouped bin by bin. */
  function SplitAndPack(capacity: CapacityRule, groups: seq<Group>, uuid: nat -> string, dumps: Dumps, sol: Solution): (r: Result<seq<Json>>)
    requires WellGrouped(groups)
    ensures SplitFragments(capacity, groups, uuid, dumps).Err? ==> r == Err(SplitFragments(capacity, groups, uuid, dumps).error)
    ensures r.Ok? ==> SplitFragments(capacity, groups, uuid, dumps).Ok? && sol.status == Optimal && |r.value| <= MAX_POLICIES
  {
    var frags :- SplitFragments(capacity, groups, uuid, dumps);
    PackFragments(frags, SplitCapacity(capacity, groups, uuid, dumps), uuid, dumps, sol)
  }

  /** Splitting and packing loses no fragment: when the solver's answer
      meets the packing constraints, every fragment of positive size is in
      exactly one bin, and the document made from that bin holds a
      statement under the fragment's key with all of its actions. */
  lemma SplitAndPackHolds(capacity: CapacityRule, groups: seq<Group>, uuid: nat -> string, dumps: Dumps, sol: Solution, f: nat)
    requires WellGrouped(groups)
    requires SplitAndPack(capacity, groups, uuid, dumps, sol).Ok?
    requires SplitFragments(capacity, groups, uuid, dumps).Ok?
    requires Satisfies(Sizes(Packed(SplitFragments(capacity, groups, uuid, dumps).value, dumps)), SplitCapacity(capacity, groups, uuid, dumps), MAX_POLICIES, sol)
    requires f < |SplitFragments(capacity, groups, uuid, dumps).value|
    requires |Tiniest(SplitFragments(capacity, groups, uuid, dumps).value[f], dumps)| > 0
    ensures var frags := SplitFragments(capacity, groups, uuid, dumps).value;
      var r := SplitAndPack(capacity, groups, uuid, dumps, sol).value;
      var bins := PackedBins(frags, SplitCapacity(capacity, groups, uuid, dumps), dumps, sol).value;
      && Valid(frags[f])
      && |r| == |bins|
      && exists k :: && 0 <= k < |bins| && f in bins[k].members && Holds(r[k], Statement(frags[f]))
                     && forall l :: 0 <= l < |bins| && f in bins[l].members ==> l == k
  {
    PackFragmentsHolds(SplitFragments(capacity, groups, uuid, dumps).value, SplitCapacity(capacity, groups, uuid, dumps), uuid, dumps, sol, f);
  }

  /** `pack_statements` on the serialised fragments, then every bin
      regrouped: UnpackableStatementsError when the solver has no optimum,
      otherwise at most ten policy documents, the `k`-th named by the
      `3 + 2k`-th identifier drawn. */
  function PackFragments(frags: seq<Data>, cap: int, uuid: nat -> string, dumps: Dumps, sol: Solution): (r: Result<seq<Json>>)
    ensures sol.status != Optimal ==> r == Err(UnpackableStatements)
    ensures r.Ok? ==> |r.value| <= MAX_POLICIES
  {
    var bins :- PackedBins(frags, cap, dumps, sol);
    Regroup(frags, bins, uuid, dumps)
  }

  /** The bins `pack_statements` makes of the serialised fragments. */
  function PackedBins(frags: seq<Data>, cap: int, dumps: Dumps, sol: Solution): Result<seq<Bin>> {
    PackIndices(Sizes(Packed(frags, dumps)), cap, MAX_POLICIES, sol)
  }

  /** Packing loses no fragment: under the packing constraints every
      fragment of positive size is in exactly one bin, and the document
      made from that bin holds it. */
  lemma PackFragmentsHolds(frags: seq<Data>, cap: int, uuid: nat -> string, dumps: Dumps, sol: Solution, f: nat)
    requires PackFragments(frags, cap, uuid, dumps, sol).Ok?
    requires Satisfies(Sizes(Packed(frags, dumps)), cap, MAX_POLICIES, sol)
    requires f < |frags| && |Tiniest(frags[f], dumps)| > 0
    ensures var r := PackFragments(frags, cap, uuid, dumps, sol).value;
      var bins := PackedBins(frags, cap, dumps, sol).value;
      && Valid(frags[f])
      && |r| == |bins|
      && exists k :: && 0 <= k < |bins| && f in bins[k].members && Holds(r[k], Statement(frags[f]))
                     && forall l :: 0 <= l < |bins| && f in bins[l].members ==> l == k
  {
    var sizes := Sizes(Packed(frags, dumps));
    var bins := PackedBins(frags, cap, dumps, sol).value;
    PackCovers(sizes, cap, MAX_POLICIES, sol, f);
    var k :| 0 <= k < |bins| && f in bins[k].members;
    var m :| 0 <= m < |bins[k].members| && bins[k].members[m] == f;
    RegroupHolds(frags, bins, uuid, dumps, k, m);
    assert PackFragments(frags, cap, uuid, dumps, sol) == Regroup(frags, bins, uuid, dumps);
  }

  lemma PackFragmentsDocuments(frags: seq<Data>, cap: int, uuid: nat -> string, dumps: Dumps, sol: Solution)
    requires PackFragments(frags, cap, uuid, dumps, sol).Ok?
    ensures forall k :: 0 <= k < |PackFragments(frags, cap, uuid, dumps, sol).value| ==>
      Document(PackFragments(frags, cap, uuid, dumps, sol).value[k], uuid(3 + 2 * k))
  {
    var bins := PackedBins(frags, cap, dumps, sol);
    RegroupDocuments(frags, bins.value, uuid, dumps);
  }

  /** The serialised fragments handed to the packer. */
  function Packed(frags: seq<Data>, dumps: Dumps): (r: seq<string>)
    ensures |r| == |frags|
    ensures forall i :: 0 <= i < |frags| ==> r[i] == Tiniest(frags[i], dumps)
  {
    seq(|frags|, i requires 0 <= i < |frags| => Tiniest(frags[i], dumps))
  }
}

=== FILE: config.dfy ===
/** Policy-set configuration (wonk/config.py): the `PolicySet` record, its
    in-place `|=` that appends another set's policies, and the parsing of
    the `policy_sets` block, where every set inherits the policies of the
    sets it names in `inherits`, parents before children. */
module Config {
  import opened Exceptions

  /** `PolicySet`: a named list of AWS-managed policy names, a list of
      local policy files, and the sets it inherits from. */
  datatype PolicySet = PolicySet(name: string, managed: seq<string>, local: seq<string>, inherits: seq<string>)

  /** One definition of the `policy_sets` block; a list the block leaves
      out is empty (the record's defaults). A `name` in the definition is
      overridden by the block's key, so it is not kept. */
  datatype Definition = Definition(managed: seq<string>, local: seq<string>, inherits: seq<string>)

  /** A key of the `policy_sets` block with its definition, in the block's
      order. */
  datatype Entry = Entry(key: string, definition: Definition)

  type PolicySets = map<string, PolicySet>

  /** Position of the first occurrence of `v`. */
  function FirstIndex(ys: seq<string>, v: string): (i: nat)
    requires v in ys
    ensures i < |ys| && ys[i] == v
    ensures forall k :: 0 <= k < i ==> ys[k] != v
  {
    if ys[0] == v then 0 else 1 + FirstIndex(ys[1..], v)
  }

  lemma FirstIndexPrefix(ys: seq<string>, front: seq<string>, v: string)
    requires front <= ys && v in front
    ensures FirstIndex(ys, v) == FirstIndex(front, v)
  {
    var j := FirstIndex(front, v);
    assert ys[j] == v;
  }

  /** The loop of `PolicySet.__ior__` over one list: each value of `ys`
      not already present is appended, in `ys`'s order. Every value of `xs`
      stays where it was, every value of either list ends up present, and
      nothing appended repeats a value before it. */
  function AppendNew(xs: seq<string>, ys: seq<string>): (r: seq<string>)
    ensures xs <= r
    ensures forall v :: v in r <==> v in xs || v in ys
    ensures forall i, j :: 0 <= j < i < |r| && |xs| <= i ==> r[j] != r[i]
    decreases |ys|
  {
    if ys == [] then xs
    else
      var acc := AppendNew(xs, ys[..|ys| - 1]);
      var v := ys[|ys| - 1];
      assert ys == ys[..|ys| - 1] + [v];
      if v in acc then acc else acc + [v]
  }

  /** Every appended value comes from `ys` and was not in `xs`. */
  lemma AppendNewFresh(xs: seq<string>, ys: seq<string>, i: nat)
    requires |xs| <= i < |AppendNew(xs, ys)|
    ensures AppendNew(xs, ys)[i] in ys && AppendNew(xs, ys)[i] !in xs
  {
  }

  /** The appended values come in the order of their first occurrence in
      `ys`. */
  lemma {:induction false} AppendNewOrder(xs: seq<string>, ys: seq<string>, i: nat, j: nat)
    requires |xs| <= i < j < |AppendNew(xs, ys)|
    ensures AppendNew(xs, ys)[i] in ys && AppendNew(xs, ys)[j] in ys
    ensures FirstIndex(ys, AppendNew(xs, ys)[i]) < FirstIndex(ys, AppendNew(xs, ys)[j])
    decreases |ys|
  {
    var r := AppendNew(xs, ys);
    AppendNewFresh(xs, ys, i);
    AppendNewFresh(xs, ys, j);
    var init, v := ys[..|ys| - 1], ys[|ys| - 1];
    var acc := AppendNew(xs, init);
    assert r == acc || r == acc + [v];
    assert r[i] == acc[i];
    AppendNewFresh(xs, init, i);
    FirstIndexPrefix(ys, init, acc[i]);
    if j < |acc| {
      assert r[j] == acc[j];
      AppendNewFresh(xs, init, j);
      FirstIndexPrefix(ys, init, acc[j]);
      AppendNewOrder(xs, init, i, j);
    } else {
      assert r == acc + [v] && r[j] == v && v !in init;
      LastFirst(ys);
    }
  }

  /** A value that first occurs last is at the last position. */
  lemma LastFirst(ys: seq<string>)
    requires |ys| > 0 && ys[|ys| - 1] !in ys[..|ys| - 1]
    ensures FirstIndex(ys, ys[|ys| - 1]) == |ys| - 1
  {
  }

  /** Values that are all present already add nothing. */
  lemma {:induction false} AppendNewKnown(xs: seq<string>, ys: seq<string>)
    requires forall y :: y in ys ==> y in xs
    ensures AppendNew(xs, ys) == xs
    decreases |ys|
  {
    if ys != [] {
      var init := ys[..|ys| - 1];
      assert forall y :: y in init ==> y in ys;
      AppendNewKnown(xs, init);
      assert ys[|ys| - 1] in ys;
    }
  }

  /** `a |= b`: `b`'s managed and local policies appended to `a`'s without
      repeating any; the name and `inherits` are untouched. */
  function IOr(a: PolicySet, b: PolicySet): (r: PolicySet)
    ensures r.name == a.name && r.inherits == a.inherits
    ensures a.managed <= r.managed && a.local <= r.local
    ensures forall v :: v in r.managed <==> v in a.managed || v in b.managed
    ensures forall v :: v in r.local <==> v in a.local || v in b.local
  {
    a.(managed := AppendNew(a.managed, b.managed), local := AppendNew(a.local, b.local))
  }

  /** Applying the same `|=` twice changes nothing the second time. */
  lemma IOrIdempotent(a: PolicySet, b: PolicySet)
    ensures IOr(IOr(a, b), b) == IOr(a, b)
  {
    var r := IOr(a, b);
    AppendNewKnown(r.managed, b.managed);
    AppendNewKnown(r.local, b.local);
  }

  /** A set with no repeated policies keeps none after `|=`. */
  lemma IOrDistinct(a: PolicySet, b: PolicySet)
    requires Distinct(a.managed) && Distinct(a.local)
    ensures Distinct(IOr(a, b).managed) && Distinct(IOr(a, b).local)
  {
    var r := IOr(a, b);
    forall i, j | 0 <= j < i < |r.managed| ensures r.managed[j] != r.managed[i] {
      if i < |a.managed| {
        assert r.managed[i] == a.managed[i] && r.managed[j] == a.managed[j];
      }
    }
    forall i, j | 0 <= j < i < |r.local| ensures r.local[j] != r.local[i] {
      if i < |a.local| {
        assert r.local[i] == a.local[i] && r.local[j] == a.local[j];
      }
    }
  }

  predicate Distinct(xs: seq<string>) {
    forall i, j :: 0 <= j < i < |xs| ==> xs[j] != xs[i]
  }

  /** `ps |= sets[p]` for each parent `p` in turn. */
  function InheritAll(ps: PolicySet, parents: seq<string>, sets: PolicySets): (r: PolicySet)
    requires forall p :: p in parents ==> p in sets
    ensures r.name == ps.name && r.inherits == ps.inherits
    ensures ps.managed <= r.managed && ps.local <= r.local
    decreases |parents|
  {
    if parents == [] then ps
    else
      var init := parents[..|parents| - 1];
      assert forall p :: p in init ==> p in parents;
      IOr(InheritAll(ps, init, sets), sets[parents[|parents| - 1]])
  }

  /** Inheriting reads the parents and nothing else. */
  lemma {:induction false} InheritAllFrame(ps: PolicySet, parents: seq<string>, s1: PolicySets, s2: PolicySets)
    requires forall p :: p in parents ==> p in s1 && p in s2 && s1[p] == s2[p]
    ensures InheritAll(ps, parents, s1) == InheritAll(ps, parents, s2)
    decreases |parents|
  {
    if parents != [] {
      var init := parents[..|parents| - 1];
      assert forall p :: p in init ==> p in parents;
      InheritAllFrame(ps, init, s1, s2);
      assert parents[|parents| - 1] in parents;
    }
  }

  /** Every parent named in `sets` is one of its keys. */
  predicate Closed(sets: PolicySets) {
    forall n, p :: n in sets && p in sets[n].inherits ==> p in sets
  }

  /** One pass of the merge loop: the set `name` inherits from its parents
      as they stand. */
  function Step(sets: PolicySets, name: string): (r: PolicySets)
    requires Closed(sets) && name in sets
    ensures r.Keys == sets.Keys && Closed(r)
    ensures forall n :: n in sets ==> r[n].name == sets[n].name && r[n].inherits == sets[n].inherits
    ensures forall n :: n in sets && n != name ==> r[n] == sets[n]
  {
    sets[name := InheritAll(sets[name], sets[name].inherits, sets)]
  }

  /** The merge loop over the names in `order`. */
  function Process(sets: PolicySets, order: seq<string>): (r: PolicySets)
    requires Closed(sets)
    requires forall n :: n in order ==> n in sets
    ensures r.Keys == sets.Keys && Closed(r)
    ensures forall n :: n in sets ==> r[n].name == sets[n].name && r[n].inherits == sets[n].inherits
    decreases |order|
  {
    if order == [] then sets
    else
      var init := order[..|order| - 1];
      assert forall n :: n in init ==> n in order;
      Step(Process(sets, init), order[|order| - 1])
  }

  /** Every parent of each name in `order` comes before it, or is the name
      itself: `toposort_flatten` ignores a set that names itself. */
  predicate ParentsFirst(sets: PolicySets, order: seq<string>)
    requires forall n :: n in order ==> n in sets
  {
    forall i, j :: 0 <= i < |order| && 0 <= j < |order| && order[j] in sets[order[i]].inherits ==> j <= i
  }

  /** `toposort_flatten` of the inheritance graph: every key once, each
      after all of its other parents. */
  predicate TopoOrder(sets: PolicySets, order: seq<string>) {
    && Distinct(order)
    && (forall n :: n in sets ==> n in order)
    && (forall n :: n in order ==> n in sets)
    && ParentsFirst(sets, order)
  }

  /** A set the loop has not reached is as defined. */
  lemma {:induction false} ProcessUntouched(init: PolicySets, order: seq<string>, n: string)
    requires Closed(init)
    requires forall m :: m in order ==> m in init
    requires n in init && n !in order
    ensures Process(init, order)[n] == init[n]
    decreases |order|
  {
    if order != [] {
      var pre := order[..|order| - 1];
      assert forall m :: m in pre ==> m in order;
      ProcessUntouched(init, pre, n);
    }
  }

  /** The parents of a set in a parents-first order are not any later
      set. */
  lemma ParentsBefore(init: PolicySets, order: seq<string>, i: nat, c: string)
    requires Closed(init)
    requires forall n :: n in init ==> n in order
    requires forall n :: n in order ==> n in init
    requires ParentsFirst(init, order)
    requires i < |order| && c in order[i + 1..]
    ensures forall p :: p in init[order[i]].inherits ==> p in init && p != c
  {
    forall p | p in init[order[i]].inherits ensures p in init && p != c {
      assert order[i] in init;
      assert p in order;
      var j :| 0 <= j < |order| && order[j] == p;
      assert j <= i;
    }
  }

  /** The last name of a prefix of a list without repeats is not among
      the names before it. */
  lemma LastNotBefore(all: seq<string>, order: seq<string>)
    requires Distinct(all) && order <= all && order != []
    ensures order[|order| - 1] !in order[..|order| - 1]
  {
    var pre := order[..|order| - 1];
    forall k | 0 <= k < |pre| ensures pre[k] != order[|order| - 1] {
      assert all[k] != all[|order| - 1];
    }
  }

  lemma DropLastPrefix(order: seq<string>, all: seq<string>)
    requires order <= all && order != []
    ensures order[..|order| - 1] <= all
  {
  }

  /** The merge loop is its first passes followed by the last one. */
  lemma ProcessLast(init: PolicySets, order: seq<string>)
    requires Closed(init) && order != []
    requires forall n :: n in order ==> n in init
    ensures forall n :: n in order[..|order| - 1] ==> n in init
    ensures Process(init, order) == Step(Process(init, order[..|order| - 1]), order[|order| - 1])
  {
    var pre := order[..|order| - 1];
    forall n | n in pre ensures n in init {
      var k :| 0 <= k < |pre| && pre[k] == n;
      assert order[k] == n;
    }
  }

  /** A step for `c` leaves a set resolved when none of its parents is `c`. */
  lemma StepKeepsResolved(init: PolicySets, s0: PolicySets, c: string, n: string)
    requires Closed(s0) && c in s0 && n in s0 && n in init && n != c
    requires forall p :: p in init[n].inherits ==> p in s0 && p != c
    requires s0[n] == InheritAll(init[n], init[n].inherits, s0[n := init[n]])
    ensures Step(s0, c)[n] == InheritAll(init[n], init[n].inherits, Step(s0, c)[n := init[n]])
  {
    InheritAllFrame(init[n], init[n].inherits, s0[n := init[n]], Step(s0, c)[n := init[n]]);
  }

  /** The step for `c` resolves `c`; a parent that is `c` itself is read as
      it stood before the step. */
  lemma StepResolves(init: PolicySets, s0: PolicySets, c: string)
    requires Closed(s0) && c in s0 && c in init && s0[c] == init[c]
    requires forall p :: p in init[c].inherits ==> p in s0
    ensures Step(s0, c)[c] == InheritAll(init[c], init[c].inherits, Step(s0, c)[c := init[c]])
  {
    InheritAllFrame(init[c], init[c].inherits, s0, Step(s0, c)[c := init[c]]);
  }

  /** When parents come first, each set processed holds its own policies
      followed by what it inherits from its parents' final values, where a
      set named among its own parents stands for its definition. */
  lemma {:induction false} ProcessResolves(init: PolicySets, order: seq<string>, all: seq<string>, i: nat)
    requires Closed(init)
    requires TopoOrder(init, all) && order <= all
    requires i < |order|
    ensures forall n :: n in order ==> n in init
    ensures Process(init, order)[order[i]] ==
      InheritAll(init[order[i]], init[order[i]].inherits, Process(init, order)[order[i] := init[order[i]]])
    decreases |order|
  {
    var pre, c := order[..|order| - 1], order[|order| - 1];
    ProcessLast(init, order);
    var s0 := Process(init, pre);
    LastNotBefore(all, order);
    if i == |order| - 1 {
      ProcessUntouched(init, pre, c);
      StepResolves(init, s0, c);
    } else {
      assert c in all[i + 1..] by {
        assert all[|order| - 1] == c;
      }
      ParentsBefore(init, all, i, c);
      assert order[i] == pre[i];
      DropLastPrefix(order, all);
      ProcessResolves(init, pre, all, i);
      StepKeepsResolved(init, s0, c, order[i]);
    }
  }

  /** The record a definition makes under its key. */
  function PolicySetOf(e: Entry): PolicySet {
    PolicySet(e.key, e.definition.managed, e.definition.local, e.definition.inherits)
  }

  /** A mapping's keys are distinct. */
  predicate DistinctKeys(entries: seq<Entry>) {
    forall i, j :: 0 <= j < i < |entries| ==> entries[j].key != entries[i].key
  }

  function KeysOf(entries: seq<Entry>): set<string> {
    set i | 0 <= i < |entries| :: entries[i].key
  }

  lemma KeysOfSnoc(entries: seq<Entry>)
    requires entries != []
    ensures KeysOf(entries) == KeysOf(entries[..|entries| - 1]) + {entries[|entries| - 1].key}
  {
    var init := entries[..|entries| - 1];
    forall k | k in KeysOf(entries) ensures k in KeysOf(init) + {entries[|entries| - 1].key} {
      var i :| 0 <= i < |entries| && entries[i].key == k;
      if i < |init| {
        assert init[i].key == k;
      }
    }
    forall k | k in KeysOf(init) ensures k in KeysOf(entries) {
      var i :| 0 <= i < |init| && init[i].key == k;
      assert entries[i].key == k;
    }
  }

  /** The sets as first built, one per key, before any inheritance. */
  function Initial(entries: seq<Entry>): (r: PolicySets)
    requires DistinctKeys(entries)
    ensures r.Keys == KeysOf(entries)
    ensures forall i :: 0 <= i < |entries| ==> r[entries[i].key] == PolicySetOf(entries[i])
    decreases |entries|
  {
    if entries == [] then map[]
    else
      var init := entries[..|entries| - 1];
      var e := entries[|entries| - 1];
      KeysOfSnoc(entries);
      var r := Initial(init)[e.key := PolicySetOf(e)];
      assert forall i :: 0 <= i < |entries| ==> r[entries[i].key] == PolicySetOf(entries[i]) by {
        forall i | 0 <= i < |entries| ensures r[entries[i].key] == PolicySetOf(entries[i]) {
          if i < |init| {
            assert init[i] == entries[i] && entries[i].key != e.key;
          }
        }
      }
      r
  }

  /** The first parent that is not a key, if any. */
  function UnknownIn(parents: seq<string>, known: set<string>): (r: Option<nat>)
    ensures r.None? <==> forall p :: p in parents ==> p in known
    ensures r.Some? ==> r.value < |parents| && parents[r.value] !in known
    ensures r.Some? ==> forall k :: 0 <= k < r.value ==> parents[k] in known
  {
    if forall p :: p in parents ==> p in known then None
    else
      var k := FirstOutside(parents, known);
      Some(k)
  }

  function FirstOutside(parents: seq<string>, known: set<string>): (k: nat)
    requires exists p :: p in parents && p !in known
    ensures k < |parents| && parents[k] !in known
    ensures forall j :: 0 <= j < k ==> parents[j] in known
  {
    if parents[0] !in known then 0
    else
      assert exists p :: p in parents[1..] && p !in known by {
        var p :| p in parents && p !in known;
        var i :| 0 <= i < |parents| && parents[i] == p;
        assert parents[1..][i - 1] == p;
      }
      1 + FirstOutside(parents[1..], known)
  }

  /** The first definition, in the block's order, that names a parent that
      is not a key. */
  function FirstUnknown(entries: seq<Entry>, known: set<string>): (r: Option<nat>)
    ensures r.None? <==> forall i :: 0 <= i < |entries| ==> UnknownIn(entries[i].definition.inherits, known).None?
    ensures r.Some? ==> r.value < |entries| && UnknownIn(entries[r.value].definition.inherits, known).Some?
    ensures r.Some? ==> forall j :: 0 <= j < r.value ==> UnknownIn(entries[j].definition.inherits, known).None?
    decreases |entries|
  {
    if entries == [] then None
    else if UnknownIn(entries[0].definition.inherits, known).Some? then Some(0)
    else
      match FirstUnknown(entries[1..], known)
      case None => None
      case Some(i) => Some(i + 1)
  }

  /** `parse_policy_sets`: one set per key, named after it; the first
      definition (in the block's order) that names an undefined parent
      raises `UnknownParentError(child, parent)`; otherwise, visiting the
      sets parents-first, each set inherits from its parents in the order
      of its `inherits`. */
  function ParsePolicySets(entries: seq<Entry>, order: seq<string>): (r: Result<PolicySets>)
    requires DistinctKeys(entries)
    requires TopoOrder(Initial(entries), order)
    ensures r.Ok? <==> forall i, p :: 0 <= i < |entries| && p in entries[i].definition.inherits ==> p in KeysOf(entries)
    ensures r.Err? ==> r.error.UnknownParent?
    ensures r.Ok? ==> r.value.Keys == KeysOf(entries)
    ensures r.Ok? ==> forall i :: 0 <= i < |entries| ==>
      r.value[entries[i].key].name == entries[i].key && r.value[entries[i].key].inherits == entries[i].definition.inherits
  {
    var init := Initial(entries);
    match FirstUnknown(entries, init.Keys)
    case Some(i) =>
      var k := UnknownIn(entries[i].definition.inherits, init.Keys).value;
      Err(UnknownParent(entries[i].key, entries[i].definition.inherits[k]))
    case None =>
      InitialClosed(entries);
      Ok(Process(init, order))
  }

  /** With no undefined parent the initial sets are closed. */
  lemma InitialClosed(entries: seq<Entry>)
    requires DistinctKeys(entries)
    requires FirstUnknown(entries, KeysOf(entries)).None?
    ensures Closed(Initial(entries))
  {
    var init := Initial(entries);
    forall n, p | n in init && p in init[n].inherits ensures p in init {
      var i :| 0 <= i < |entries| && entries[i].key == n;
      assert UnknownIn(entries[i].definition.inherits, init.Keys).None?;
    }
  }

  /** The error names the first definition with an undefined parent, and
      that definition's first undefined parent. */
  lemma ParseUnknownParent(entries: seq<Entry>, order: seq<string>)
    requires DistinctKeys(entries)
    requires TopoOrder(Initial(entries), order)
    requires ParsePolicySets(entries, order).Err?
    ensures exists i, k ::
      && 0 <= i < |entries|
      && (forall j, p :: 0 <= j < i && p in entries[j].definition.inherits ==> p in KeysOf(entries))
      && 0 <= k < |entries[i].definition.inherits|
      && entries[i].definition.inherits[k] !in KeysOf(entries)
      && (forall l :: 0 <= l < k ==> entries[i].definition.inherits[l] in KeysOf(entries))
      && ParsePolicySets(entries, order).error == UnknownParent(entries[i].key, entries[i].definition.inherits[k])
  {
    var known := KeysOf(entries);
    var first := FirstUnknown(entries, known);
    assert first.Some?;
    var i := first.value;
    var k := UnknownIn(entries[i].definition.inherits, known).value;
    assert ParsePolicySets(entries, order).error == UnknownParent(entries[i].key, entries[i].definition.inherits[k]);
    assert forall j, p :: 0 <= j < i && p in entries[j].definition.inherits ==> p in known;
  }

  /** A successful parse is the merge loop over the initial sets. */
  lemma ParseProcesses(entries: seq<Entry>, order: seq<string>)
    requires DistinctKeys(entries)
    requires TopoOrder(Initial(entries), order)
    requires ParsePolicySets(entries, order).Ok?
    ensures Closed(Initial(entries))
    ensures ParsePolicySets(entries, order).value == Process(Initial(entries), order)
  {
    assert FirstUnknown(entries, KeysOf(entries)).None?;
    InitialClosed(entries);
  }

  /** `xs` less every occurrence of `v`. */
  function Without(xs: seq<string>, v: string): (r: seq<string>)
    ensures forall p :: p in r <==> p in xs && p != v
    decreases |xs|
  {
    if xs == [] then []
    else
      var init, last := xs[..|xs| - 1], xs[|xs| - 1];
      assert xs == init + [last];
      if last == v then Without(init, v) else Without(init, v) + [last]
  }

  /** A list without `v` loses nothing by leaving `v` out. */
  lemma {:induction false} WithoutAbsent(xs: seq<string>, v: string)
    requires v !in xs
    ensures Without(xs, v) == xs
    decreases |xs|
  {
    if xs != [] {
      var init := xs[..|xs| - 1];
      assert forall p :: p in init ==> p in xs;
      WithoutAbsent(init, v);
      assert xs == init + [xs[|xs| - 1]];
    }
  }

  /** `ps |= ps`-like steps add nothing: inheriting from a set that stands
      for `ps` itself is the same as not naming it. */
  lemma {:induction false} InheritSelfIgnored(ps: PolicySet, parents: seq<string>, sets: PolicySets, n: string)
    requires forall p :: p in parents ==> p in sets
    ensures InheritAll(ps, parents, sets[n := ps]) == InheritAll(ps, Without(parents, n), sets)
    decreases |parents|
  {
    if parents != [] {
      var init, last := parents[..|parents| - 1], parents[|parents| - 1];
      assert forall p :: p in init ==> p in parents;
      InheritSelfIgnored(ps, init, sets, n);
      if last == n {
        var acc := InheritAll(ps, init, sets[n := ps]);
        PrefixMembers(ps.managed, acc.managed);
        PrefixMembers(ps.local, acc.local);
        AppendNewKnown(acc.managed, ps.managed);
        AppendNewKnown(acc.local, ps.local);
      }
    }
  }

  lemma PrefixMembers(xs: seq<string>, ys: seq<string>)
    requires xs <= ys
    ensures forall v :: v in xs ==> v in ys
  {
    forall v | v in xs ensures v in ys {
      var k :| 0 <= k < |xs| && xs[k] == v;
      assert ys[k] == v;
    }
  }

  /** After a successful parse each set holds its own policies followed by
      those it inherits from its parents' final sets, in `inherits` order:
      a set's lists are its own entries first, then each parent's. */
  lemma ParseResolved(entries: seq<Entry>, order: seq<string>, i: nat)
    requires DistinctKeys(entries)
    requires TopoOrder(Initial(entries), order)
    requires ParsePolicySets(entries, order).Ok?
    requires i < |entries|
    ensures var r := ParsePolicySets(entries, order).value;
      && r[entries[i].key] == InheritAll(PolicySetOf(entries[i]), Without(entries[i].definition.inherits, entries[i].key), r)
      && entries[i].definition.managed <= r[entries[i].key].managed
      && entries[i].definition.local <= r[entries[i].key].local
  {
    var init := Initial(entries);
    var r := ParsePolicySets(entries, order).value;
    ParseProcesses(entries, order);
    var n := entries[i].key;
    assert n in init && n in order;
    var j :| 0 <= j < |order| && order[j] == n;
    ProcessResolves(init, order, order, j);
    var ps := PolicySetOf(entries[i]);
    assert init[n] == ps && ps.inherits == entries[i].definition.inherits;
    assert r[n] == InheritAll(ps, ps.inherits, r[n := ps]);
    InheritSelfIgnored(ps, ps.inherits, r, n);
  }

  /** The `policy_sets` block of the configuration tests, and the order
      `toposort_flatten` gives it (sorted names, parents first). */
  const EXAMPLE: seq<Entry> := [
    Entry("Poultry", Definition(["Squawk"], ["file2"], [])),
    Entry("Spam", Definition(["Foo"], ["file1"], [])),
    Entry("Eggs", Definition(["Bar"], [], ["Poultry", "Spam"])),
    Entry("Qux", Definition([], [], []))]

  const EXAMPLE_ORDER: seq<string> := ["Poultry", "Qux", "Spam", "Eggs"]

  lemma ExampleKeys()
    ensures DistinctKeys(EXAMPLE)
    ensures KeysOf(EXAMPLE) == {"Poultry", "Spam", "Eggs", "Qux"}
  {
    assert EXAMPLE[0].key == "Poultry" && EXAMPLE[1].key == "Spam";
    assert EXAMPLE[2].key == "Eggs" && EXAMPLE[3].key == "Qux";
  }

  lemma ExampleInherits()
    ensures DistinctKeys(EXAMPLE)
    ensures Initial(EXAMPLE).Keys == {"Poultry", "Spam", "Eggs", "Qux"}
    ensures Initial(EXAMPLE)["Poultry"].inherits == []
    ensures Initial(EXAMPLE)["Spam"].inherits == []
    ensures Initial(EXAMPLE)["Eggs"].inherits == ["Poultry", "Spam"]
    ensures Initial(EXAMPLE)["Qux"].inherits == []
  {
    ExampleKeys();
    assert EXAMPLE[0].key == "Poultry" && EXAMPLE[1].key == "Spam";
    assert EXAMPLE[2].key == "Eggs" && EXAMPLE[3].key == "Qux";
  }

  /** The example order is a topological order of the example block. */
  lemma ExampleOrdered()
    ensures DistinctKeys(EXAMPLE)
    ensures TopoOrder(Initial(EXAMPLE), EXAMPLE_ORDER)
  {
    ExampleInherits();
    ExampleOrderDistinct();
    ExampleParentsFirst();
  }

  lemma ExampleOrderDistinct()
    ensures Distinct(EXAMPLE_ORDER)
  {
  }

  lemma ExampleParentsFirst()
    ensures DistinctKeys(EXAMPLE)
    ensures forall n :: n in EXAMPLE_ORDER ==> n in Initial(EXAMPLE)
    ensures ParentsFirst(Initial(EXAMPLE), EXAMPLE_ORDER)
  {
    ExampleInherits();
    ParentsFirstOfFour(Initial(EXAMPLE), "Poultry", "Qux", "Spam", "Eggs");
  }

  /** Four sets of which only the last inherits, from the first and the
      third, are in parents-first order. */
  lemma ParentsFirstOfFour(sets: PolicySets, a: string, b: string, c: string, d: string)
    requires a in sets && b in sets && c in sets && d in sets
    requires a != b && a != c && a != d && b != c && b != d && c != d
    requires sets[a].inherits == [] && sets[b].inherits == [] && sets[c].inherits == []
    requires sets[d].inherits == [a, c]
    ensures forall n :: n in [a, b, c, d] ==> n in sets
    ensures ParentsFirst(sets, [a, b, c, d])
  {
    var order := [a, b, c, d];
    forall i, j | 0 <= i < |order| && 0 <= j < |order| && order[j] in sets[order[i]].inherits
      ensures j < i
    {
      assert i == 3;
    }
  }

  /** Every parent named in the example block is defined there. */
  lemma ExampleKnown()
    ensures forall i, p :: 0 <= i < |EXAMPLE| && p in EXAMPLE[i].definition.inherits ==> p in KeysOf(EXAMPLE)
  {
    ExampleKeys();
  }

  /** `ParseResolved` for a parse result named `sets`. */
  lemma ResolvedAt(entries: seq<Entry>, order: seq<string>, sets: PolicySets, i: nat)
    requires DistinctKeys(entries) && TopoOrder(Initial(entries), order)
    requires ParsePolicySets(entries, order) == Ok(sets)
    requires i < |entries|
    ensures entries[i].key in sets
    ensures sets[entries[i].key] == InheritAll(PolicySetOf(entries[i]), Without(entries[i].definition.inherits, entries[i].key), sets)
  {
    ParseResolved(entries, order, i);
  }

  /** Inheriting from two parents is two `|=`s, in order. */
  lemma InheritTwo(ps: PolicySet, a: string, b: string, sets: PolicySets)
    requires a in sets && b in sets
    ensures InheritAll(ps, [a, b], sets) == IOr(IOr(ps, sets[a]), sets[b])
  {
    assert [a, b][..1] == [a] && [a][..0] == [];
    assert InheritAll(ps, [a], sets) == IOr(InheritAll(ps, [], sets), sets[a]);
    assert InheritAll(ps, [a, b], sets) == IOr(InheritAll(ps, [a], sets), sets[b]);
  }

  /** In the parsed example, `Poultry` and `Spam` inherit nothing and
      `Eggs` is its own definition `|=` `Poultry`, then `|=` `Spam`. */
  lemma ExampleParents(sets: PolicySets)
    requires ExampleParsed(sets)
    ensures "Poultry" in sets && "Spam" in sets && "Eggs" in sets
    ensures sets["Poultry"] == PolicySet("Poultry", ["Squawk"], ["file2"], [])
    ensures sets["Spam"] == PolicySet("Spam", ["Foo"], ["file1"], [])
    ensures sets["Eggs"] == IOr(IOr(PolicySet("Eggs", ["Bar"], [], ["Poultry", "Spam"]), sets["Poultry"]), sets["Spam"])
  {
    ResolvedAt(EXAMPLE, EXAMPLE_ORDER, sets, 0);
    ResolvedAt(EXAMPLE, EXAMPLE_ORDER, sets, 1);
    ResolvedAt(EXAMPLE, EXAMPLE_ORDER, sets, 2);
    WithoutAbsent([], "Poultry");
    WithoutAbsent([], "Spam");
    WithoutAbsent(["Poultry", "Spam"], "Eggs");
    InheritTwo(PolicySetOf(EXAMPLE[2]), "Poultry", "Spam", sets);
  }

  /** The inheritance case of the configuration tests: `Eggs` inherits from
      `Poultry` and then `Spam`, so its own policies come first, then
      `Poultry`'s, then `Spam`'s. */
  lemma EggsInheritsInOrder(sets: PolicySets)
    requires ExampleParsed(sets)
    ensures "Eggs" in sets
    ensures sets["Eggs"].managed == ["Bar", "Squawk", "Foo"]
    ensures sets["Eggs"].local == ["file2", "file1"]
  {
    ExampleParents(sets);
    ExampleUnions();
  }

  lemma ExampleUnions()
    ensures IOr(IOr(PolicySet("Eggs", ["Bar"], [], ["Poultry", "Spam"]),
                    PolicySet("Poultry", ["Squawk"], ["file2"], [])),
                PolicySet("Spam", ["Foo"], ["file1"], []))
      == PolicySet("Eggs", ["Bar", "Squawk", "Foo"], ["file2", "file1"], ["Poultry", "Spam"])
  {
    ExampleAppends();
  }

  lemma ExampleAppends()
    ensures AppendNew(["Bar"], ["Squawk"]) == ["Bar", "Squawk"]
    ensures AppendNew(["Bar", "Squawk"], ["Foo"]) == ["Bar", "Squawk", "Foo"]
    ensures AppendNew([], ["file2"]) == ["file2"]
    ensures AppendNew(["file2"], ["file1"]) == ["file2", "file1"]
  {
  }

  /** `sets` is what parsing the example block gives. */
  predicate ExampleParsed(sets: PolicySets) {
    && DistinctKeys(EXAMPLE) && TopoOrder(Initial(EXAMPLE), EXAMPLE_ORDER)
    && ParsePolicySets(EXAMPLE, EXAMPLE_ORDER) == Ok(sets)
  }

  /** Parsing the example block succeeds. */
  lemma ExampleParses() returns (sets: PolicySets)
    ensures ExampleParsed(sets)
  {
    ExampleOrdered();
    ExampleKnown();
    sets := ParsePolicySets(EXAMPLE, EXAMPLE_ORDER).value;
  }

  /** The misspelt-parent case of the configuration tests. */
  const MISSPELT: seq<Entry> := [
    Entry("Spam", Definition(["Foo"], ["file1"], [])),
    Entry("Eggs", Definition(["Bar"], [], ["Spammers"]))]

  lemma MisspeltOrdered()
    ensures DistinctKeys(MISSPELT)
    ensures TopoOrder(Initial(MISSPELT), ["Spam", "Eggs"])
  {
    assert MISSPELT[0].key == "Spam" && MISSPELT[1].key == "Eggs";
    assert KeysOf(MISSPELT) == {"Spam", "Eggs"};
    var init := Initial(MISSPELT);
    assert init["Spam"].inherits == [] && init["Eggs"].inherits == ["Spammers"];
  }

  /** A parent that is not defined is reported with the child naming it. */
  lemma MisspeltParentReported()
    ensures DistinctKeys(MISSPELT) && TopoOrder(Initial(MISSPELT), ["Spam", "Eggs"])
    ensures ParsePolicySets(MISSPELT, ["Spam", "Eggs"]) == Err(UnknownParent("Eggs", "Spammers"))
  {
    MisspeltOrdered();
    var known := Initial(MISSPELT).Keys;
    assert known == {"Spam", "Eggs"};
    assert UnknownIn([], known) == None;
    assert |"Spammers"| != |"Spam"| && |"Spammers"| != |"Eggs"|;
    assert "Spammers" !in known;
    assert UnknownIn(["Spammers"], known) == Some(0);
    assert FirstUnknown(MISSPELT, known) == Some(1);
  }

  /** A set that names itself among its parents. */
  const SELF_NAMED: seq<Entry> := [Entry("Spam", Definition(["Foo"], ["file1"], ["Spam"]))]

  /** A set naming itself is accepted, in the order `toposort_flatten`
      gives, and inherits nothing from itself: `|=` with itself is a
      no-op. */
  lemma SelfParentIgnored()
    ensures DistinctKeys(SELF_NAMED) && TopoOrder(Initial(SELF_NAMED), ["Spam"])
    ensures ParsePolicySets(SELF_NAMED, ["Spam"]) == Ok(map["Spam" := PolicySetOf(SELF_NAMED[0])])
  {
    var init := Initial(SELF_NAMED);
    assert KeysOf(SELF_NAMED) == {"Spam"};
    assert init["Spam"].inherits == ["Spam"];
    var known := init.Keys;
    assert UnknownIn(["Spam"], known) == None;
    assert FirstUnknown(SELF_NAMED, known) == None;
    InitialClosed(SELF_NAMED);
    var ps := init["Spam"];
    assert ["Spam"][..0] == [];
    ProcessLast(init, ["Spam"]);
    AppendNewKnown(ps.managed, ps.managed);
    AppendNewKnown(ps.local, ps.local);
    assert InheritAll(ps, ["Spam"], init) == IOr(ps, ps) == ps;
    assert Process(init, ["Spam"]) == Step(init, "Spam") == init;
    assert init == map["Spam" := ps];
  }

  /** The raw value of the configuration's `policy_sets` entry: YAML null,
      or a mapping of definitions. */
  datatype Block = NullBlock | SetsBlock(entries: seq<Entry>)

  const POLICY_SETS: string := "policy_sets"

  /** The orderings `parse_config` needs: a topological order of the
      inheritance graph whenever there is a `policy_sets` mapping. */
  predicate Ordered(config: map<string, Block>, order: seq<string>) {
    POLICY_SETS in config && config[POLICY_SETS].SetsBlock? ==>
      DistinctKeys(config[POLICY_SETS].entries) && TopoOrder(Initial(config[POLICY_SETS].entries), order)
  }

  /** `parse_config`: a missing or null `policy_sets` entry (or an empty
      mapping) defines no policy sets. */
  function ParseConfig(config: map<string, Block>, order: seq<string>): (r: Result<PolicySets>)
    requires Ordered(config, order)
    ensures POLICY_SETS !in config || config[POLICY_SETS] == NullBlock ==> r == Ok(map[])
    ensures POLICY_SETS in config && config[POLICY_SETS] == SetsBlock([]) ==> r == Ok(map[])
    ensures POLICY_SETS in config && config[POLICY_SETS].SetsBlock? ==>
      r == ParsePolicySets(config[POLICY_SETS].entries, order)
  {
    if POLICY_SETS !in config then Ok(map[])
    else match config[POLICY_SETS]
      case NullBlock => Ok(map[])
      case SetsBlock(entries) => ParsePolicySets(entries, order)
  }
}

=== FILE: exceptions.dfy ===
/** Error kinds raised by the combine engine, its writer and its configuration
    loader (wonk/exceptions.py), plus the Python built-in errors that the
    modelled code lets escape, and the Result type that carries them. */
module Exceptions {

  datatype Error =
    /** More than ten files already match a policy set's output pattern. */
    | TooManyPolicies(policySet: string, policies: nat)
    /** The bin-packing solver reported no optimal assignment. */
    | UnpackableStatements
    /** No JSON layout of a document fits under the size limit. */
    | UnshrinkablePolicy
    /** A policy set inherits from a set that is not defined. */
    | UnknownParent(child: string, parent: string)
    /** `which_type`'s ValueError: a statement has both keys of a pair
        (`both` is true) or neither of them. */
    | AmbiguousStatement(left: string, right: string, both: bool)
    /** A KeyError for a document that lacks its "Statement" entry. */
    | MissingKey(key: string)
    /** A document or statement of a JSON type the code cannot index. */
    | MalformedDocument
    /** ZeroDivisionError from the chunk arithmetic of a split. */
    | ZeroDivision
    /** ValueError from `range` when a split's chunk size is zero. */
    | ZeroRangeStep
    /** JSONDecodeError for an existing output file that is not JSON. */
    | UndecodableFile(path: string)

  datatype Result<+T> = Ok(value: T) | Err(error: Error) {
    predicate IsFailure() {
      Err?
    }

    function PropagateFailure<U>(): Result<U>
      requires Err?
    {
      Err(error)
    }

    function Extract(): T
      requires Ok?
    {
      value
    }
  }

  datatype Option<+T> = None | Some(value: T)
}

=== FILE: glob.dfy ===
/** The wildcard patterns the canonicaliser builds from action and resource
    names (wonk/models.py:318-325): each `*` becomes `.*`, the pattern is
    anchored at both ends and compiled with IGNORECASE. */
module Glob {
  import opened Strings

  /** `re.match(^p'$, s, IGNORECASE)` where `p'` is `p` with every `*`
      replaced by `.*`: a `*` matches any run of characters other than a
      newline (`.` never matches one), every other character matches itself
      ignoring case, and the end `$` is met at the end of `s` or just before
      one final newline. */
  predicate Matches(p: string, s: string)
    decreases |p| + |s|
  {
    if |p| == 0 then s == [] || s == "\n"
    else if p[0] == '*' then Matches(p[1..], s) || (|s| > 0 && s[0] != '\n' && Matches(p, s[1..]))
    else |s| > 0 && Fold(p[0]) == Fold(s[0]) && Matches(p[1..], s[1..])
  }

  /** Every name matches the pattern built from itself, which is why the
      canonicaliser must skip an item's own pattern (models.py:332). */
  lemma {:induction false} MatchesItself(p: string)
    ensures Matches(p, p)
  {
    if |p| > 0 {
      MatchesItself(p[1..]);
      if p[0] == '*' {
        assert Matches(p, p[1..]);
      }
    }
  }

  /** The service-wide pattern `*` matches exactly the names without a
      newline, except that one final newline is allowed. */
  lemma {:induction false} StarMatchesAll(s: string)
    ensures Matches("*", s) <==> '\n' !in WithoutFinalNewline(s)
  {
    assert "*"[1..] == "";
    if |s| > 0 && s != "\n" {
      StarMatchesAll(s[1..]);
      WithoutFinalNewlineCons(s);
      assert '\n' in WithoutFinalNewline(s) <==> s[0] == '\n' || '\n' in WithoutFinalNewline(s[1..]);
    } else if s == "\n" {
      assert WithoutFinalNewline(s) == [];
    }
  }

  /** A pattern without `*` matches exactly the names equal to it up to
      case, alone or followed by one newline. */
  lemma {:induction false} LiteralMatches(p: string, s: string)
    requires '*' !in p
    ensures Matches(p, s) <==> Lower(s) == Lower(p) || Lower(s) == Lower(p) + "\n"
  {
    if |p| == 0 {
      assert Lower(p) == [] && Lower(p) + "\n" == "\n";
      if |s| == 1 {
        FoldNewline(s[0]);
        assert s == [s[0]] && Lower(s) == [Fold(s[0])];
      }
    } else {
      assert p[0] != '*' by {
        assert p[0] in p;
      }
      if |s| > 0 {
        assert '*' !in p[1..] by {
          forall k | 0 <= k < |p[1..]|
            ensures p[1..][k] != '*'
          {
            assert p[1..][k] == p[k + 1];
          }
        }
        LiteralMatches(p[1..], s[1..]);
        assert Lower(p)[1..] == Lower(p[1..]);
        assert Lower(s)[1..] == Lower(s[1..]);
        assert (Lower(p) + "\n")[0] == Fold(p[0]);
        assert (Lower(p) + "\n")[1..] == Lower(p[1..]) + "\n";
        ConsEqual(Lower(s), Lower(p));
        ConsEqual(Lower(s), Lower(p) + "\n");
      }
    }
  }

  /** A trailing-star pattern `q*` (with no other star) matches exactly the
      names that start with `q` ignoring case and whose remainder has no
      newline except possibly a final one: `svc:Get*` covers
      `svc:GetSomething` but not `svc:PutSomething`. */
  lemma {:induction false} PrefixStarMatches(q: string, s: string)
    requires '*' !in q
    ensures Matches(q + "*", s) <==>
      |q| <= |s| && Lower(q) == Lower(s[..|q|]) && '\n' !in WithoutFinalNewline(s[|q|..])
  {
    if |q| == 0 {
      assert q + "*" == "*";
      assert s[..0] == [] && s[0..] == s;
      StarMatchesAll(s);
    } else {
      assert q[0] != '*' by {
        assert q[0] in q;
      }
      assert '*' !in q[1..] by {
        forall k | 0 <= k < |q[1..]|
          ensures q[1..][k] != '*'
        {
          assert q[1..][k] == q[k + 1];
        }
      }
      var p := q + "*";
      assert p[0] == q[0] && p[1..] == q[1..] + "*";
      if |s| > 0 {
        PrefixStarMatches(q[1..], s[1..]);
        assert Matches(p, s) <==> Fold(q[0]) == Fold(s[0]) && Matches(q[1..] + "*", s[1..]);
        assert Lower(q) == [Fold(q[0])] + Lower(q[1..]);
        if |q| <= |s| {
          var a, b := Lower(q), Lower(s[..|q|]);
          assert s[1..][..|q| - 1] == s[..|q|][1..];
          assert s[1..][|q[1..]|..] == s[|q|..];
          assert a[1..] == Lower(q[1..]);
          assert b[1..] == Lower(s[1..][..|q| - 1]);
          ConsEqual(a, b);
        }
      }
    }
  }

  /** Matching ignores the case of the name being matched. */
  lemma {:induction false} MatchesIgnoresCase(p: string, s: string, t: string)
    requires Lower(s) == Lower(t)
    ensures Matches(p, s) <==> Matches(p, t)
    decreases |p| + |s|
  {
    if |p| > 0 {
      if p[0] == '*' {
        MatchesIgnoresCase(p[1..], s, t);
        if |s| > 0 {
          SameFirstNewline(s, t);
          assert Lower(s[1..]) == Lower(s)[1..];
          assert Lower(t[1..]) == Lower(t)[1..];
          MatchesIgnoresCase(p, s[1..], t[1..]);
        }
      } else if |s| > 0 {
        assert |t| == |s|;
        assert Lower(s)[0] == Fold(s[0]) && Lower(t)[0] == Fold(t[0]);
        assert Lower(s[1..]) == Lower(s)[1..];
        assert Lower(t[1..]) == Lower(t)[1..];
        MatchesIgnoresCase(p[1..], s[1..], t[1..]);
      } else {
        assert |t| == 0;
      }
    } else if |s| == 1 {
      SameFirstNewline(s, t);
      assert s == [s[0]] && t == [t[0]];
    }
  }

  /** Two names equal up to case start with a newline together. */
  lemma SameFirstNewline(s: string, t: string)
    requires Lower(s) == Lower(t) && |s| > 0
    ensures |t| == |s| && (s[0] == '\n' <==> t[0] == '\n')
  {
    assert Lower(s)[0] == Fold(s[0]) && Lower(t)[0] == Fold(t[0]);
    FoldNewline(s[0]);
    FoldNewline(t[0]);
  }

  /** Patterns built from names that differ only in case match the same
      names, so keying the pattern table by the case-folded name
      (models.py:325) loses nothing. */
  lemma {:induction false} PatternIgnoresCase(p: string, q: string, s: string)
    requires Lower(p) == Lower(q)
    ensures Matches(p, s) <==> Matches(q, s)
    decreases |p| + |s|
  {
    if |p| > 0 {
      assert Lower(p)[0] == Fold(p[0]) && Lower(q)[0] == Fold(q[0]);
      FoldStar(p[0]);
      FoldStar(q[0]);
      assert Lower(p[1..]) == Lower(p)[1..];
      assert Lower(q[1..]) == Lower(q)[1..];
      PatternIgnoresCase(p[1..], q[1..], s);
      if |s| > 0 {
        PatternIgnoresCase(p[1..], q[1..], s[1..]);
        if p[0] == '*' {
          PatternIgnoresCase(p, q, s[1..]);
        }
      }
    } else {
      assert |q| == 0;
    }
  }
}

=== FILE: grouping.dfy ===
/** `grouped_statements` (wonk/policy.py:20-47): the statements of a list of
    policy documents, merged by their action-grouping key. The first
    statement with a key stands for its group and the actions of every later
    statement with that key are added to it. Python keeps the groups in a
    dictionary, in insertion order; the model keeps them in a sequence in the
    same order. `InternalStatement` is not part of this model: it is taken to
    be a `Statement` whose grouping key is `grouping_for_actions` and whose
    action set can grow. */
module Grouping {
  import opened Exceptions
  import opened Strings
  import opened Json
  import opened Canon
  import opened Statements
  import opened Sorting
  import opened PolicyDoc

  datatype Group = Group(key: ActionsGroup, statement: Statement)

  /** Every group is a well-formed statement filed under its own key, and no
      key is filed twice. */
  predicate WellGrouped(groups: seq<Group>) {
    && (forall i :: 0 <= i < |groups| ==> Valid(groups[i].statement.data) && groups[i].key == GroupingForActions(groups[i].statement))
    && (forall i, j :: 0 <= i < j < |groups| ==> groups[i].key != groups[j].key)
  }

  function Keys(groups: seq<Group>): set<ActionsGroup> {
    set i | 0 <= i < |groups| :: groups[i].key
  }

  /** The position of the group filed under `key`, if any. */
  function IndexOf(groups: seq<Group>, key: ActionsGroup): (r: Option<nat>)
    ensures r.Some? ==> r.value < |groups| && groups[r.value].key == key
    ensures r.Some? ==> forall j :: 0 <= j < r.value ==> groups[j].key != key
    ensures r.None? ==> forall j :: 0 <= j < |groups| ==> groups[j].key != key
  {
    if groups == [] then None
    else if groups[0].key == key then Some(0)
    else match IndexOf(groups[1..], key)
      case None => None
      case Some(i) => Some(i + 1)
  }

  /** Two group lists with the same keys in the same places find a key at
      the same place. */
  lemma IndexOfSameKeys(a: seq<Group>, b: seq<Group>, key: ActionsGroup)
    requires |a| == |b| && forall i :: 0 <= i < |a| ==> a[i].key == b[i].key
    ensures IndexOf(a, key) == IndexOf(b, key)
  {
  }

  /** `existing_item.action_value |= internal_statement.action_value`: the
      group's statement with the union of both action sets. */
  function Merge(existing: Statement, s: Statement): (r: Statement)
    requires Valid(existing.data) && Valid(s.data)
    ensures Valid(r.data)
    ensures GroupingForActions(r) == GroupingForActions(existing)
    ensures ActionValue(r) == ActionValue(existing) + ActionValue(s)
    ensures forall k :: k in existing.data && k != ActionKey(existing) ==> k in r.data && r.data[k] == existing.data[k]
  {
    var union := ActionValue(existing) + ActionValue(s);
    ReplaceActions(existing, union);
    Replace(existing, Some(StringsJson(SortedSet(union))), None)
  }

  /** Replacing the actions of a statement by the sorted list of a set. */
  lemma ReplaceActions(existing: Statement, union: set<string>)
    requires Valid(existing.data)
    ensures var r := Replace(existing, Some(StringsJson(SortedSet(union))), None);
      && Valid(r.data)
      && GroupingForActions(r) == GroupingForActions(existing)
      && ActionValue(r) == union
      && forall k :: k in existing.data && k != ActionKey(existing) ==> k in r.data && r.data[k] == existing.data[k]
  {
    var actions := StringsJson(SortedSet(union));
    ToSetOfValue(List(SortedSet(union)));
    assert Elements(List(SortedSet(union))) == union;
    GroupingIgnoresActions(existing, actions);
  }

  /** Filing one statement: merged into the group of its key, or a new
      group at the end. */
  function Add(groups: seq<Group>, s: Statement): seq<Group>
    requires WellGrouped(groups) && Valid(s.data)
  {
    var key := GroupingForActions(s);
    match IndexOf(groups, key)
    case Some(i) => groups[i := Group(key, Merge(groups[i].statement, s))]
    case None => groups + [Group(key, s)]
  }

  /** The actions filed under `key` so far. */
  function ActionsOf(groups: seq<Group>, key: ActionsGroup): set<string>
    requires WellGrouped(groups)
  {
    match IndexOf(groups, key)
    case Some(i) => ActionValue(groups[i].statement)
    case None => {}
  }

  /** Replacing the group at `i` by a well-formed group under the same key
      keeps the groups well formed and the keys in their places. */
  lemma ReplaceGroup(groups: seq<Group>, i: nat, g: Group)
    requires WellGrouped(groups) && i < |groups|
    requires g.key == groups[i].key && Valid(g.statement.data) && g.key == GroupingForActions(g.statement)
    ensures WellGrouped(groups[i := g])
    ensures forall j :: 0 <= j < |groups| ==> groups[i := g][j].key == groups[j].key
  {
  }

  /** ... and changes what is filed under that key only. */
  lemma ReplaceGroupActions(groups: seq<Group>, i: nat, g: Group, k: ActionsGroup)
    requires WellGrouped(groups) && i < |groups|
    requires g.key == groups[i].key && Valid(g.statement.data) && g.key == GroupingForActions(g.statement)
    ensures WellGrouped(groups[i := g])
    ensures ActionsOf(groups[i := g], k) == if k == g.key then ActionValue(g.statement) else ActionsOf(groups, k)
  {
    ReplaceGroup(groups, i, g);
    IndexOfSameKeys(groups[i := g], groups, k);
  }

  /** Filing a statement whose key is already filed at `i`: the same keys
      in the same places. */
  lemma AddToGroup(groups: seq<Group>, s: Statement, i: nat)
    requires WellGrouped(groups) && Valid(s.data)
    requires IndexOf(groups, GroupingForActions(s)) == Some(i)
    ensures WellGrouped(Add(groups, s))
    ensures |Add(groups, s)| == |groups|
    ensures forall j :: 0 <= j < |groups| ==> Add(groups, s)[j].key == groups[j].key
  {
    var key := GroupingForActions(s);
    ReplaceGroup(groups, i, Group(key, Merge(groups[i].statement, s)));
  }

  /** ... and its actions added to that group only. */
  lemma AddToGroupActions(groups: seq<Group>, s: Statement, i: nat, k: ActionsGroup)
    requires WellGrouped(groups) && Valid(s.data)
    requires IndexOf(groups, GroupingForActions(s)) == Some(i)
    ensures WellGrouped(Add(groups, s))
    ensures ActionsOf(Add(groups, s), k) == ActionsOf(groups, k) + (if k == GroupingForActions(s) then ActionValue(s) else {})
  {
    var key := GroupingForActions(s);
    var old_ := groups[i].statement;
    var merged := Merge(old_, s);
    var g := Group(key, merged);
    assert Add(groups, s) == groups[i := g];
    MergedActions(groups, i, g, s, k);
  }

  /** Replacing the group at `i` by one whose actions gain those of `s`. */
  lemma MergedActions(groups: seq<Group>, i: nat, g: Group, s: Statement, k: ActionsGroup)
    requires WellGrouped(groups) && i < |groups|
    requires g.key == groups[i].key && Valid(g.statement.data) && g.key == GroupingForActions(g.statement)
    requires Valid(s.data) && ActionValue(g.statement) == ActionValue(groups[i].statement) + ActionValue(s)
    ensures WellGrouped(groups[i := g])
    ensures ActionsOf(groups[i := g], k) == ActionsOf(groups, k) + (if k == g.key then ActionValue(s) else {})
  {
    ReplaceGroupActions(groups, i, g, k);
    if k == g.key {
      IndexOfAt(groups, i);
    }
  }

  /** With distinct keys, a group is found at its own place. */
  lemma IndexOfAt(groups: seq<Group>, i: nat)
    requires i < |groups| && forall a, b :: 0 <= a < b < |groups| ==> groups[a].key != groups[b].key
    ensures IndexOf(groups, groups[i].key) == Some(i)
  {
  }

  /** Filing a statement whose key is new: one more group, at the end. */
  lemma AddNewGroup(groups: seq<Group>, s: Statement)
    requires WellGrouped(groups) && Valid(s.data)
    requires IndexOf(groups, GroupingForActions(s)).None?
    ensures WellGrouped(Add(groups, s))
    ensures Add(groups, s) == groups + [Group(GroupingForActions(s), s)]
  {
    AppendGroup(groups, Group(GroupingForActions(s), s));
  }

  /** A group under a key not filed yet can go at the end. */
  lemma AppendGroup(groups: seq<Group>, g: Group)
    requires WellGrouped(groups) && Valid(g.statement.data) && g.key == GroupingForActions(g.statement)
    requires forall j :: 0 <= j < |groups| ==> groups[j].key != g.key
    ensures WellGrouped(groups + [g])
  {
    var r := groups + [g];
    forall i | 0 <= i < |r| ensures Valid(r[i].statement.data) && r[i].key == GroupingForActions(r[i].statement) {
      if i < |groups| {
        assert r[i] == groups[i];
      }
    }
  }

  /** ... which holds its actions, and nothing else changes. */
  lemma AddNewGroupActions(groups: seq<Group>, s: Statement, k: ActionsGroup)
    requires WellGrouped(groups) && Valid(s.data)
    requires IndexOf(groups, GroupingForActions(s)).None?
    ensures WellGrouped(Add(groups, s))
    ensures ActionsOf(Add(groups, s), k) == ActionsOf(groups, k) + (if k == GroupingForActions(s) then ActionValue(s) else {})
  {
    AddNewGroup(groups, s);
    var key := GroupingForActions(s);
    var r := groups + [Group(key, s)];
    var ir, ig := IndexOf(r, k), IndexOf(groups, k);
    if k != key {
      assert ir.Some? ==> ir.value < |groups|;
      assert ig.Some? ==> r[ig.value] == groups[ig.value];
    } else {
      assert r[|groups|].key == k;
    }
  }

  /** Filing a statement keeps the groups well formed, files its key, adds
      at most one group, and adds its actions to its own key only. */
  lemma AddSpec(groups: seq<Group>, s: Statement)
    requires WellGrouped(groups) && Valid(s.data)
    ensures WellGrouped(Add(groups, s))
    ensures Keys(Add(groups, s)) == Keys(groups) + {GroupingForActions(s)}
    ensures |Add(groups, s)| <= |groups| + 1
    ensures forall key :: (ActionsOf(Add(groups, s), key) ==
      ActionsOf(groups, key) + (if key == GroupingForActions(s) then ActionValue(s) else {}))
  {
    AddKeys(groups, s);
    forall k ensures ActionsOf(Add(groups, s), k) ==
      ActionsOf(groups, k) + (if k == GroupingForActions(s) then ActionValue(s) else {})
    {
      match IndexOf(groups, GroupingForActions(s))
      case Some(i) => AddToGroupActions(groups, s, i, k);
      case None => AddNewGroupActions(groups, s, k);
    }
  }

  lemma AddKeys(groups: seq<Group>, s: Statement)
    requires WellGrouped(groups) && Valid(s.data)
    ensures WellGrouped(Add(groups, s))
    ensures Keys(Add(groups, s)) == Keys(groups) + {GroupingForActions(s)}
    ensures |Add(groups, s)| <= |groups| + 1
  {
    var key := GroupingForActions(s);
    match IndexOf(groups, key)
    case Some(i) =>
      AddToGroup(groups, s, i);
      KeysSamePlaces(Add(groups, s), groups);
      assert groups[i].key in Keys(groups);
    case None =>
      AddNewGroup(groups, s);
      KeysAppend(groups, Group(key, s));
  }

  /** Group lists with the same keys in the same places have the same keys. */
  lemma KeysSamePlaces(a: seq<Group>, b: seq<Group>)
    requires |a| == |b| && forall i :: 0 <= i < |a| ==> a[i].key == b[i].key
    ensures Keys(a) == Keys(b)
  {
    forall k | k in Keys(b) ensures k in Keys(a) {
      var j :| 0 <= j < |b| && b[j].key == k;
      assert a[j].key == k;
    }
  }

  /** One more group adds its key. */
  lemma KeysAppend(a: seq<Group>, g: Group)
    ensures Keys(a + [g]) == Keys(a) + {g.key}
  {
    var r := a + [g];
    forall k | k in Keys(a) ensures k in Keys(r) {
      var j :| 0 <= j < |a| && a[j].key == k;
      assert r[j].key == k;
    }
    assert r[|a|].key == g.key;
  }

  /** Grouping a list of statements in order. */
  function Grouped(ss: seq<Statement>): (r: seq<Group>)
    requires AllValid(ss)
    ensures WellGrouped(r)
    decreases |ss|
  {
    if ss == [] then []
    else
      var init := ss[..|ss| - 1];
      assert AllValid(init);
      var g := Grouped(init);
      AddSpec(g, ss[|ss| - 1]);
      Add(g, ss[|ss| - 1])
  }

  /** The grouping keys of the statements. */
  function KeysFor(ss: seq<Statement>): set<ActionsGroup>
    requires AllValid(ss)
  {
    if ss == [] then {}
    else
      var init := ss[..|ss| - 1];
      assert AllValid(init);
      KeysFor(init) + {GroupingForActions(ss[|ss| - 1])}
  }

  /** The union of the actions of the statements whose key is `key`. */
  function ActionsFor(ss: seq<Statement>, key: ActionsGroup): set<string>
    requires AllValid(ss)
  {
    if ss == [] then {}
    else
      var init := ss[..|ss| - 1];
      assert AllValid(init);
      ActionsFor(init, key) + (if GroupingForActions(ss[|ss| - 1]) == key then ActionValue(ss[|ss| - 1]) else {})
  }

  /** The key of every statement is among the keys. */
  lemma {:induction false} KeysForHas(ss: seq<Statement>, i: nat)
    requires AllValid(ss) && i < |ss|
    ensures GroupingForActions(ss[i]) in KeysFor(ss)
  {
    var init := ss[..|ss| - 1];
    assert AllValid(init);
    if i < |ss| - 1 {
      KeysForHas(init, i);
      assert init[i] == ss[i];
    }
  }

  /** ... and every key is the key of some statement. */
  lemma {:induction false} KeysForOnly(ss: seq<Statement>, key: ActionsGroup)
    requires AllValid(ss) && key in KeysFor(ss)
    ensures exists i :: 0 <= i < |ss| && GroupingForActions(ss[i]) == key
  {
    var init := ss[..|ss| - 1];
    assert AllValid(init);
    if key != GroupingForActions(ss[|ss| - 1]) {
      KeysForOnly(init, key);
      var i :| 0 <= i < |init| && GroupingForActions(init[i]) == key;
      assert init[i] == ss[i];
    }
  }

  /** `grouped_statements` files every statement: there is one group per
      distinct grouping key of the input and no other, at most as many
      groups as statements, and each group holds exactly the union of the
      actions of the statements with its key. */
  lemma {:induction false} GroupedSpec(ss: seq<Statement>)
    requires AllValid(ss)
    ensures Keys(Grouped(ss)) == KeysFor(ss)
    ensures |Grouped(ss)| <= |ss|
    ensures forall key :: ActionsOf(Grouped(ss), key) == ActionsFor(ss, key)
  {
    if ss != [] {
      var init := ss[..|ss| - 1];
      var last := ss[|ss| - 1];
      assert AllValid(init);
      GroupedSpec(init);
      var g := Grouped(init);
      AddSpec(g, last);
      assert Grouped(ss) == Add(g, last);
      forall key ensures ActionsOf(Grouped(ss), key) == ActionsFor(ss, key) {
        assert ActionsFor(ss, key) == ActionsFor(init, key) + (if GroupingForActions(last) == key then ActionValue(last) else {});
      }
    }
  }

  /** Every statement's actions are among those of its key. */
  lemma {:induction false} ActionsForHas(ss: seq<Statement>, i: nat)
    requires AllValid(ss) && i < |ss|
    ensures ActionValue(ss[i]) <= ActionsFor(ss, GroupingForActions(ss[i]))
  {
    var init := ss[..|ss| - 1];
    assert AllValid(init);
    if i < |ss| - 1 {
      ActionsForHas(init, i);
      assert init[i] == ss[i];
    }
  }

  /** Every statement has a group: filed under its key, whose statement
      carries that key and at least its actions. */
  lemma GroupOf(ss: seq<Statement>, i: nat) returns (g: nat)
    requires AllValid(ss) && i < |ss|
    ensures g < |Grouped(ss)| && Grouped(ss)[g].key == GroupingForActions(ss[i])
    ensures GroupingForActions(Grouped(ss)[g].statement) == GroupingForActions(ss[i])
    ensures ActionValue(ss[i]) <= ActionValue(Grouped(ss)[g].statement)
  {
    GroupedSpec(ss);
    KeysForHas(ss, i);
    ActionsForHas(ss, i);
    var key := GroupingForActions(ss[i]);
    var groups := Grouped(ss);
    assert key in Keys(groups);
    var j :| 0 <= j < |groups| && groups[j].key == key;
    g := IndexOf(groups, key).value;
    assert ActionsOf(groups, key) == ActionValue(groups[g].statement);
  }

  /** Two statements of the input end up in the same group exactly when
      their grouping keys are equal: in particular a `Resource` statement
      never joins a `NotResource` one, and statements whose resources are
      the same set, however written, do join. */
  lemma SameGroupIff(ss: seq<Statement>, i: nat, j: nat)
    requires AllValid(ss) && i < |ss| && j < |ss|
    ensures IndexOf(Grouped(ss), GroupingForActions(ss[i])).Some?
    ensures IndexOf(Grouped(ss), GroupingForActions(ss[i])) == IndexOf(Grouped(ss), GroupingForActions(ss[j])) <==>
      GroupingForActions(ss[i]) == GroupingForActions(ss[j])
  {
    GroupedSpec(ss);
    var g := Grouped(ss);
    KeysForHas(ss, i);
    KeysForHas(ss, j);
    assert GroupingForActions(ss[i]) in Keys(g);
    assert GroupingForActions(ss[j]) in Keys(g);
  }

  /** `policy[Statement]` of a policy document, a single object standing
      for a one-element list; a document without the entry is a KeyError. */
  function StatementsOf(policy: Json): (r: Result<seq<Data>>)
    ensures !policy.JObj? ==> r == Err(MalformedDocument)
    ensures policy.JObj? && STATEMENT !in policy.obj ==> r == Err(MissingKey(STATEMENT))
  {
    if !policy.JObj? then Err(MalformedDocument)
    else if STATEMENT !in policy.obj then Err(MissingKey(STATEMENT))
    else StatementList(policy.obj[STATEMENT])
  }

  /** Every statement of every document, in order; the first structural
      error or ill-formed statement is the error raised. */
  function CollectStatements(policies: seq<Json>): (r: Result<seq<Statement>>)
    ensures r.Ok? ==> AllValid(r.value)
  {
    if policies == [] then Ok([])
    else
      var datas :- StatementsOf(policies[0]);
      var ss :- ParseAll(datas);
      var rest :- CollectStatements(policies[1..]);
      Ok(ss + rest)
  }

  /** A document whose `Statement` entry is well formed and whose every
      statement parses. */
  predicate DocumentParses(policy: Json) {
    && StatementsOf(policy).Ok?
    && forall i :: 0 <= i < |StatementsOf(policy).value| ==> Valid(StatementsOf(policy).value[i])
  }

  /** The error a document that does not parse raises: a structural one
      first, else that of its first ill-formed statement. */
  function DocumentError(policy: Json): Error
    requires !DocumentParses(policy)
  {
    if StatementsOf(policy).Err? then StatementsOf(policy).error else ParseAll(StatementsOf(policy).value).error
  }

  /** The statement entries of every document, in document order. */
  function AllData(policies: seq<Json>): seq<Data>
    requires forall k :: 0 <= k < |policies| ==> StatementsOf(policies[k]).Ok?
  {
    if policies == [] then [] else StatementsOf(policies[0]).value + AllData(policies[1..])
  }

  /** Collecting succeeds exactly when every document parses; it then gives
      the statements of every document's entries in document order, and
      otherwise raises the error of the first document that does not
      parse. */
  lemma {:induction false} CollectStatementsSpec(policies: seq<Json>)
    ensures CollectStatements(policies).Ok? <==> forall k :: 0 <= k < |policies| ==> DocumentParses(policies[k])
    ensures CollectStatements(policies).Ok? ==>
      var ss := CollectStatements(policies).value;
      && |ss| == |AllData(policies)|
      && forall i :: 0 <= i < |ss| ==> ss[i] == Statement(AllData(policies)[i])
    ensures CollectStatements(policies).Err? ==>
      exists k :: && 0 <= k < |policies| && !DocumentParses(policies[k])
                  && CollectStatements(policies).error == DocumentError(policies[k])
                  && forall j :: 0 <= j < k ==> DocumentParses(policies[j])
  {
    if policies != [] {
      var rest := policies[1..];
      CollectStatementsSpec(rest);
      assert forall k :: 1 <= k < |policies| ==> policies[k] == rest[k - 1];
      if CollectStatements(policies).Err? && DocumentParses(policies[0]) {
        var k :| && 0 <= k < |rest| && !DocumentParses(rest[k])
                 && CollectStatements(rest).error == DocumentError(rest[k])
                 && forall j :: 0 <= j < k ==> DocumentParses(rest[j]);
        assert policies[k + 1] == rest[k];
      }
    }
  }

  /** The statement entries of a single document are its own. */
  lemma AllDataSingle(policy: Json)
    requires StatementsOf(policy).Ok?
    ensures AllData([policy]) == StatementsOf(policy).value
  {
    assert [policy][1..] == [];
    assert StatementsOf(policy).value + [] == StatementsOf(policy).value;
  }

  /** A single-object `Statement` entry groups exactly as a one-element
      list holding it. */
  lemma SingleStatementEntry(m: map<string, Json>, statement: map<string, Json>)
    ensures StatementsOf(JObj(m[STATEMENT := JObj(statement)])) ==
      StatementsOf(JObj(m[STATEMENT := JArr([JObj(statement)])]))
  {
    var r := StatementList(JArr([JObj(statement)]));
    assert r.Ok? && |r.value| == 1 && JObj(r.value[0]) == JObj(statement);
    assert r.value == [statement];
  }

  /** `grouped_statements(policies)`. */
  function GroupedStatements(policies: seq<Json>): (r: Result<seq<Group>>)
    ensures r.Ok? ==> WellGrouped(r.value)
    ensures r.Ok? <==> CollectStatements(policies).Ok?
    ensures r.Ok? ==> |r.value| <= |CollectStatements(policies).value|
    ensures r.Ok? ==> r.value == Grouped(CollectStatements(policies).value)
  {
    var ss :- CollectStatements(policies);
    GroupedSpec(ss);
    Ok(Grouped(ss))
  }
}

=== FILE: json.dfy ===
/** JSON values, the layouts `json.dumps` is asked for, and the constants of
    wonk/constants.py. The byte layout of each style is not modelled: callers
    pass the serialiser in as a `Dumps` function. */
module Json {
  import opened Exceptions

  datatype Json =
    | JStr(str: string)
    | JArr(arr: seq<Json>)
    | JObj(obj: map<string, Json>)
    | JNum(num: int)
    | JBool(flag: bool)
    | JNull

  /** Python's `==` on decoded JSON values: `bool` is a subtype of `int`,
      so `true == 1` and `false == 0`; lists compare element by element and
      dicts by their keys and the values under them. */
  predicate PyEq(a: Json, b: Json) {
    match a
    case JArr(xs) =>
      b.JArr? && |xs| == |b.arr| && forall i :: 0 <= i < |xs| ==> PyEq(xs[i], b.arr[i])
    case JObj(m) =>
      b.JObj? && m.Keys == b.obj.Keys && forall k :: k in m ==> PyEq(m[k], b.obj[k])
    case JBool(x) => b == a || b == JNum(if x then 1 else 0)
    case JNum(n) => b == a || (b.JBool? && n == (if b.flag then 1 else 0))
    case _ => b == a
  }

  /** Every value is equal to itself. */
  lemma {:induction false} PyEqReflexive(a: Json)
    ensures PyEq(a, a)
  {
    match a
    case JArr(xs) =>
      forall i | 0 <= i < |xs|
        ensures PyEq(xs[i], xs[i])
      {
        PyEqReflexive(xs[i]);
      }
    case JObj(m) =>
      forall k | k in m
        ensures PyEq(m[k], m[k])
      {
        PyEqReflexive(m[k]);
      }
    case _ =>
  }

  /** Python's equality is symmetric. */
  lemma {:induction false} PyEqSymmetric(a: Json, b: Json)
    requires PyEq(a, b)
    ensures PyEq(b, a)
  {
    match a
    case JArr(xs) =>
      forall i | 0 <= i < |xs|
        ensures PyEq(b.arr[i], xs[i])
      {
        PyEqSymmetric(xs[i], b.arr[i]);
      }
    case JObj(m) =>
      forall k | k in b.obj
        ensures PyEq(b.obj[k], m[k])
      {
        PyEqSymmetric(m[k], b.obj[k]);
      }
    case _ =>
  }

  /** The value holds no boolean anywhere. */
  predicate BoolFree(a: Json) {
    match a
    case JArr(xs) => forall i :: 0 <= i < |xs| ==> BoolFree(xs[i])
    case JObj(m) => forall k :: k in m ==> BoolFree(m[k])
    case JBool(_) => false
    case _ => true
  }

  /** When neither side holds a boolean, Python's equality is plain
      equality of values. */
  lemma {:induction false} PyEqBoolFree(a: Json, b: Json)
    requires BoolFree(a) && BoolFree(b)
    ensures PyEq(a, b) <==> a == b
  {
    if a == b {
      PyEqReflexive(a);
    } else {
      match a
      case JArr(xs) =>
        if b.JArr? && |xs| == |b.arr| {
          var i :| 0 <= i < |xs| && xs[i] != b.arr[i];
          PyEqBoolFree(xs[i], b.arr[i]);
        }
      case JObj(m) =>
        if b.JObj? && m.Keys == b.obj.Keys {
          var k :| k in m && m[k] != b.obj[k];
          PyEqBoolFree(m[k], b.obj[k]);
        }
      case _ =>
    }
  }

  /** The cases where Python's equality is looser than equality of values. */
  lemma TrueEqualsOne()
    ensures PyEq(JBool(true), JNum(1)) && PyEq(JNum(0), JBool(false))
    ensures !PyEq(JBool(true), JNum(2)) && !PyEq(JBool(true), JBool(false))
  {
  }

  /** The keyword arguments in `JSON_ARGS` (constants.py:31-37). */
  datatype Layout = Indent4 | Indent2 | IndentTab | Spaced | Compact

  /** A layout plus whether `sort_keys=True` was passed. */
  datatype Format = Format(layout: Layout, sortKeys: bool)

  /** `json.dumps(value, **args)` for one format. */
  type Dumps = (Json, Format) -> string

  /** From the most readable (and largest) layout to the most compact. */
  const JSON_ARGS: seq<Layout> := [Indent4, Indent2, IndentTab, Spaced, Compact]

  /** `tiniest_json` / `smallest_json`: compact with sorted keys. */
  const TINIEST: Format := Format(Compact, true)

  const MAX_MANAGED_POLICY_SIZE: int := 6144

  /** Policy keys (constants.py:7-12). */
  const ID: string := "Id"
  const STATEMENT: string := "Statement"
  const VERSION: string := "Version"

  /** Statement keys (constants.py:15-26). */
  const EFFECT: string := "Effect"
  const ACTION: string := "Action"
  const NOT_ACTION: string := "NotAction"
  const RESOURCE: string := "Resource"
  const NOT_RESOURCE: string := "NotResource"
  const SID: string := "Sid"

  /** The policy language version every rendered document carries. */
  const POLICY_VERSION: string := "2012-10-17"

  /** `json.dumps(data, **JSON_ARGS[i])`, with or without sorted keys. */
  function Encoded(data: Json, i: nat, sortKeys: bool, dumps: Dumps): string
    requires i < |JSON_ARGS|
  {
    dumps(data, Format(JSON_ARGS[i], sortKeys))
  }

  /** Layout `k` is the first one from `i` on whose output is at most
      `maxSize` long. */
  predicate FirstFit(data: Json, k: nat, maxSize: int, sortKeys: bool, dumps: Dumps, i: nat)
    requires k < |JSON_ARGS|
  {
    && |Encoded(data, k, sortKeys, dumps)| <= maxSize
    && forall j :: i <= j < k ==> |Encoded(data, j, sortKeys, dumps)| > maxSize
  }

  function FirstFittingFrom(data: Json, maxSize: int, sortKeys: bool, dumps: Dumps, i: nat): (r: Result<string>)
    requires i <= |JSON_ARGS|
    ensures r.Ok? <==> exists k :: i <= k < |JSON_ARGS| && |Encoded(data, k, sortKeys, dumps)| <= maxSize
    ensures r.Ok? ==> exists k :: i <= k < |JSON_ARGS| && FirstFit(data, k, maxSize, sortKeys, dumps, i) && r.value == Encoded(data, k, sortKeys, dumps)
    ensures r.Err? ==> r.error == UnshrinkablePolicy
    decreases |JSON_ARGS| - i
  {
    if i == |JSON_ARGS| then Err(UnshrinkablePolicy)
    else
      var packed := Encoded(data, i, sortKeys, dumps);
      if |packed| <= maxSize then Ok(packed)
      else FirstFittingFrom(data, maxSize, sortKeys, dumps, i + 1)
  }

  /** The loop over `JSON_ARGS` shared by `packed_json` (policy.py:75-84) and
      `Policy.render` (models.py:240-251): the first, most readable layout
      whose output is at most `maxSize` long, or UnshrinkablePolicyError
      exactly when no layout fits. */
  function FirstFitting(data: Json, maxSize: int, sortKeys: bool, dumps: Dumps): (r: Result<string>)
    ensures r.Ok? <==> exists k :: 0 <= k < |JSON_ARGS| && |Encoded(data, k, sortKeys, dumps)| <= maxSize
    ensures r.Ok? ==> exists k :: 0 <= k < |JSON_ARGS| && FirstFit(data, k, maxSize, sortKeys, dumps, 0) && r.value == Encoded(data, k, sortKeys, dumps)
    ensures r.Err? ==> r.error == UnshrinkablePolicy
  {
    FirstFittingFrom(data, maxSize, sortKeys, dumps, 0)
  }
}

=== FILE: optimizer.dfy ===
/** The bin packer of wonk/optimizer.py. The mixed-integer program it hands
    to the SCIP solver is stated as a constraint predicate; the solver is
    an oracle whose answer is a `Solution` value; the extraction of the bins
    from that answer is modelled as it is written. */
module Optimizer {
  import opened Exceptions

  /** The solver's result status; only `Optimal` is accepted. */
  datatype Status = Optimal | Feasible | Infeasible | Unbounded | Abnormal | NotSolved

  /** The solver's answer: `x(i, j)` is the value of "item `i` is in bin
      `j`", `y(j)` the value of "bin `j` is used". */
  datatype Solution = Solution(status: Status, x: (nat, nat) -> int, y: nat -> int)

  /** A bin of the result: its index and the indices of its items. */
  datatype Bin = Bin(index: nat, members: seq<nat>)

  /** `len(item)` for every item. */
  function Sizes(items: seq<string>): (r: seq<nat>)
    ensures |r| == |items|
    ensures forall i :: 0 <= i < |items| ==> r[i] == |items[i]|
  {
    seq(|items|, i requires 0 <= i < |items| => |items[i]|)
  }

  /** `sum(x[i, j] for j in range(bins))`. */
  function RowSum(sol: Solution, i: nat, bins: nat): int {
    if bins == 0 then 0 else RowSum(sol, i, bins - 1) + sol.x(i, bins - 1)
  }

  /** `sum(x[i, j] * len(item) for i, item in enumerate(packed))` over the
      first `n` items. */
  function Load(sizes: seq<nat>, sol: Solution, j: nat, n: nat): int
    requires n <= |sizes|
  {
    if n == 0 then 0 else Load(sizes, sol, j, n - 1) + sol.x(n - 1, j) * sizes[n - 1]
  }

  predicate ZeroOne(v: int) {
    v == 0 || v == 1
  }

  /** The constraints of the program (optimizer.py:20-42): 0/1 variables,
      every item in exactly one bin, and every bin's load within the
      capacity of an open bin (so a closed bin holds nothing of positive
      size). */
  predicate Satisfies(sizes: seq<nat>, cap: int, bins: nat, sol: Solution) {
    && (forall i, j :: 0 <= i < |sizes| && 0 <= j < bins ==> ZeroOne(sol.x(i, j)))
    && (forall j :: 0 <= j < bins ==> ZeroOne(sol.y(j)))
    && (forall i :: 0 <= i < |sizes| ==> RowSum(sol, i, bins) == 1)
    && (forall j :: 0 <= j < bins ==> Load(sizes, sol, j, |sizes|) <= sol.y(j) * cap)
  }

  /** Every index is below `n`. */
  predicate Below(indices: seq<nat>, n: nat) {
    forall k :: 0 <= k < |indices| ==> indices[k] < n
  }

  /** The indices of the first `n` items whose `x[i, j]` is positive, in
      item order. */
  function Members(sol: Solution, j: nat, n: nat): (r: seq<nat>)
    ensures Below(r, n)
  {
    if n == 0 then []
    else Members(sol, j, n - 1) + (if sol.x(n - 1, j) > 0 then [n - 1] else [])
  }

  /** An item is a member of a bin exactly when its `x[i, j]` is positive,
      and members come in item order, each once. */
  lemma {:induction false} MembersExact(sol: Solution, j: nat, n: nat)
    ensures forall i: nat :: i in Members(sol, j, n) <==> i < n && sol.x(i, j) > 0
    ensures forall k, l :: 0 <= k < l < |Members(sol, j, n)| ==> Members(sol, j, n)[k] < Members(sol, j, n)[l]
  {
    if n > 0 {
      MembersExact(sol, j, n - 1);
      var prev := Members(sol, j, n - 1);
      assert forall i: nat :: i in Members(sol, j, n) <==> i in prev || (i == n - 1 && sol.x(i, j) > 0);
    }
  }

  /** The bins among the first `m` whose `y[j]` is 1 and that hold at
      least one item, in bin order (optimizer.py:52-61). */
  function Extract(sol: Solution, n: nat, m: nat): (r: seq<Bin>)
    ensures |r| <= m
    ensures forall k :: 0 <= k < |r| ==> Below(r[k].members, n)
  {
    if m == 0 then []
    else
      var j := m - 1;
      var members := Members(sol, j, n);
      Extract(sol, n, j) + (if sol.y(j) == 1 && members != [] then [Bin(j, members)] else [])
  }

  /** An item placed in the first bin and no other has a row sum of 1. */
  lemma {:induction false} RowSumFirstOnly(sol: Solution, i: nat, m: nat)
    requires m >= 1 && sol.x(i, 0) == 1
    requires forall j :: 1 <= j < m ==> sol.x(i, j) == 0
    ensures RowSum(sol, i, m) == 1
  {
    if m > 1 {
      RowSumFirstOnly(sol, i, m - 1);
    }
  }

  /** Closed bins after the first add nothing to the extraction. */
  lemma {:induction false} ExtractClosed(sol: Solution, n: nat, m: nat)
    requires m >= 1
    requires forall j :: 1 <= j < m ==> sol.y(j) != 1
    ensures Extract(sol, n, m) == Extract(sol, n, 1)
  {
    if m > 1 {
      ExtractClosed(sol, n, m - 1);
    }
  }

  /** A bin of the result: an open bin below `m` with its members, not empty. */
  predicate Extracted(sol: Solution, n: nat, m: nat, b: Bin) {
    && b.index < m
    && sol.y(b.index) == 1
    && b.members == Members(sol, b.index, n)
    && b.members != []
  }

  /** Every list of the extraction is a non-empty open bin, in increasing
      bin order. */
  lemma {:induction false} ExtractBins(sol: Solution, n: nat, m: nat)
    ensures forall k :: 0 <= k < |Extract(sol, n, m)| ==> Extracted(sol, n, m, Extract(sol, n, m)[k])
    ensures forall k, l :: 0 <= k < l < |Extract(sol, n, m)| ==> Extract(sol, n, m)[k].index < Extract(sol, n, m)[l].index
  {
    if m > 0 {
      ExtractBins(sol, n, m - 1);
      var prev := Extract(sol, n, m - 1);
      var r := Extract(sol, n, m);
      assert forall k :: 0 <= k < |prev| ==> r[k] == prev[k];
    }
  }

  /** Every open bin that holds something is in the extraction. */
  lemma {:induction false} ExtractComplete(sol: Solution, n: nat, m: nat, j: nat)
    requires j < m && sol.y(j) == 1 && Members(sol, j, n) != []
    ensures exists k :: 0 <= k < |Extract(sol, n, m)| && Extract(sol, n, m)[k].index == j
  {
    var prev := Extract(sol, n, m - 1);
    var r := Extract(sol, n, m);
    assert forall k :: 0 <= k < |prev| ==> r[k] == prev[k];
    if j < m - 1 {
      ExtractComplete(sol, n, m - 1, j);
      var k :| 0 <= k < |prev| && prev[k].index == j;
      assert r[k].index == j;
    } else {
      assert r[|r| - 1].index == j;
    }
  }

  /** `pack_statements` on item sizes: the bins as index lists, or
      UnpackableStatementsError when the solver does not report an optimum. */
  function PackIndices(sizes: seq<nat>, cap: int, bins: nat, sol: Solution): (r: Result<seq<Bin>>)
    ensures sol.status != Optimal <==> r == Err(UnpackableStatements)
    ensures r.Ok? ==> |r.value| <= bins
    ensures r.Ok? ==> forall k :: 0 <= k < |r.value| ==> Below(r.value[k].members, |sizes|)
  {
    if sol.status != Optimal then Err(UnpackableStatements)
    else Ok(Extract(sol, |sizes|, bins))
  }

  /** `pack_statements(packed, max_statement_size, bins)` as written: the
      loops over bins and items. */
  method PackStatements(items: seq<string>, cap: int, bins: nat, sol: Solution) returns (r: Result<seq<seq<string>>>)
    ensures r.Err? <==> sol.status != Optimal
    ensures r.Err? ==> r.error == UnpackableStatements
    ensures r.Ok? ==> |r.value| == |PackIndices(Sizes(items), cap, bins, sol).value|
    ensures r.Ok? ==> forall k :: 0 <= k < |r.value| ==>
      r.value[k] == ItemsOf(items, PackIndices(Sizes(items), cap, bins, sol).value[k].members)
  {
    if sol.status != Optimal {
      return Err(UnpackableStatements);
    }
    var results: seq<seq<string>> := [];
    var j := 0;
    while j < bins
      invariant 0 <= j <= bins
      invariant |results| == |Extract(sol, |items|, j)|
      invariant forall k :: 0 <= k < |results| ==> results[k] == ItemsOf(items, Extract(sol, |items|, j)[k].members)
    {
      if sol.y(j) == 1 {
        var binStatements: seq<string> := [];
        var i := 0;
        while i < |items|
          invariant 0 <= i <= |items|
          invariant binStatements == ItemsOf(items, Members(sol, j, i))
        {
          if sol.x(i, j) > 0 {
            binStatements := binStatements + [items[i]];
          }
          i := i + 1;
        }
        if binStatements != [] {
          results := results + [binStatements];
        }
      }
      j := j + 1;
    }
    return Ok(results);
  }

  /** The items at the given indices, in that order. */
  function ItemsOf(items: seq<string>, indices: seq<nat>): (r: seq<string>)
    requires Below(indices, |items|)
    ensures |r| == |indices|
    ensures forall k :: 0 <= k < |indices| ==> r[k] == items[indices[k]]
  {
    seq(|indices|, k requires 0 <= k < |indices| => items[indices[k]])
  }

  /** Total size of the items at the given indices. */
  function SizeOf(sizes: seq<nat>, indices: seq<nat>): int
    requires Below(indices, |sizes|)
  {
    if indices == [] then 0 else SizeOf(sizes, indices[..|indices| - 1]) + sizes[indices[|indices| - 1]]
  }

  /** With 0/1 assignments, a bin's load is the total size of its members. */
  lemma {:induction false} MembersLoad(sizes: seq<nat>, sol: Solution, j: nat, n: nat)
    requires n <= |sizes|
    requires forall i :: 0 <= i < n ==> ZeroOne(sol.x(i, j))
    ensures SizeOf(sizes, Members(sol, j, n)) == Load(sizes, sol, j, n)
  {
    if n > 0 {
      MembersLoad(sizes, sol, j, n - 1);
      var prev := Members(sol, j, n - 1);
      var cur := Members(sol, j, n);
      if sol.x(n - 1, j) > 0 {
        assert cur[..|cur| - 1] == prev;
      } else {
        assert cur == prev;
      }
    }
  }

  /** Under the constraints, every bin of the result fits in the capacity. */
  lemma PackFits(sizes: seq<nat>, cap: int, bins: nat, sol: Solution)
    requires Satisfies(sizes, cap, bins, sol)
    requires PackIndices(sizes, cap, bins, sol).Ok?
    ensures forall k :: 0 <= k < |PackIndices(sizes, cap, bins, sol).value| ==>
      SizeOf(sizes, PackIndices(sizes, cap, bins, sol).value[k].members) <= cap
  {
    var r := PackIndices(sizes, cap, bins, sol).value;
    ExtractBins(sol, |sizes|, bins);
    forall k | 0 <= k < |r|
      ensures SizeOf(sizes, r[k].members) <= cap
    {
      assert Extracted(sol, |sizes|, bins, r[k]);
      MembersLoad(sizes, sol, r[k].index, |sizes|);
    }
  }

  /** A 0/1 row that sums to 1 has exactly one 1. */
  lemma {:induction false} OneBin(sol: Solution, i: nat, bins: nat) returns (j: nat)
    requires forall b :: 0 <= b < bins ==> ZeroOne(sol.x(i, b))
    requires RowSum(sol, i, bins) == 1
    ensures j < bins && sol.x(i, j) == 1
    ensures forall b :: 0 <= b < bins && b != j ==> sol.x(i, b) == 0
  {
    RowSumNonNegative(sol, i, bins - 1);
    if sol.x(i, bins - 1) == 1 {
      j := bins - 1;
      RowSumZero(sol, i, bins - 1);
    } else {
      j := OneBin(sol, i, bins - 1);
    }
  }

  lemma {:induction false} RowSumNonNegative(sol: Solution, i: nat, bins: nat)
    requires forall b :: 0 <= b < bins ==> ZeroOne(sol.x(i, b))
    ensures RowSum(sol, i, bins) >= 0
  {
    if bins > 0 {
      RowSumNonNegative(sol, i, bins - 1);
    }
  }

  lemma {:induction false} RowSumZero(sol: Solution, i: nat, bins: nat)
    requires forall b :: 0 <= b < bins ==> ZeroOne(sol.x(i, b))
    requires RowSum(sol, i, bins) == 0
    ensures forall b :: 0 <= b < bins ==> sol.x(i, b) == 0
  {
    if bins > 0 {
      RowSumNonNegative(sol, i, bins - 1);
      RowSumZero(sol, i, bins - 1);
    }
  }

  /** A load is at least the share of any one item in it. */
  lemma {:induction false} LoadAtLeast(sizes: seq<nat>, sol: Solution, j: nat, n: nat, i: nat)
    requires n <= |sizes| && i < n
    requires forall t :: 0 <= t < n ==> ZeroOne(sol.x(t, j))
    ensures Load(sizes, sol, j, n) >= sol.x(i, j) * sizes[i]
  {
    LoadNonNegative(sizes, sol, j, n - 1);
    if i < n - 1 {
      LoadAtLeast(sizes, sol, j, n - 1, i);
    }
  }

  lemma {:induction false} LoadNonNegative(sizes: seq<nat>, sol: Solution, j: nat, n: nat)
    requires n <= |sizes|
    requires forall t :: 0 <= t < n ==> ZeroOne(sol.x(t, j))
    ensures Load(sizes, sol, j, n) >= 0
  {
    if n > 0 {
      LoadNonNegative(sizes, sol, j, n - 1);
    }
  }

  /** Under the constraints, every item of positive size is in exactly one
      list of the result, once. */
  lemma PackCovers(sizes: seq<nat>, cap: int, bins: nat, sol: Solution, i: nat)
    requires Satisfies(sizes, cap, bins, sol)
    requires sol.status == Optimal
    requires i < |sizes| && sizes[i] > 0
    ensures var r := PackIndices(sizes, cap, bins, sol).value;
      && (exists k :: 0 <= k < |r| && i in r[k].members)
      && (forall k, l :: 0 <= k < |r| && 0 <= l < |r| && i in r[k].members && i in r[l].members ==> k == l)
      && (forall k :: 0 <= k < |r| ==> multiset(r[k].members)[i] <= 1)
  {
    var r := PackIndices(sizes, cap, bins, sol).value;
    PackHas(sizes, cap, bins, sol, i);
    forall k, l | 0 <= k < |r| && 0 <= l < |r| && i in r[k].members && i in r[l].members
      ensures k == l
    {
      PackUnique(sizes, cap, bins, sol, i, k, l);
    }
    forall k | 0 <= k < |r|
      ensures multiset(r[k].members)[i] <= 1
    {
      PackOnce(sizes, cap, bins, sol, i, k);
    }
  }

  lemma PackHas(sizes: seq<nat>, cap: int, bins: nat, sol: Solution, i: nat)
    requires Satisfies(sizes, cap, bins, sol)
    requires sol.status == Optimal
    requires i < |sizes| && sizes[i] > 0
    ensures var r := PackIndices(sizes, cap, bins, sol).value;
      exists k :: 0 <= k < |r| && i in r[k].members
  {
    var r := PackIndices(sizes, cap, bins, sol).value;
    var n := |sizes|;
    ExtractBins(sol, n, bins);
    var j := OneBin(sol, i, bins);
    LoadAtLeast(sizes, sol, j, n, i);
    MembersExact(sol, j, n);
    assert sol.y(j) == 1;
    ExtractComplete(sol, n, bins, j);
    var k :| 0 <= k < |r| && r[k].index == j;
    assert i in r[k].members;
  }

  lemma PackUnique(sizes: seq<nat>, cap: int, bins: nat, sol: Solution, i: nat, k: nat, l: nat)
    requires Satisfies(sizes, cap, bins, sol)
    requires sol.status == Optimal
    requires i < |sizes|
    requires var r := PackIndices(sizes, cap, bins, sol).value;
      k < |r| && l < |r| && i in r[k].members && i in r[l].members
    ensures k == l
  {
    var r := PackIndices(sizes, cap, bins, sol).value;
    var n := |sizes|;
    ExtractBins(sol, n, bins);
    var j := OneBin(sol, i, bins);
    assert Extracted(sol, n, bins, r[k]) && Extracted(sol, n, bins, r[l]);
    MembersExact(sol, r[k].index, n);
    MembersExact(sol, r[l].index, n);
    assert r[k].index == j && r[l].index == j;
  }

  lemma PackOnce(sizes: seq<nat>, cap: int, bins: nat, sol: Solution, i: nat, k: nat)
    requires Satisfies(sizes, cap, bins, sol)
    requires sol.status == Optimal
    requires k < |PackIndices(sizes, cap, bins, sol).value|
    ensures multiset(PackIndices(sizes, cap, bins, sol).value[k].members)[i] <= 1
  {
    var r := PackIndices(sizes, cap, bins, sol).value;
    var n := |sizes|;
    ExtractBins(sol, n, bins);
    assert Extracted(sol, n, bins, r[k]);
    MembersExact(sol, r[k].index, n);
    StrictlyIncreasingOnce(r[k].members, i);
  }

  lemma {:induction false} StrictlyIncreasingOnce(xs: seq<nat>, v: nat)
    requires forall k, l :: 0 <= k < l < |xs| ==> xs[k] < xs[l]
    ensures multiset(xs)[v] <= 1
  {
    if xs != [] {
      var init := xs[..|xs| - 1];
      StrictlyIncreasingOnce(init, v);
      assert xs == init + [xs[|xs| - 1]];
      if v == xs[|xs| - 1] {
        assert forall k :: 0 <= k < |init| ==> init[k] < v;
      }
    }
  }

  /** A strictly increasing list of indices below `n` has at most `n`
      entries. */
  lemma {:induction false} StrictlyIncreasingBelow(xs: seq<nat>, n: nat)
    requires forall k, l :: 0 <= k < l < |xs| ==> xs[k] < xs[l]
    requires Below(xs, n)
    ensures |xs| <= n
  {
    if xs != [] {
      var last := xs[|xs| - 1];
      StrictlyIncreasingBelow(xs[..|xs| - 1], last);
    }
  }

  /** A bin of the result holds each item at most once, so no more items
      than there are. */
  lemma PackBinAtMostAll(sizes: seq<nat>, cap: int, bins: nat, sol: Solution, k: nat)
    requires PackIndices(sizes, cap, bins, sol).Ok?
    requires k < |PackIndices(sizes, cap, bins, sol).value|
    ensures |PackIndices(sizes, cap, bins, sol).value[k].members| <= |sizes|
  {
    var r := PackIndices(sizes, cap, bins, sol).value;
    var n := |sizes|;
    ExtractBins(sol, n, bins);
    assert Extracted(sol, n, bins, r[k]);
    MembersExact(sol, r[k].index, n);
    StrictlyIncreasingBelow(r[k].members, n);
  }

  /** Sum of all sizes. */
  function Total(sizes: seq<nat>, n: nat): int
    requires n <= |sizes|
  {
    if n == 0 then 0 else Total(sizes, n - 1) + sizes[n - 1]
  }

  /** Sum of the loads of the first `m` bins. */
  function Loads(sizes: seq<nat>, sol: Solution, m: nat, n: nat): int
    requires n <= |sizes|
  {
    if m == 0 then 0 else Loads(sizes, sol, m - 1, n) + Load(sizes, sol, m - 1, n)
  }

  /** Counting by bins or by items gives the same total:
      the sum of the loads is the sum of every item's size times its row. */
  lemma {:induction false} LoadsByItems(sizes: seq<nat>, sol: Solution, m: nat, n: nat)
    requires n <= |sizes|
    ensures Loads(sizes, sol, m, n) == WeightedTotal(sizes, sol, m, n)
  {
    if n > 0 {
      LoadsByItems(sizes, sol, m, n - 1);
      LoadsSplit(sizes, sol, m, n);
    } else {
      LoadsZero(sizes, sol, m);
    }
  }

  /** Sum of every item's size times its row sum over the first `m` bins. */
  function WeightedTotal(sizes: seq<nat>, sol: Solution, m: nat, n: nat): int
    requires n <= |sizes|
  {
    if n == 0 then 0 else WeightedTotal(sizes, sol, m, n - 1) + RowSum(sol, n - 1, m) * sizes[n - 1]
  }

  lemma {:induction false} LoadsZero(sizes: seq<nat>, sol: Solution, m: nat)
    ensures Loads(sizes, sol, m, 0) == 0
  {
    if m > 0 {
      LoadsZero(sizes, sol, m - 1);
    }
  }

  lemma {:induction false} LoadsSplit(sizes: seq<nat>, sol: Solution, m: nat, n: nat)
    requires 0 < n <= |sizes|
    ensures Loads(sizes, sol, m, n) == Loads(sizes, sol, m, n - 1) + RowSum(sol, n - 1, m) * sizes[n - 1]
  {
    if m > 0 {
      LoadsSplit(sizes, sol, m - 1, n);
      assert RowSum(sol, n - 1, m) * sizes[n - 1] ==
        RowSum(sol, n - 1, m - 1) * sizes[n - 1] + sol.x(n - 1, m - 1) * sizes[n - 1];
    }
  }

  lemma {:induction false} WeightedIsTotal(sizes: seq<nat>, cap: int, bins: nat, sol: Solution, n: nat)
    requires n <= |sizes|
    requires forall i :: 0 <= i < |sizes| ==> RowSum(sol, i, bins) == 1
    ensures WeightedTotal(sizes, sol, bins, n) == Total(sizes, n)
  {
    if n > 0 {
      WeightedIsTotal(sizes, cap, bins, sol, n - 1);
    }
  }

  lemma {:induction false} LoadsBounded(sizes: seq<nat>, cap: int, bins: nat, sol: Solution, m: nat)
    requires m <= bins
    requires Satisfies(sizes, cap, bins, sol)
    ensures Loads(sizes, sol, m, |sizes|) <= UsedCount(sol, m) * cap
  {
    if m > 0 {
      LoadsBounded(sizes, cap, bins, sol, m - 1);
      assert Load(sizes, sol, m - 1, |sizes|) <= sol.y(m - 1) * cap;
      Distribute(UsedCount(sol, m - 1), sol.y(m - 1), cap);
    }
  }

  lemma Distribute(u: int, y: int, cap: int)
    ensures (u + y) * cap == u * cap + y * cap
  {
  }

  /** Number of open bins among the first `m`. */
  function UsedCount(sol: Solution, m: nat): int {
    if m == 0 then 0 else UsedCount(sol, m - 1) + sol.y(m - 1)
  }

  lemma {:induction false} UsedCountAtMost(sol: Solution, m: nat)
    requires forall j :: 0 <= j < m ==> ZeroOne(sol.y(j))
    ensures UsedCount(sol, m) <= m
  {
    if m > 0 {
      UsedCountAtMost(sol, m - 1);
    }
  }

  /** Under the constraints the items fit in the open bins: their total
      size is at most the capacity times the number of open bins. */
  lemma TotalFits(sizes: seq<nat>, cap: int, bins: nat, sol: Solution)
    requires Satisfies(sizes, cap, bins, sol)
    ensures Total(sizes, |sizes|) <= UsedCount(sol, bins) * cap
  {
    LoadsByItems(sizes, sol, bins, |sizes|);
    WeightedIsTotal(sizes, cap, bins, sol, |sizes|);
    LoadsBounded(sizes, cap, bins, sol, bins);
  }

  /** The case of wonk's own test: items of 35, 45, 55 and 65 characters do
      not fit in two bins of 99. */
  lemma Unpackable(sol: Solution)
    ensures !Satisfies([35, 45, 55, 65], 99, 2, sol)
  {
    assert Total([35, 45, 55, 65], 4) == 200;
    if Satisfies([35, 45, 55, 65], 99, 2, sol) {
      TotalFits([35, 45, 55, 65], 99, 2, sol);
      UsedCountAtMost(sol, 2);
    }
  }

  /** In two bins of 100 they fit only with both bins open and full. */
  lemma PackedFull(sol: Solution)
    requires Satisfies([35, 45, 55, 65], 100, 2, sol)
    ensures sol.y(0) == 1 && sol.y(1) == 1
    ensures Load([35, 45, 55, 65], sol, 0, 4) == 100 && Load([35, 45, 55, 65], sol, 1, 4) == 100
  {
    var sizes: seq<nat> := [35, 45, 55, 65];
    TotalFits(sizes, 100, 2, sol);
    assert Total(sizes, 4) == 200;
    assert ZeroOne(sol.y(0)) && ZeroOne(sol.y(1));
    LoadsByItems(sizes, sol, 2, 4);
    WeightedIsTotal(sizes, 100, 2, sol, 4);
    assert Loads(sizes, sol, 1, 4) == Load(sizes, sol, 0, 4);
    assert Loads(sizes, sol, 2, 4) == Load(sizes, sol, 0, 4) + Load(sizes, sol, 1, 4);
  }
}

=== FILE: output.dfy ===
/** `policy_set_pattern`, `write_policy_set` and `policies_are_identical`
    (wonk/policy.py:172-251): writing a policy set's documents into an
    output directory as `<base>_1.json` ... `<base>_N.json`, leaving files
    that already hold the same policy alone, and deleting the set's stale
    files. The directory is a map from file name to text; the caller's
    `loads` is `json.loads` (None for text that is not JSON) and `dumps` is
    `json.dumps`. */
module Output {
  import opened Exceptions
  import opened Strings
  import opened Json

  /** The output directory: file name to contents. */
  type Dir = map<string, string>

  /** `json.loads`: None when the text is not JSON. */
  type Loads = string -> Option<Json>

  /** The directory after the call, with the written names or the error
      that stopped it. Files written before an error stay written. */
  datatype Outcome = Outcome(dir: Dir, result: Result<seq<string>>)

  /** The most policies `write_policy_set` will clean up after. */
  const MAX_SET_FILES: nat := 10

  /** `policy_set_pattern(base).match(stem)`: the stem is the last path
      component of `base`, an underscore and one or more digits, where `$`
      also lets one final newline follow the digits. */
  predicate MatchesPattern(base: string, stem: string) {
    MatchesBody(AfterLast(base, '/'), WithoutFinalNewline(stem))
  }

  /** `<final>_` followed by one or more digits, with nothing after them. */
  predicate MatchesBody(final: string, body: string) {
    && |body| > |final| + 1
    && body[..|final|] == final
    && body[|final|] == '_'
    && AllDigits(body[|final| + 1..])
  }

  /** `$` matches before one final newline, not before two. */
  lemma NewlineAfterDigits()
    ensures MatchesPattern("foo", "foo_1\n")
    ensures !MatchesPattern("foo", "foo_1\n\n")
    ensures !MatchesPattern("foo", "foo_\n")
  {
    assert AfterLast("foo", '/') == "foo";
    OneNewlineDropped();
    TwoNewlinesNotDigits();
    BareNewlineTooShort();
  }

  lemma OneNewlineDropped()
    ensures WithoutFinalNewline("foo_1\n") == "foo_1"
    ensures MatchesBody("foo", "foo_1")
  {
    var once := "foo_1\n";
    assert once[|once| - 1] == '\n' && once[..|once| - 1] == "foo_1";
    assert "foo_1"[..3] == "foo" && "foo_1"[4..] == "1";
  }

  lemma TwoNewlinesNotDigits()
    ensures WithoutFinalNewline("foo_1\n\n") == "foo_1\n"
    ensures !MatchesBody("foo", "foo_1\n")
  {
    var twice := "foo_1\n\n";
    assert twice[|twice| - 1] == '\n' && twice[..|twice| - 1] == "foo_1\n";
    assert "foo_1\n"[4..][1] == '\n' && !IsDigit('\n');
  }

  lemma BareNewlineTooShort()
    ensures |WithoutFinalNewline("foo_\n")| == 4
  {
    var bare := "foo_\n";
    assert bare[|bare| - 1] == '\n' && |bare[..|bare| - 1]| == 4;
  }

  /** A file `write_policy_set` regards as part of the set: the glob
      `<base>_*` reaches it (it starts with `<base>_` and `*` does not cross
      a `/`), and the stem of its last path component matches the set's
      pattern. */
  predicate IsCandidate(base: string, name: string) {
    && (base + "_") <= name
    && '/' !in name[|base| + 1..]
    && MatchesPattern(base, Stem(AfterLast(name, '/')))
  }

  /** The set's existing files. */
  function Candidates(dir: Dir, base: string): set<string> {
    set n | n in dir && IsCandidate(base, n)
  }

  /** `f"{base_name}_{i}.json"`. */
  function FileName(base: string, i: nat): string {
    base + "_" + Decimal(i) + ".json"
  }

  /** The names of `count` files from number `i` on. */
  function Names(base: string, i: nat, count: nat): (r: seq<string>)
    ensures |r| == count
    ensures forall k :: 0 <= k < count ==> r[k] == FileName(base, i + k)
  {
    seq(count, k requires 0 <= k < count => FileName(base, i + k))
  }

  /** Different numbers give different file names. */
  lemma FileNameInjective(base: string, i: nat, j: nat)
    requires FileName(base, i) == FileName(base, j)
    ensures i == j
  {
    var a, b := FileName(base, i), FileName(base, j);
    var p := |base| + 1;
    assert |Decimal(i)| == |Decimal(j)|;
    assert Decimal(i) == a[p..p + |Decimal(i)|];
    assert Decimal(j) == b[p..p + |Decimal(j)|];
    DecimalInjective(i, j);
  }

  /** The files the set writes are candidates of the set, wherever the
      base puts them, so a later run that writes fewer of them deletes the
      rest. */
  lemma FileNameIsCandidate(base: string, i: nat)
    ensures IsCandidate(base, FileName(base, i))
  {
    var name := FileName(base, i);
    var rest := Decimal(i) + ".json";
    assert name == (base + "_") + rest;
    assert name[|base| + 1..] == rest;
    NotADigit('/', Decimal(i));
    assert '/' !in rest;
    StemOfFileName(base, i);
    MatchesOwnPattern(base, i);
  }

  /** The set's pattern matches the numbered stems of its last path
      component. */
  lemma MatchesOwnPattern(base: string, i: nat)
    ensures MatchesPattern(base, AfterLast(base, '/') + "_" + Decimal(i))
  {
    var final := AfterLast(base, '/');
    var digits := Decimal(i);
    var stem := final + "_" + digits;
    assert stem[|stem| - 1] == digits[|digits| - 1];
    assert IsDigit(digits[|digits| - 1]);
    assert WithoutFinalNewline(stem) == stem;
    assert stem[..|final|] == final && stem[|final|] == '_';
    assert stem[|final| + 1..] == digits;
    assert MatchesBody(final, stem);
  }

  /** A `.json` suffix is what the stem of a non-empty name drops. */
  lemma StemOfJson(stem: string)
    requires |stem| > 0
    ensures Stem(stem + ".json") == stem
  {
    var name := stem + ".json";
    assert name[|stem|] == '.';
    assert forall k :: |stem| < k < |name| ==> name[k] != '.';
    var i := LastIndexOf(name, '.');
    assert i == |stem|;
  }

  /** Concatenation regrouped. */
  lemma Regrouped(a: string, b: string, c: string, d: string)
    ensures a + (b + c + d) == a + b + c + d
    ensures a + (b + c) == a + b + c
  {
  }

  /** The stem of a written file's last path component is the base's last
      component, an underscore and the number, whatever dots the base
      holds. */
  lemma StemOfFileName(base: string, i: nat)
    ensures Stem(AfterLast(FileName(base, i), '/')) == AfterLast(base, '/') + "_" + Decimal(i)
  {
    var tail := "_" + Decimal(i) + ".json";
    assert FileName(base, i) == base + tail;
    NotADigit('/', Decimal(i));
    assert '/' !in tail;
    AfterLastAppend(base, tail, '/');
    var stem := AfterLast(base, '/') + "_" + Decimal(i);
    Regrouped(AfterLast(base, '/'), "_", Decimal(i), ".json");
    StemOfJson(stem);
  }

  /** A stem with a second underscore after `<final>_` never matches. */
  lemma SecondUnderscoreNoMatch(base: string, other: string, digits: string)
    requires |digits| > 0 && AllDigits(digits)
    ensures !MatchesPattern(base, AfterLast(base, '/') + "_" + other + "_" + digits)
  {
    var final := AfterLast(base, '/');
    var stem := final + "_" + other + "_" + digits;
    assert stem[|stem| - 1] == digits[|digits| - 1];
    assert IsDigit(digits[|digits| - 1]);
    assert WithoutFinalNewline(stem) == stem;
    var tail := stem[|final| + 1..];
    assert tail[|other|] == '_' && !IsDigit('_');
    assert !AllDigits(tail);
  }

  /** Another policy set whose name extends this one's after an underscore
      (`foo` and `foo_bar`, or `foo` and `foo_1`) is never mistaken for
      part of this set: after `<base>_` its stems hold a second underscore. */
  lemma OtherSetNotCandidate(base: string, other: string, i: nat)
    ensures !IsCandidate(base, FileName(base + "_" + other, i))
  {
    var b := base + "_" + other;
    var name := FileName(b, i);
    assert name[|base| + 1..] == other + "_" + Decimal(i) + ".json";
    if '/' !in other {
      Regrouped(base, "_", other, "");
      AfterLastAppend(base, "_" + other, '/');
      StemOfFileName(b, i);
      Regrouped(AfterLast(base, '/'), "_", other, "");
      SecondUnderscoreNoMatch(base, other, Decimal(i));
    } else {
      assert '/' in name[|base| + 1..];
    }
  }

  /** `policies_are_identical(old_policy, new_policy)`: equal apart from `Id`,
      under Python's `==`. A document on disk without an `Id` was edited by
      hand and is never identical. Deleting from something that is not an
      object is a TypeError. */
  function Identical(onDisk: Json, incoming: Json): (r: Result<bool>)
    ensures !onDisk.JObj? ==> r == Err(MalformedDocument)
    ensures onDisk.JObj? && ID !in onDisk.obj ==> r == Ok(false)
    ensures onDisk.JObj? && ID in onDisk.obj && incoming.JObj? ==>
      r == Ok(PyEq(JObj(onDisk.obj - {ID}), JObj(incoming.obj - {ID})))
  {
    if !onDisk.JObj? then Err(MalformedDocument)
    else if ID !in onDisk.obj then Ok(false)
    else if !incoming.JObj? then Err(MalformedDocument)
    else Ok(PyEq(JObj(onDisk.obj - {ID}), JObj(incoming.obj - {ID})))
  }

  /** Two documents that differ at most in their `Id` are identical, and
      identical documents agree apart from their `Id` under Python's `==`;
      without booleans that is plain equality of everything but the `Id`. */
  lemma IdenticalIffSameButId(m: map<string, Json>, n: map<string, Json>, a: Json)
    ensures m - {ID} == n - {ID} ==> Identical(JObj(m[ID := a]), JObj(n)) == Ok(true)
    ensures Identical(JObj(m[ID := a]), JObj(n)).Ok?
    ensures Identical(JObj(m[ID := a]), JObj(n)).value ==> (m - {ID}).Keys == (n - {ID}).Keys
    ensures BoolFree(JObj(m)) && BoolFree(JObj(n)) ==>
      Identical(JObj(m[ID := a]), JObj(n)) == Ok(m - {ID} == n - {ID})
  {
    assert m[ID := a] - {ID} == m - {ID};
    PyEqReflexive(JObj(m - {ID}));
    if BoolFree(JObj(m)) && BoolFree(JObj(n)) {
      PyEqBoolFree(JObj(m - {ID}), JObj(n - {ID}));
    }
  }

  /** A file holding `true` where the new document holds `1` is identical
      to it, as Python compares `True == 1`. */
  lemma TrueOnDiskIdentical()
    ensures Identical(JObj(map[ID := JStr("old"), "Flag" := JBool(true)]), JObj(map["Flag" := JNum(1)])) == Ok(true)
  {
    var onDisk := map[ID := JStr("old"), "Flag" := JBool(true)];
    var incoming := map["Flag" := JNum(1)];
    assert ID != "Flag";
    assert ID in onDisk;
    assert onDisk - {ID} == map["Flag" := JBool(true)];
    assert incoming - {ID} == incoming;
    assert PyEq(JObj(map["Flag" := JBool(true)]), JObj(incoming)) by {
      assert map["Flag" := JBool(true)].Keys == incoming.Keys == {"Flag"};
      assert PyEq(JBool(true), JNum(1));
    }
  }

  /** The text `write_policy_set` writes for a document. */
  function Packed(policy: Json, dumps: Dumps): Result<string> {
    FirstFitting(policy, MAX_MANAGED_POLICY_SIZE, true, dumps)
  }

  /** A document to write with its packed text, `None` when no layout fits
      (packing then raises `UnshrinkablePolicy`). Packing is pure and the
      text is only used when the file has to be written, so computing it
      ahead changes nothing. */
  datatype Job = Job(policy: Json, text: Option<string>)

  function JobFor(policy: Json, dumps: Dumps): (r: Job)
    ensures r.policy == policy
    ensures r.text.Some? <==> Packed(policy, dumps).Ok?
    ensures r.text.Some? ==> r.text.value == Packed(policy, dumps).value
  {
    var p := Packed(policy, dumps);
    Job(policy, if p.Ok? then Some(p.value) else None)
  }

  function Jobs(policies: seq<Json>, dumps: Dumps): (r: seq<Job>)
    ensures |r| == |policies|
    ensures forall k :: 0 <= k < |policies| ==> r[k] == JobFor(policies[k], dumps)
  {
    seq(|policies|, k requires 0 <= k < |policies| => JobFor(policies[k], dumps))
  }

  /** One iteration of the write loop: an existing file that decodes to a
      document identical to the policy is left alone; otherwise the file is
      (over)written with the policy's packed text. Only that file changes. */
  function WriteOne(dir: Dir, name: string, job: Job, loads: Loads): (r: Result<Dir>)
    ensures r.Ok? ==> r.value.Keys == dir.Keys + {name}
    ensures r.Ok? ==> forall n :: n in dir && n != name ==> r.value[n] == dir[n]
    ensures r.Err? ==> !r.error.TooManyPolicies?
  {
    var same :- if name !in dir then Ok(false)
      else match loads(dir[name])
        case None => Err(UndecodableFile(name))
        case Some(onDisk) => Identical(onDisk, job.policy);
    if same then Ok(dir)
    else
      match job.text
      case None => Err(UnshrinkablePolicy)
      case Some(text) => Ok(dir[name := text])
  }

  /** The three outcomes of one write: text that is not JSON is an error; a
      file identical to the policy apart from its `Id` keeps its text; a
      missing or different file gets the policy's packed text, or the
      packing error. */
  lemma WriteOneSpec(dir: Dir, name: string, job: Job, loads: Loads)
    ensures name in dir && loads(dir[name]).None? ==> WriteOne(dir, name, job, loads) == Err(UndecodableFile(name))
    ensures name in dir && loads(dir[name]).Some? && Identical(loads(dir[name]).value, job.policy) == Ok(true) ==>
      WriteOne(dir, name, job, loads) == Ok(dir)
    ensures (name !in dir || (loads(dir[name]).Some? && Identical(loads(dir[name]).value, job.policy) == Ok(false))) ==>
      var r := WriteOne(dir, name, job, loads);
      && (r.Ok? <==> job.text.Some?)
      && (r.Ok? ==> r.value == dir[name := job.text.value])
      && (r.Err? ==> r.error == UnshrinkablePolicy)
  {
  }

  /** What one write leaves in its own file depends only on that file. */
  lemma WriteOneLocal(d1: Dir, d2: Dir, name: string, job: Job, loads: Loads)
    requires (name in d1 <==> name in d2) && (name in d1 ==> d1[name] == d2[name])
    ensures WriteOne(d1, name, job, loads).Ok? <==> WriteOne(d2, name, job, loads).Ok?
    ensures WriteOne(d1, name, job, loads).Ok? ==>
      WriteOne(d1, name, job, loads).value[name] == WriteOne(d2, name, job, loads).value[name]
  {
  }

  /** The write loop from file number `i` on, stopping at the first error. */
  function WriteFrom(dir: Dir, base: string, jobs: seq<Job>, i: nat, loads: Loads): (r: Outcome)
    ensures r.result.Err? ==> !r.result.error.TooManyPolicies?
    decreases |jobs|
  {
    if jobs == [] then Outcome(dir, Ok([]))
    else
      var name := FileName(base, i);
      match WriteOne(dir, name, jobs[0], loads)
      case Err(e) => Outcome(dir, Err(e))
      case Ok(d) =>
        var rest := WriteFrom(d, base, jobs[1..], i + 1, loads);
        Outcome(rest.dir, if rest.result.Ok? then Ok([name] + rest.result.value) else rest.result)
  }

  lemma NamesCons(base: string, i: nat, count: nat)
    requires count > 0
    ensures Names(base, i, count) == [FileName(base, i)] + Names(base, i + 1, count - 1)
  {
    var a, b := Names(base, i, count), [FileName(base, i)] + Names(base, i + 1, count - 1);
    forall k | 0 <= k < count ensures a[k] == b[k] {
      if k > 0 {
        assert b[k] == Names(base, i + 1, count - 1)[k - 1];
        assert i + 1 + (k - 1) == i + k;
      }
    }
  }

  /** A file number is not among the later ones. */
  lemma NameNotLater(base: string, i: nat, count: nat)
    ensures FileName(base, i) !in Names(base, i + 1, count)
  {
    var later := Names(base, i + 1, count);
    forall k | 0 <= k < count ensures later[k] != FileName(base, i) {
      if later[k] == FileName(base, i) {
        FileNameInjective(base, i + 1 + k, i);
      }
    }
  }

  /** The write loop touches only the set's own file names, even when it
      stops at an error. */
  lemma WriteFromFrame(dir: Dir, base: string, jobs: seq<Job>, i: nat, loads: Loads)
    ensures var w := WriteFrom(dir, base, jobs, i, loads);
      forall n :: n !in Names(base, i, |jobs|) ==> (n in w.dir <==> n in dir) && (n in dir ==> w.dir[n] == dir[n])
  {
    var w := WriteFrom(dir, base, jobs, i, loads);
    forall n | n !in Names(base, i, |jobs|)
      ensures (n in w.dir <==> n in dir) && (n in dir ==> w.dir[n] == dir[n])
    {
      WriteFromFrameAt(dir, base, jobs, i, loads, n);
    }
  }

  lemma {:induction false} WriteFromFrameAt(dir: Dir, base: string, jobs: seq<Job>, i: nat, loads: Loads, n: string)
    requires n !in Names(base, i, |jobs|)
    ensures var w := WriteFrom(dir, base, jobs, i, loads);
      (n in w.dir <==> n in dir) && (n in dir ==> w.dir[n] == dir[n])
    decreases |jobs|
  {
    if jobs != [] {
      var one := WriteOne(dir, FileName(base, i), jobs[0], loads);
      NamesCons(base, i, |jobs|);
      if one.Ok? {
        WriteFromFrameAt(one.value, base, jobs[1..], i + 1, loads, n);
      }
    }
  }

  /** A finished write loop reports the names it wrote, in order. */
  lemma {:induction false} WriteFromNames(dir: Dir, base: string, jobs: seq<Job>, i: nat, loads: Loads)
    ensures var w := WriteFrom(dir, base, jobs, i, loads);
      w.result.Ok? ==> w.result.value == Names(base, i, |jobs|)
    decreases |jobs|
  {
    if jobs != [] {
      var one := WriteOne(dir, FileName(base, i), jobs[0], loads);
      if one.Ok? {
        WriteFromNames(one.value, base, jobs[1..], i + 1, loads);
        NamesCons(base, i, |jobs|);
      }
    }
  }

  /** File `name` of `after` holds what writing `policy` alone onto
      `before` would have left in it. */
  predicate WrittenAlone(before: Dir, after: Dir, name: string, job: Job, loads: Loads) {
    && WriteOne(before, name, job, loads).Ok?
    && name in after
    && after[name] == WriteOne(before, name, job, loads).value[name]
  }

  /** Earlier writes to other files do not change what a write leaves. */
  lemma WrittenAloneLocal(d1: Dir, d2: Dir, after: Dir, name: string, job: Job, loads: Loads)
    requires (name in d1 <==> name in d2) && (name in d1 ==> d1[name] == d2[name])
    requires WrittenAlone(d1, after, name, job, loads)
    ensures WrittenAlone(d2, after, name, job, loads)
  {
    WriteOneLocal(d1, d2, name, job, loads);
  }

  /** A file that keeps its text keeps what it was written with. */
  lemma WrittenAloneKept(before: Dir, after: Dir, kept: Dir, name: string, job: Job, loads: Loads)
    requires WrittenAlone(before, after, name, job, loads)
    requires name in kept && kept[name] == after[name]
    ensures WrittenAlone(before, kept, name, job, loads)
  {
  }

  /** After a finished write loop each file holds what writing it alone
      onto the original directory would have left. */
  lemma WriteFromFiles(dir: Dir, base: string, jobs: seq<Job>, i: nat, loads: Loads)
    ensures var w := WriteFrom(dir, base, jobs, i, loads);
      w.result.Ok? ==> forall k :: 0 <= k < |jobs| ==> WrittenAlone(dir, w.dir, FileName(base, i + k), jobs[k], loads)
  {
    var w := WriteFrom(dir, base, jobs, i, loads);
    if w.result.Ok? {
      forall k | 0 <= k < |jobs|
        ensures WrittenAlone(dir, w.dir, FileName(base, i + k), jobs[k], loads)
      {
        WriteFromFileAt(dir, base, jobs, i, loads, k);
      }
    }
  }

  lemma {:induction false} WriteFromFileAt(dir: Dir, base: string, jobs: seq<Job>, i: nat, loads: Loads, k: nat)
    requires WriteFrom(dir, base, jobs, i, loads).result.Ok? && k < |jobs|
    ensures WrittenAlone(dir, WriteFrom(dir, base, jobs, i, loads).dir, FileName(base, i + k), jobs[k], loads)
    decreases |jobs|
  {
    if k == 0 {
      FirstFile(dir, base, jobs, i, loads);
    } else {
      WriteFromStep(dir, base, jobs, i, loads);
      var d := WriteOne(dir, FileName(base, i), jobs[0], loads).value;
      var after := WriteFrom(d, base, jobs[1..], i + 1, loads).dir;
      WriteFromFileAt(d, base, jobs[1..], i + 1, loads, k - 1);
      LaterFile(dir, d, after, base, i, k, jobs[1..][k - 1], loads);
      WrittenAloneSame(dir, after, WriteFrom(dir, base, jobs, i, loads).dir, FileName(base, i + k), jobs[1..][k - 1], jobs[k], loads);
    }
  }

  lemma WrittenAloneSame(before: Dir, after1: Dir, after2: Dir, name: string, job1: Job, job2: Job, loads: Loads)
    requires after1 == after2 && job1 == job2
    requires WrittenAlone(before, after1, name, job1, loads)
    ensures WrittenAlone(before, after2, name, job2, loads)
  {
  }

  /** One step of a successful write loop: the first write succeeds, adds
      its file and changes no other, and the rest of the loop succeeds and
      leaves the final directory. */
  lemma WriteFromStep(dir: Dir, base: string, jobs: seq<Job>, i: nat, loads: Loads)
    requires WriteFrom(dir, base, jobs, i, loads).result.Ok? && jobs != []
    ensures var one := WriteOne(dir, FileName(base, i), jobs[0], loads);
      && one.Ok?
      && one.value.Keys == dir.Keys + {FileName(base, i)}
      && (forall n :: n in dir && n != FileName(base, i) ==> one.value[n] == dir[n])
      && WriteFrom(one.value, base, jobs[1..], i + 1, loads).result.Ok?
      && WriteFrom(dir, base, jobs, i, loads).dir == WriteFrom(one.value, base, jobs[1..], i + 1, loads).dir
  {
  }

  /** The first file of the loop is not touched by the later writes. */
  lemma FirstFile(dir: Dir, base: string, jobs: seq<Job>, i: nat, loads: Loads)
    requires WriteFrom(dir, base, jobs, i, loads).result.Ok? && jobs != []
    ensures WrittenAlone(dir, WriteFrom(dir, base, jobs, i, loads).dir, FileName(base, i), jobs[0], loads)
  {
    var name := FileName(base, i);
    var d := WriteOne(dir, name, jobs[0], loads).value;
    var tail := jobs[1..];
    assert WriteFrom(dir, base, jobs, i, loads).dir == WriteFrom(d, base, tail, i + 1, loads).dir;
    NameNotLater(base, i, |tail|);
    WriteFromFrameAt(d, base, tail, i + 1, loads, name);
  }

  /** A later file, written alone onto the directory after the first write,
      is as if written alone onto the original directory. */
  lemma LaterFile(dir: Dir, d: Dir, after: Dir, base: string, i: nat, k: nat, job: Job, loads: Loads)
    requires k >= 1
    requires d.Keys == dir.Keys + {FileName(base, i)}
    requires forall n :: n in dir && n != FileName(base, i) ==> d[n] == dir[n]
    requires WrittenAlone(d, after, FileName(base, (i + 1) + (k - 1)), job, loads)
    ensures WrittenAlone(dir, after, FileName(base, i + k), job, loads)
  {
    var nk := FileName(base, i + k);
    assert (i + 1) + (k - 1) == i + k;
    if nk == FileName(base, i) {
      FileNameInjective(base, i + k, i);
    }
    WrittenAloneLocal(d, dir, after, nk, job, loads);
  }

  /** `write_policy_set(output_dir, base_name, policies)`. */
  function WritePolicySet(dir: Dir, base: string, policies: seq<Json>, loads: Loads, dumps: Dumps): (r: Outcome)
    ensures |Candidates(dir, base)| > MAX_SET_FILES <==> r.result == Err(TooManyPolicies(base, |Candidates(dir, base)|))
    ensures |Candidates(dir, base)| > MAX_SET_FILES ==> r.dir == dir
  {
    var cleanup := Candidates(dir, base);
    if |cleanup| > MAX_SET_FILES then Outcome(dir, Err(TooManyPolicies(base, |cleanup|)))
    else
      var w := WriteFrom(dir, base, Jobs(policies, dumps), 1, loads);
      if w.result.Err? then w
      else Outcome(w.dir - (cleanup - set n | n in Names(base, 1, |policies|)), w.result)
  }

  /** A successful `write_policy_set` found at most ten files of the set
      and reports `<base>_1.json` ... `<base>_N.json`, in order. */
  lemma WritePolicySetNames(dir: Dir, base: string, policies: seq<Json>, loads: Loads, dumps: Dumps)
    requires WritePolicySet(dir, base, policies, loads, dumps).result.Ok?
    ensures |Candidates(dir, base)| <= MAX_SET_FILES
    ensures WritePolicySet(dir, base, policies, loads, dumps).result.value == Names(base, 1, |policies|)
  {
    WriteFromNames(dir, base, Jobs(policies, dumps), 1, loads);
  }

  /** After a successful `write_policy_set` each file `<base>_<k>.json`
      holds the policy's packed text, unless it already held a policy
      identical apart from its `Id`, in which case it is left alone. */
  lemma WritePolicySetFiles(dir: Dir, base: string, policies: seq<Json>, loads: Loads, dumps: Dumps)
    requires WritePolicySet(dir, base, policies, loads, dumps).result.Ok?
    ensures forall k :: 0 <= k < |policies| ==>
      WrittenAlone(dir, WritePolicySet(dir, base, policies, loads, dumps).dir, FileName(base, 1 + k), JobFor(policies[k], dumps), loads)
  {
    forall k | 0 <= k < |policies|
      ensures WrittenAlone(dir, WritePolicySet(dir, base, policies, loads, dumps).dir, FileName(base, 1 + k), JobFor(policies[k], dumps), loads)
    {
      WritePolicySetFile(dir, base, policies, loads, dumps, k);
    }
  }

  lemma WritePolicySetFile(dir: Dir, base: string, policies: seq<Json>, loads: Loads, dumps: Dumps, k: nat)
    requires WritePolicySet(dir, base, policies, loads, dumps).result.Ok? && k < |policies|
    ensures WrittenAlone(dir, WritePolicySet(dir, base, policies, loads, dumps).dir, FileName(base, 1 + k), JobFor(policies[k], dumps), loads)
  {
    var jobs := Jobs(policies, dumps);
    var w := WriteFrom(dir, base, jobs, 1, loads);
    var names := Names(base, 1, |policies|);
    WritePolicySetDir(dir, base, policies, loads, dumps);
    WriteFromFiles(dir, base, jobs, 1, loads);
    var name := FileName(base, 1 + k);
    assert names[k] == name;
    assert WrittenAlone(dir, w.dir, name, jobs[k], loads);
    KeptByCleanup(w.dir, Candidates(dir, base), names, name);
    WrittenAloneKept(dir, w.dir, WritePolicySet(dir, base, policies, loads, dumps).dir, name, jobs[k], loads);
  }

  /** A successful `write_policy_set` is the write loop followed by the
      cleanup. */
  lemma WritePolicySetDir(dir: Dir, base: string, policies: seq<Json>, loads: Loads, dumps: Dumps)
    requires WritePolicySet(dir, base, policies, loads, dumps).result.Ok?
    ensures var w := WriteFrom(dir, base, Jobs(policies, dumps), 1, loads);
      && w.result.Ok?
      && WritePolicySet(dir, base, policies, loads, dumps).dir == w.dir - (Candidates(dir, base) - set n | n in Names(base, 1, |policies|))
  {
  }

  /** The cleanup never removes a file it just wrote. */
  lemma KeptByCleanup(d: Dir, cleanup: set<string>, names: seq<string>, name: string)
    requires name in d && name in names
    ensures var kept := d - (cleanup - set n | n in names);
      name in kept && kept[name] == d[name]
  {
  }

  /** A successful `write_policy_set` deletes every other file of the set,
      leaves every file outside the set that it does not write untouched,
      and creates no file besides the ones it writes. */
  lemma WritePolicySetOthers(dir: Dir, base: string, policies: seq<Json>, loads: Loads, dumps: Dumps)
    requires WritePolicySet(dir, base, policies, loads, dumps).result.Ok?
    ensures var r := WritePolicySet(dir, base, policies, loads, dumps);
      && (forall n :: n in dir && IsCandidate(base, n) && n !in Names(base, 1, |policies|) ==> n !in r.dir)
      && (forall n :: n in dir && !IsCandidate(base, n) && n !in Names(base, 1, |policies|) ==> n in r.dir && r.dir[n] == dir[n])
      && (forall n :: n in r.dir ==> n in dir || n in Names(base, 1, |policies|))
  {
    var r := WritePolicySet(dir, base, policies, loads, dumps);
    var names := Names(base, 1, |policies|);
    forall n | n in dir && IsCandidate(base, n) && n !in names
      ensures n !in r.dir
    {
      OtherFile(dir, base, policies, loads, dumps, n);
    }
    forall n | n in dir && !IsCandidate(base, n) && n !in names
      ensures n in r.dir && r.dir[n] == dir[n]
    {
      OtherFile(dir, base, policies, loads, dumps, n);
    }
    forall n | n in r.dir
      ensures n in dir || n in names
    {
      if n !in names {
        OtherFile(dir, base, policies, loads, dumps, n);
      }
    }
  }

  /** What a successful `write_policy_set` leaves in a file it does not
      write. */
  lemma OtherFile(dir: Dir, base: string, policies: seq<Json>, loads: Loads, dumps: Dumps, n: string)
    requires WritePolicySet(dir, base, policies, loads, dumps).result.Ok?
    requires n !in Names(base, 1, |policies|)
    ensures var r := WritePolicySet(dir, base, policies, loads, dumps);
      && (n in r.dir ==> n in dir)
      && (n in dir && IsCandidate(base, n) ==> n !in r.dir)
      && (n in dir && !IsCandidate(base, n) ==> n in r.dir && r.dir[n] == dir[n])
  {
    var jobs := Jobs(policies, dumps);
    var w := WriteFrom(dir, base, jobs, 1, loads);
    WritePolicySetDir(dir, base, policies, loads, dumps);
    WriteFromFrameAt(dir, base, jobs, 1, loads, n);
    assert n in Candidates(dir, base) <==> n in dir && IsCandidate(base, n);
  }

  /** A file already identical to its policy is left as it was. */
  lemma IdenticalKept(dir: Dir, after: Dir, name: string, job: Job, loads: Loads)
    requires WrittenAlone(dir, after, name, job, loads)
    requires name in dir && loads(dir[name]).Some?
    requires Identical(loads(dir[name]).value, job.policy) == Ok(true)
    ensures name in after && after[name] == dir[name]
  {
    WriteOneSpec(dir, name, job, loads);
  }

  /** An existing file that decodes to a policy identical to the one being
      written, apart from its `Id`, keeps its text. */
  lemma IdenticalFileKept(dir: Dir, base: string, policies: seq<Json>, loads: Loads, dumps: Dumps, k: nat)
    requires WritePolicySet(dir, base, policies, loads, dumps).result.Ok?
    requires k < |policies|
    requires FileName(base, 1 + k) in dir
    requires loads(dir[FileName(base, 1 + k)]).Some?
    requires Identical(loads(dir[FileName(base, 1 + k)]).value, policies[k]) == Ok(true)
    ensures var after := WritePolicySet(dir, base, policies, loads, dumps).dir;
      FileName(base, 1 + k) in after && after[FileName(base, 1 + k)] == dir[FileName(base, 1 + k)]
  {
    var name, job := FileName(base, 1 + k), JobFor(policies[k], dumps);
    var after := WritePolicySet(dir, base, policies, loads, dumps).dir;
    WritePolicySetFiles(dir, base, policies, loads, dumps);
    assert job.policy == policies[k];
    IdenticalKept(dir, after, name, job, loads);
  }
}

=== FILE: policy_doc.dfy ===
/** The `Policy` record of wonk/models.py:199-282: a list of statements kept
    in sorting-key order and a version, read from a policy document, with
    its content-derived `Id`, its AWS-ready form, its rendering and its
    equality. */
module PolicyDoc {
  import opened Exceptions
  import opened Json
  import opened Statements
  import opened Sorting

  datatype Policy = Policy(statements: seq<Statement>, version: Json)

  /** `Policy.DEFAULT_ID`: 32 asterisks, the placeholder `Id` of the string
      that is hashed, and the length the digest is cut to. */
  const DEFAULT_ID: string := seq(32, _ => '*')

  /** `Policy(statements, version)`: `__post_init__` sorts the statements by
      their sorting key. Computing a key reads every property of a
      statement, so the first statement that is not well formed raises its
      error (Python computes every key before comparing any). */
  function NewPolicy(datas: seq<Data>, version: Json, dumps: Dumps): (r: Result<Policy>)
    ensures r.Ok? <==> forall i :: 0 <= i < |datas| ==> Valid(datas[i])
    ensures r.Err? ==> r == Err(ParseAll(datas).error)
    ensures r.Ok? ==> r.value.version == version
    ensures r.Ok? ==> AllValid(r.value.statements)
    ensures r.Ok? ==> multiset(r.value.statements) == multiset(seq(|datas|, i requires 0 <= i < |datas| => Statement(datas[i])))
    ensures r.Ok? ==> forall i, j :: 0 <= i < j < |r.value.statements| ==>
      !KeyLess(SortingKey(r.value.statements[j], dumps), SortingKey(r.value.statements[i], dumps))
  {
    var ss :- ParseAll(datas);
    assert ss == seq(|datas|, i requires 0 <= i < |datas| => Statement(datas[i]));
    Ok(Policy(SortStatements(ss, dumps), version))
  }

  /** The statements of a document's `Statement` entry: a list of objects,
      or a single object that stands for a one-element list (some of AWS's
      own policies are written that way). Python iterates over the entry,
      so an empty string is an empty list and anything else that is not a
      list of objects is malformed. */
  function StatementList(entry: Json): (r: Result<seq<Data>>)
    ensures entry.JObj? ==> r == Ok([entry.obj])
    ensures entry.JArr? ==> (r.Ok? <==> forall i :: 0 <= i < |entry.arr| ==> entry.arr[i].JObj?)
    ensures entry.JArr? && r.Ok? ==> |r.value| == |entry.arr| && forall i :: 0 <= i < |r.value| ==> entry.arr[i] == JObj(r.value[i])
    ensures entry.JNum? || entry.JBool? || entry.JNull? ==> r == Err(MalformedDocument)
  {
    match entry
    case JObj(m) => Ok([m])
    case JArr(a) =>
      if forall i :: 0 <= i < |a| ==> a[i].JObj? then Ok(seq(|a|, i requires 0 <= i < |a| => a[i].obj))
      else Err(MalformedDocument)
    case JStr(s) => if s == [] then Ok([]) else Err(MalformedDocument)
    case _ => Err(MalformedDocument)
  }

  /** `Policy.from_dict`: the statements (none when the entry is missing)
      and the version (the policy language default when missing). */
  function FromDict(data: Json, dumps: Dumps): (r: Result<Policy>)
    ensures !data.JObj? ==> r == Err(MalformedDocument)
    ensures r.Ok? ==> r.value.version == if VERSION in data.obj then data.obj[VERSION] else JStr(POLICY_VERSION)
  {
    if !data.JObj? then Err(MalformedDocument)
    else
      var m := data.obj;
      var datas :- StatementList(if STATEMENT in m then m[STATEMENT] else JArr([]));
      NewPolicy(datas, if VERSION in m then m[VERSION] else JStr(POLICY_VERSION), dumps)
  }

  /** A document without a `Statement` entry is a policy with no statements. */
  lemma FromDictMissingStatement(m: map<string, Json>, dumps: Dumps)
    requires STATEMENT !in m
    ensures FromDict(JObj(m), dumps).Ok?
    ensures FromDict(JObj(m), dumps).value.statements == []
  {
    assert StatementList(JArr([])) == Ok([]);
  }

  /** A `Statement` entry that is a single object reads exactly as a list
      holding that object. */
  lemma FromDictSingleStatement(m: map<string, Json>, statement: map<string, Json>, dumps: Dumps)
    ensures FromDict(JObj(m[STATEMENT := JObj(statement)]), dumps) ==
      FromDict(JObj(m[STATEMENT := JArr([JObj(statement)])]), dumps)
  {
    var r := StatementList(JArr([JObj(statement)]));
    assert r.Ok? && |r.value| == 1 && JObj(r.value[0]) == JObj(statement);
    assert r.value == [statement];
  }

  /** A document whose statements are all well formed reads as the policy
      holding those statements in sorting-key order. */
  lemma FromDictStatements(m: map<string, Json>, datas: seq<Data>, dumps: Dumps)
    requires STATEMENT in m && m[STATEMENT] == JArr(seq(|datas|, i requires 0 <= i < |datas| => JObj(datas[i])))
    requires forall i :: 0 <= i < |datas| ==> Valid(datas[i])
    ensures FromDict(JObj(m), dumps).Ok?
    ensures multiset(FromDict(JObj(m), dumps).value.statements) ==
      multiset(seq(|datas|, i requires 0 <= i < |datas| => Statement(datas[i])))
  {
    var r := StatementList(m[STATEMENT]);
    assert forall i :: 0 <= i < |datas| ==> m[STATEMENT].arr[i] == JObj(datas[i]);
    assert r.Ok?;
    assert forall i :: 0 <= i < |datas| ==> JObj(r.value[i]) == JObj(datas[i]);
    assert r.value == datas;
  }

  /** The statements as their AWS-ready JSON objects, in order. */
  function StatementsJson(ss: seq<Statement>): (r: Json)
    requires AllValid(ss)
    ensures r.JArr? && |r.arr| == |ss|
    ensures forall i :: 0 <= i < |ss| ==> r.arr[i] == JObj(AsJson(ss[i]))
  {
    JArr(seq(|ss|, i requires 0 <= i < |ss| => JObj(AsJson(ss[i]))))
  }

  /** A policy document with the given `Id`. */
  function Document(p: Policy, id: string): (r: Json)
    requires AllValid(p.statements)
    ensures r.JObj? && r.obj.Keys == {VERSION, ID, STATEMENT}
    ensures r.obj[VERSION] == p.version && r.obj[ID] == JStr(id) && r.obj[STATEMENT] == StatementsJson(p.statements)
  {
    JObj(map[VERSION := p.version, ID := JStr(id), STATEMENT := StatementsJson(p.statements)])
  }

  /** `str(policy)`: the compact, key-sorted form of the document with the
      placeholder `Id`. */
  function Str(p: Policy, dumps: Dumps): string
    requires AllValid(p.statements)
  {
    dumps(Document(p, DEFAULT_ID), TINIEST)
  }

  /** `Policy.id`: the first 32 characters of the hex digest of `str(policy)`;
      `hexdigest` is the caller's SHA-256. */
  function Id(p: Policy, dumps: Dumps, hexdigest: string -> string): (r: string)
    requires AllValid(p.statements)
    ensures |r| <= |DEFAULT_ID|
    ensures r <= hexdigest(Str(p, dumps))
    ensures |hexdigest(Str(p, dumps))| >= |DEFAULT_ID| ==> |r| == |DEFAULT_ID|
  {
    var digest := hexdigest(Str(p, dumps));
    if |digest| <= |DEFAULT_ID| then digest else digest[..|DEFAULT_ID|]
  }

  /** `Policy.as_json`. */
  function AsJsonPolicy(p: Policy, dumps: Dumps, hexdigest: string -> string): Json
    requires AllValid(p.statements)
  {
    Document(p, Id(p, dumps, hexdigest))
  }

  /** `Policy.render`: the first layout of the AWS-ready form, keys in their
      own order, that fits in a managed policy. */
  function Render(p: Policy, dumps: Dumps, hexdigest: string -> string): (r: Result<string>)
    requires AllValid(p.statements)
    ensures r.Ok? ==> |r.value| <= MAX_MANAGED_POLICY_SIZE
    ensures r.Ok? <==> exists k :: 0 <= k < |JSON_ARGS| && |Encoded(AsJsonPolicy(p, dumps, hexdigest), k, false, dumps)| <= MAX_MANAGED_POLICY_SIZE
    ensures r.Err? ==> r.error == UnshrinkablePolicy
  {
    FirstFitting(AsJsonPolicy(p, dumps, hexdigest), MAX_MANAGED_POLICY_SIZE, false, dumps)
  }

  /** `Policy.__eq__`: equal AWS-ready forms. */
  predicate Equal(p: Policy, q: Policy, dumps: Dumps, hexdigest: string -> string)
    requires AllValid(p.statements) && AllValid(q.statements)
  {
    AsJsonPolicy(p, dumps, hexdigest) == AsJsonPolicy(q, dumps, hexdigest)
  }

  /** The `Id` is a function of the content, so two policies are equal
      exactly when they have the same version and the same AWS-ready
      statements in the same order. */
  lemma EqualIffSameContent(p: Policy, q: Policy, dumps: Dumps, hexdigest: string -> string)
    requires AllValid(p.statements) && AllValid(q.statements)
    ensures Equal(p, q, dumps, hexdigest) <==>
      p.version == q.version && StatementsJson(p.statements) == StatementsJson(q.statements)
  {
    if p.version == q.version && StatementsJson(p.statements) == StatementsJson(q.statements) {
      assert Document(p, DEFAULT_ID) == Document(q, DEFAULT_ID);
    }
    if Equal(p, q, dumps, hexdigest) {
      var dp, dq := AsJsonPolicy(p, dumps, hexdigest), AsJsonPolicy(q, dumps, hexdigest);
      assert dp.obj[VERSION] == dq.obj[VERSION];
      assert dp.obj[STATEMENT] == dq.obj[STATEMENT];
    }
  }
}

=== FILE: sorting.dfy ===
/** `Statement.sorting_key` (wonk/models.py:135-174) and the sort that
    `Policy.__post_init__` and policy.py's `render` apply with it. */
module Sorting {
  import opened Strings
  import opened Json
  import opened Canon
  import opened Statements

  /** The eight-field tuple, compared left to right as Python compares
      tuples; `False < True` for the booleans. */
  datatype SortKey = SortKey(
    notAction: bool,
    notResource: bool,
    specificResource: bool,
    notBareAllow: bool,
    restSize: nat,
    restJson: string,
    actionCount: nat,
    actions: seq<string>)

  /** Python's `<` on two lists of strings. */
  predicate ListLess(xs: seq<string>, ys: seq<string>) {
    if |xs| == 0 then |ys| > 0
    else |ys| > 0 && (Less(xs[0], ys[0]) || (xs[0] == ys[0] && ListLess(xs[1..], ys[1..])))
  }

  lemma {:induction false} ListLessIrreflexive(xs: seq<string>)
    ensures !ListLess(xs, xs)
  {
    if |xs| > 0 {
      LessIrreflexive(xs[0]);
      ListLessIrreflexive(xs[1..]);
    }
  }

  lemma {:induction false} ListLessTransitive(xs: seq<string>, ys: seq<string>, zs: seq<string>)
    requires ListLess(xs, ys) && ListLess(ys, zs)
    ensures ListLess(xs, zs)
  {
    if |xs| > 0 {
      if Less(xs[0], ys[0]) && Less(ys[0], zs[0]) {
        LessTransitive(xs[0], ys[0], zs[0]);
      } else if xs[0] == ys[0] && ys[0] == zs[0] {
        ListLessTransitive(xs[1..], ys[1..], zs[1..]);
      }
    }
  }

  lemma {:induction false} ListLessTotal(xs: seq<string>, ys: seq<string>)
    ensures xs == ys || ListLess(xs, ys) || ListLess(ys, xs)
  {
    if |xs| > 0 && |ys| > 0 {
      LessTotal(xs[0], ys[0]);
      ListLessTotal(xs[1..], ys[1..]);
      if xs[0] == ys[0] && xs[1..] == ys[1..] {
        assert xs == [xs[0]] + xs[1..];
        assert ys == [ys[0]] + ys[1..];
      }
    }
  }

  predicate BoolLess(a: bool, b: bool) {
    !a && b
  }

  /** Python's `<` on two sorting keys. */
  predicate KeyLess(a: SortKey, b: SortKey) {
    if a.notAction != b.notAction then BoolLess(a.notAction, b.notAction)
    else if a.notResource != b.notResource then BoolLess(a.notResource, b.notResource)
    else if a.specificResource != b.specificResource then BoolLess(a.specificResource, b.specificResource)
    else if a.notBareAllow != b.notBareAllow then BoolLess(a.notBareAllow, b.notBareAllow)
    else if a.restSize != b.restSize then a.restSize < b.restSize
    else if a.restJson != b.restJson then Less(a.restJson, b.restJson)
    else if a.actionCount != b.actionCount then a.actionCount < b.actionCount
    else ListLess(a.actions, b.actions)
  }

  lemma KeyLessIrreflexive(a: SortKey)
    ensures !KeyLess(a, a)
  {
    ListLessIrreflexive(a.actions);
  }

  lemma KeyLessTransitive(a: SortKey, b: SortKey, c: SortKey)
    requires KeyLess(a, b) && KeyLess(b, c)
    ensures KeyLess(a, c)
  {
    if a.notAction != b.notAction || b.notAction != c.notAction {
    } else if a.notResource != b.notResource || b.notResource != c.notResource {
    } else if a.specificResource != b.specificResource || b.specificResource != c.specificResource {
    } else if a.notBareAllow != b.notBareAllow || b.notBareAllow != c.notBareAllow {
    } else if a.restSize != b.restSize || b.restSize != c.restSize {
    } else if a.restJson != b.restJson || b.restJson != c.restJson {
      if a.restJson != b.restJson && b.restJson != c.restJson {
        LessTransitive(a.restJson, b.restJson, c.restJson);
        LessIrreflexive(a.restJson);
      }
    } else if a.actionCount != b.actionCount || b.actionCount != c.actionCount {
    } else {
      ListLessTransitive(a.actions, b.actions, c.actions);
    }
  }

  lemma KeyLessTotal(a: SortKey, b: SortKey)
    ensures a == b || KeyLess(a, b) || KeyLess(b, a)
  {
    LessTotal(a.restJson, b.restJson);
    ListLessTotal(a.actions, b.actions);
  }

  /** `Statement.sorting_key()`. The sixth field is the compact,
      key-sorted JSON text of the rest, produced by `dumps`. */
  function SortingKey(s: Statement, dumps: Dumps): SortKey
    requires Valid(s.data)
  {
    var rest := Rest(s);
    SortKey(
      ActionKey(s) != ACTION,
      ResourceKey(s) != RESOURCE,
      ResourceValue(s) != Str("*"),
      rest != map[EFFECT := JStr("Allow")],
      |rest|,
      dumps(JObj(rest), TINIEST),
      |ActionValue(s)|,
      SortedSet(ActionValue(s)))
  }

  /** The order the sorting key promises (models.py:140-146): Action before
      NotAction; then Resource before NotResource; then the universal
      resource before specific ones; then a rest of exactly
      `{"Effect": "Allow"}` first; then a shorter rest first. */
  lemma SortingKeyOrder(a: Statement, b: Statement, dumps: Dumps)
    requires Valid(a.data) && Valid(b.data)
    ensures (ActionKey(a) == ACTION && ActionKey(b) == NOT_ACTION) ==>
      KeyLess(SortingKey(a, dumps), SortingKey(b, dumps))
    ensures (ActionKey(a) == ActionKey(b) && ResourceKey(a) == RESOURCE && ResourceKey(b) == NOT_RESOURCE) ==>
      KeyLess(SortingKey(a, dumps), SortingKey(b, dumps))
    ensures (ActionKey(a) == ActionKey(b) && ResourceKey(a) == ResourceKey(b) &&
      ResourceValue(a) == Str("*") && ResourceValue(b) != Str("*")) ==>
      KeyLess(SortingKey(a, dumps), SortingKey(b, dumps))
    ensures (ActionKey(a) == ActionKey(b) && ResourceKey(a) == ResourceKey(b) &&
      (ResourceValue(a) == Str("*") <==> ResourceValue(b) == Str("*")) &&
      Rest(a) == map[EFFECT := JStr("Allow")] && Rest(b) != map[EFFECT := JStr("Allow")]) ==>
      KeyLess(SortingKey(a, dumps), SortingKey(b, dumps))
    ensures (ActionKey(a) == ActionKey(b) && ResourceKey(a) == ResourceKey(b) &&
      (ResourceValue(a) == Str("*") <==> ResourceValue(b) == Str("*")) &&
      Rest(a) != map[EFFECT := JStr("Allow")] && Rest(b) != map[EFFECT := JStr("Allow")] &&
      |Rest(a)| < |Rest(b)|) ==>
      KeyLess(SortingKey(a, dumps), SortingKey(b, dumps))
  {
    var ka, kb := SortingKey(a, dumps), SortingKey(b, dumps);
    SortingKeyFields(a, dumps);
    SortingKeyFields(b, dumps);
    PrefixLess(ka, kb);
  }

  /** The first five fields of the sorting key, read off the statement. */
  lemma SortingKeyFields(s: Statement, dumps: Dumps)
    requires Valid(s.data)
    ensures SortingKey(s, dumps).notAction == (ActionKey(s) == NOT_ACTION)
    ensures SortingKey(s, dumps).notResource == (ResourceKey(s) == NOT_RESOURCE)
    ensures SortingKey(s, dumps).specificResource == (ResourceValue(s) != Str("*"))
    ensures SortingKey(s, dumps).notBareAllow == (Rest(s) != map[EFFECT := JStr("Allow")])
    ensures SortingKey(s, dumps).restSize == |Rest(s)|
  {
  }

  /** The first differing field among the first five decides. */
  lemma PrefixLess(a: SortKey, b: SortKey)
    ensures !a.notAction && b.notAction ==> KeyLess(a, b)
    ensures a.notAction == b.notAction && !a.notResource && b.notResource ==> KeyLess(a, b)
    ensures (a.notAction == b.notAction && a.notResource == b.notResource &&
      !a.specificResource && b.specificResource) ==> KeyLess(a, b)
    ensures (a.notAction == b.notAction && a.notResource == b.notResource &&
      a.specificResource == b.specificResource && !a.notBareAllow && b.notBareAllow) ==> KeyLess(a, b)
    ensures (a.notAction == b.notAction && a.notResource == b.notResource &&
      a.specificResource == b.specificResource && a.notBareAllow == b.notBareAllow &&
      a.restSize < b.restSize) ==> KeyLess(a, b)
  {
  }

  predicate AllValid(ss: seq<Statement>) {
    forall i :: 0 <= i < |ss| ==> Valid(ss[i].data)
  }

  /** Non-decreasing by `key`: no later key is below an earlier one. */
  predicate SortedBy<T>(xs: seq<T>, key: T -> SortKey) {
    forall i, j :: 0 <= i < j < |xs| ==> !KeyLess(key(xs[j]), key(xs[i]))
  }

  /** Insert `x` after every entry whose key is not above its own, which
      keeps entries of equal key in arrival order. */
  function Insert<T>(x: T, xs: seq<T>, key: T -> SortKey): (r: seq<T>)
    ensures multiset(r) == multiset(xs) + multiset{x}
    ensures |r| == |xs| + 1
  {
    if xs == [] then [x]
    else if KeyLess(key(x), key(xs[0])) then [x] + xs
    else
      assert xs == [xs[0]] + xs[1..];
      [xs[0]] + Insert(x, xs[1..], key)
  }

  lemma {:induction false} InsertSorted<T>(x: T, xs: seq<T>, key: T -> SortKey)
    requires SortedBy(xs, key)
    ensures SortedBy(Insert(x, xs, key), key)
  {
    if xs == [] {
      return;
    }
    var kx, k0 := key(x), key(xs[0]);
    if !KeyLess(kx, k0) {
      var tail := xs[1..];
      SortedTail(xs, key);
      InsertSorted(x, tail, key);
      forall j | 0 <= j < |tail| ensures !KeyLess(key(tail[j]), k0) {
        assert tail[j] == xs[j + 1];
      }
      InsertNotBelow(x, tail, key, k0);
      SortedCons(xs[0], Insert(x, tail, key), key);
    } else {
      forall j | 0 <= j < |xs| ensures !KeyLess(key(xs[j]), kx) {
        if j == 0 {
          KeyLessAsymmetric(kx, k0);
        } else {
          KeyNotBelowTrans(kx, k0, key(xs[j]));
          KeyLessAsymmetric(kx, key(xs[j]));
        }
      }
      SortedCons(x, xs, key);
    }
  }

  lemma SortedTail<T>(xs: seq<T>, key: T -> SortKey)
    requires SortedBy(xs, key) && xs != []
    ensures SortedBy(xs[1..], key)
  {
    var tail := xs[1..];
    forall i, j | 0 <= i < j < |tail|
      ensures !KeyLess(key(tail[j]), key(tail[i]))
    {
      assert tail[i] == xs[i + 1] && tail[j] == xs[j + 1];
    }
  }

  /** A sorted list stays sorted under a head no entry is below. */
  lemma SortedCons<T>(x: T, xs: seq<T>, key: T -> SortKey)
    requires SortedBy(xs, key)
    requires forall j :: 0 <= j < |xs| ==> !KeyLess(key(xs[j]), key(x))
    ensures SortedBy([x] + xs, key)
  {
    var r := [x] + xs;
    forall i, j | 0 <= i < j < |r|
      ensures !KeyLess(key(r[j]), key(r[i]))
    {
      assert r[j] == xs[j - 1];
      if i > 0 {
        assert r[i] == xs[i - 1];
      }
    }
  }

  /** Inserting an entry not below `k` among entries not below `k` gives
      entries not below `k`. */
  lemma InsertNotBelow<T>(x: T, xs: seq<T>, key: T -> SortKey, k: SortKey)
    requires !KeyLess(key(x), k)
    requires forall j :: 0 <= j < |xs| ==> !KeyLess(key(xs[j]), k)
    ensures forall j :: 0 <= j < |Insert(x, xs, key)| ==> !KeyLess(key(Insert(x, xs, key)[j]), k)
  {
    var r := Insert(x, xs, key);
    forall j | 0 <= j < |r| ensures !KeyLess(key(r[j]), k) {
      assert r[j] in multiset(r);
      if r[j] != x {
        assert r[j] in multiset(xs);
        var m :| 0 <= m < |xs| && xs[m] == r[j];
      }
    }
  }

  lemma KeyLessAsymmetric(a: SortKey, b: SortKey)
    requires KeyLess(a, b)
    ensures !KeyLess(b, a)
  {
    if KeyLess(b, a) {
      KeyLessTransitive(a, b, a);
      KeyLessIrreflexive(a);
    }
  }

  /** When `a` is not below `b` and they differ, `b` is below `a`. */
  lemma LessFree(a: SortKey, b: SortKey)
    requires !KeyLess(a, b) && a != b
    ensures KeyLess(b, a)
  {
    KeyLessTotal(a, b);
  }

  /** `a < b` and `b <= c` give `a < c`. */
  lemma KeyNotBelowTrans(a: SortKey, b: SortKey, c: SortKey)
    requires KeyLess(a, b) && !KeyLess(c, b)
    ensures KeyLess(a, c)
  {
    KeyLessTotal(b, c);
    if KeyLess(b, c) {
      KeyLessTransitive(a, b, c);
    }
  }

  /** Python's stable `sorted(xs, key=key)`, as insertion sort. */
  function SortBy<T>(xs: seq<T>, key: T -> SortKey): (r: seq<T>)
    ensures multiset(r) == multiset(xs)
    ensures |r| == |xs|
    ensures SortedBy(r, key)
  {
    if xs == [] then []
    else
      var init := xs[..|xs| - 1];
      assert xs == init + [xs[|xs| - 1]];
      InsertSorted(xs[|xs| - 1], SortBy(init, key), key);
      Insert(xs[|xs| - 1], SortBy(init, key), key)
  }

  /** The entries of `xs` whose key is `k`, in order. */
  function WithKey<T>(xs: seq<T>, key: T -> SortKey, k: SortKey): (r: seq<T>)
    ensures |r| <= |xs|
  {
    if xs == [] then [] else (if key(xs[0]) == k then [xs[0]] else []) + WithKey(xs[1..], key, k)
  }

  lemma {:induction false} WithKeySnoc<T>(xs: seq<T>, x: T, key: T -> SortKey, k: SortKey)
    ensures WithKey(xs + [x], key, k) == WithKey(xs, key, k) + Own(x, key, k)
    decreases |xs|
  {
    if xs != [] {
      assert (xs + [x])[1..] == xs[1..] + [x];
      WithKeySnoc(xs[1..], x, key, k);
    } else {
      assert [x][1..] == [];
    }
  }

  /** `[x]` when `x` has key `k`, else nothing. */
  function Own<T>(x: T, key: T -> SortKey, k: SortKey): seq<T> {
    if key(x) == k then [x] else []
  }

  lemma WithKeyCons<T>(x: T, xs: seq<T>, key: T -> SortKey, k: SortKey)
    ensures WithKey([x] + xs, key, k) == Own(x, key, k) + WithKey(xs, key, k)
  {
    assert ([x] + xs)[1..] == xs;
  }

  /** No entry of a sorted list whose head is above `k` has key `k`. */
  lemma {:induction false} WithKeyAbove<T>(xs: seq<T>, key: T -> SortKey, k: SortKey)
    requires SortedBy(xs, key) && xs != [] && KeyLess(k, key(xs[0]))
    ensures WithKey(xs, key, k) == []
    decreases |xs|
  {
    KeyLessIrreflexive(k);
    var tail := xs[1..];
    if tail != [] {
      SortedTail(xs, key);
      assert tail[0] == xs[1];
      assert !KeyLess(key(xs[1]), key(xs[0]));
      KeyNotBelowTrans(k, key(xs[0]), key(xs[1]));
      WithKeyAbove(tail, key, k);
    }
  }

  /** An entry placed before a sorted list whose head is above it comes
      after every entry of its key. */
  lemma InsertFront<T>(x: T, xs: seq<T>, key: T -> SortKey, k: SortKey)
    requires SortedBy(xs, key) && xs != [] && KeyLess(key(x), key(xs[0]))
    ensures WithKey([x] + xs, key, k) == WithKey(xs, key, k) + Own(x, key, k)
  {
    WithKeyCons(x, xs, key, k);
    if key(x) == k {
      WithKeyAbove(xs, key, k);
    }
  }

  lemma InsertLater<T>(x: T, xs: seq<T>, rest: seq<T>, key: T -> SortKey, k: SortKey)
    requires xs != []
    requires WithKey(rest, key, k) == WithKey(xs[1..], key, k) + Own(x, key, k)
    ensures WithKey([xs[0]] + rest, key, k) == WithKey(xs, key, k) + Own(x, key, k)
  {
    var head, tail := xs[0], xs[1..];
    assert [head] + tail == xs;
    WithKeyCons(head, rest, key, k);
    WithKeyCons(head, tail, key, k);
    assert WithKey([head] + rest, key, k) == Own(head, key, k) + (WithKey(tail, key, k) + Own(x, key, k));
  }

  /** Inserting into a sorted list puts `x` after every entry of its own
      key. */
  lemma {:induction false} InsertWithKey<T>(x: T, xs: seq<T>, key: T -> SortKey, k: SortKey)
    requires SortedBy(xs, key)
    ensures WithKey(Insert(x, xs, key), key, k) == WithKey(xs, key, k) + Own(x, key, k)
    decreases |xs|
  {
    if xs == [] {
      WithKeyCons(x, [], key, k);
    } else if KeyLess(key(x), key(xs[0])) {
      InsertFront(x, xs, key, k);
    } else {
      SortedTail(xs, key);
      InsertWithKey(x, xs[1..], key, k);
      InsertLater(x, xs, Insert(x, xs[1..], key), key, k);
    }
  }

  /** The sort is stable: the entries of each key keep their input order. */
  lemma {:induction false} SortByStable<T>(xs: seq<T>, key: T -> SortKey, k: SortKey)
    ensures WithKey(SortBy(xs, key), key, k) == WithKey(xs, key, k)
    decreases |xs|
  {
    if xs != [] {
      var init, last := xs[..|xs| - 1], xs[|xs| - 1];
      assert xs == init + [last];
      SortByStable(init, key, k);
      InsertWithKey(last, SortBy(init, key), key, k);
      WithKeySnoc(init, last, key, k);
    }
  }

  /** The sorting key of a statement, with an arbitrary fixed key for a
      statement that has none (such a statement never reaches a sort). */
  function KeyOf(dumps: Dumps): (key: Statement -> SortKey)
    ensures forall s: Statement :: Valid(s.data) ==> key(s) == SortingKey(s, dumps)
  {
    (s: Statement) => if Valid(s.data) then SortingKey(s, dumps) else SortKey(true, true, true, true, 0, [], 0, [])
  }

  /** `sorted(statements, key=Statement.sorting_key)`: the same statements,
      each as often as before, in non-decreasing key order. */
  function SortStatements(ss: seq<Statement>, dumps: Dumps): (r: seq<Statement>)
    requires AllValid(ss)
    ensures multiset(r) == multiset(ss)
    ensures |r| == |ss|
    ensures AllValid(r)
    ensures forall i, j :: 0 <= i < j < |r| ==> !KeyLess(SortingKey(r[j], dumps), SortingKey(r[i], dumps))
  {
    var r: seq<Statement> := SortBy<Statement>(ss, KeyOf(dumps));
    AllValidPermutation(ss, r);
    SortedByKeyOf(r, dumps);
    r
  }

  lemma AllValidPermutation(ss: seq<Statement>, r: seq<Statement>)
    requires AllValid(ss) && multiset(r) == multiset(ss)
    ensures AllValid(r)
  {
    forall i | 0 <= i < |r|
      ensures Valid(r[i].data)
    {
      assert r[i] in multiset(ss);
    }
  }

  lemma SortedByKeyOf(r: seq<Statement>, dumps: Dumps)
    requires AllValid(r) && SortedBy(r, KeyOf(dumps))
    ensures forall i, j :: 0 <= i < j < |r| ==> !KeyLess(SortingKey(r[j], dumps), SortingKey(r[i], dumps))
  {
    forall i, j | 0 <= i < j < |r|
      ensures !KeyLess(SortingKey(r[j], dumps), SortingKey(r[i], dumps))
    {
      assert KeyOf(dumps)(r[j]) == SortingKey(r[j], dumps);
      assert KeyOf(dumps)(r[i]) == SortingKey(r[i], dumps);
    }
  }
}

=== FILE: split.dfy ===
/** The two action splitters: `Statement.split` (wonk/models.py:176-196),
    which slices the canonical action list of a parsed statement, and
    `split_statement` (wonk/policy.py:92-113), which slices the raw action
    entry of a plain JSON statement. */
module Split {
  import opened Exceptions
  import opened Json
  import opened Canon
  import opened Chunks
  import opened Statements

  /** A slice of the action entry, in the JSON shape of the entry it was cut
      from: substrings of a string, sub-arrays of an array. */
  function SliceJson(v: Value, size: nat): (r: seq<Json>)
    requires size > 0
  {
    match v
    case Str(a) =>
      var cs := Chunk(a, size);
      seq(|cs|, k requires 0 <= k < |cs| => JStr(cs[k]))
    case List(xs) =>
      var cs := Chunk(xs, size);
      seq(|cs|, k requires 0 <= k < |cs| => StringsJson(cs[k]))
  }

  /** Length of a canonical value as Python's `len` sees it. */
  function Len(v: Value): nat {
    match v
    case Str(a) => |a|
    case List(xs) => |xs|
  }

  /** `Statement.split(max_statement_size)`. Each piece is the statement's
      rest with the canonical resources and one slice of the canonical
      actions; `Sid` is dropped, as in `rest`. */
  function SplitCanonical(s: Statement, maxSize: int, dumps: Dumps): (r: Result<seq<Data>>)
    requires Valid(s.data)
  {
    var actions := CollectWildcardMatches(ActionValue(s));
    var size :- ChunkSize(|dumps(JObj(AsJson(s)), TINIEST)|, maxSize, Len(actions));
    if size < 0 then Ok([])
    else
      Ok(Pieces(s, SliceJson(actions, size)))
  }

  /** The pieces of a split, one per action slice: the rest, the slice under
      the action key and the canonical resources under the resource key. */
  function Pieces(s: Statement, slices: seq<Json>): (r: seq<Data>)
    requires Valid(s.data)
    ensures |r| == |slices|
  {
    var resources := ValueJson(ResourceValue(s));
    seq(|slices|, k requires 0 <= k < |slices| => Rest(s)[ActionKey(s) := slices[k]][ResourceKey(s) := resources])
  }

  /** The strings a JSON array of strings holds, in order. */
  function ArrayStrings(j: Json): (r: seq<string>)
    requires j.JArr? && AllStrings(j.arr)
    ensures |r| == |j.arr|
    ensures forall i :: 0 <= i < |r| ==> j.arr[i] == JStr(r[i])
  {
    seq(|j.arr|, i requires 0 <= i < |j.arr| => j.arr[i].str)
  }

  lemma ArrayStringsOf(xs: seq<string>)
    ensures AllStrings(StringsJson(xs).arr)
    ensures ArrayStrings(StringsJson(xs)) == xs
  {
  }

  /** The action lists of a run of pieces, glued together. */
  function JoinedActions(pieces: seq<Data>, key: string): seq<string>
    requires forall k :: 0 <= k < |pieces| ==> key in pieces[k] && pieces[k][key].JArr? && AllStrings(pieces[k][key].arr)
  {
    if pieces == [] then [] else ArrayStrings(pieces[0][key]) + JoinedActions(pieces[1..], key)
  }

  lemma {:induction false} JoinedChunks(base: Data, key: string, cs: seq<seq<string>>, pieces: seq<Data>)
    requires |pieces| == |cs|
    requires forall k :: 0 <= k < |cs| ==> pieces[k] == base[key := StringsJson(cs[k])]
    ensures forall k :: 0 <= k < |pieces| ==> key in pieces[k] && pieces[k][key].JArr? && AllStrings(pieces[k][key].arr)
    ensures JoinedActions(pieces, key) == Flatten(cs)
  {
    forall k | 0 <= k < |pieces|
      ensures key in pieces[k] && pieces[k][key].JArr? && AllStrings(pieces[k][key].arr)
    {
      ArrayStringsOf(cs[k]);
    }
    if cs != [] {
      ArrayStringsOf(cs[0]);
      JoinedChunks(base, key, cs[1..], pieces[1..]);
    }
  }

  /** One piece of a split: the statement's rest with a slice `c` of
      actions and the canonical resources. */
  lemma PieceShape(s: Statement, c: seq<string>)
    requires Valid(s.data)
    ensures var p := Rest(s)[ActionKey(s) := StringsJson(c)][ResourceKey(s) := ValueJson(ResourceValue(s))];
      && Valid(p)
      && ActionKey(Statement(p)) == ActionKey(s)
      && ResourceKey(Statement(p)) == ResourceKey(s)
      && p[ResourceKey(s)] == ValueJson(ResourceValue(s))
      && Rest(Statement(p)) == Rest(s)
      && p[ActionKey(s)] == StringsJson(c)
  {
    ArrayStringsOf(c);
    ToSetOfValue(ResourceValue(s));
    RebuildShape(s, StringsJson(c), ValueJson(ResourceValue(s)));
  }

  /** With several canonical actions and a positive limit, the split is the
      list of pieces built from the chunks of the canonical action list. */
  lemma SplitCanonicalChunks(s: Statement, maxSize: int, dumps: Dumps)
    requires Valid(s.data) && maxSize > 0
    requires |dumps(JObj(AsJson(s)), TINIEST)| > 0
    requires CollectWildcardMatches(ActionValue(s)).List?
    requires |CollectWildcardMatches(ActionValue(s)).items| > 0
    ensures var xs := CollectWildcardMatches(ActionValue(s)).items;
      var size := ChunkSize(|dumps(JObj(AsJson(s)), TINIEST)|, maxSize, |xs|).value;
      var cs := Chunk(xs, size);
      && size > 0
      && SplitCanonical(s, maxSize, dumps) ==
        Ok(Pieces(s, seq(|cs|, k requires 0 <= k < |cs| => StringsJson(cs[k]))))
  {
  }

  /** Splitting a statement with several canonical actions under a positive
      limit succeeds; its pieces are well-formed statements that keep the
      action key, the resource key, the canonical resources and the rest;
      their action lists are consecutive slices of the canonical action
      list that glue back to it; every slice but the last has the chunk
      size `ceil(n / ceil(L / (0.45 * M)))` and none is longer. */
  lemma SplitCanonicalPieces(s: Statement, maxSize: int, dumps: Dumps)
    requires Valid(s.data) && maxSize > 0
    requires |dumps(JObj(AsJson(s)), TINIEST)| > 0
    requires CollectWildcardMatches(ActionValue(s)).List?
    requires |CollectWildcardMatches(ActionValue(s)).items| > 0
    ensures var r := SplitCanonical(s, maxSize, dumps);
      var xs := CollectWildcardMatches(ActionValue(s)).items;
      var size := ChunkSize(|dumps(JObj(AsJson(s)), TINIEST)|, maxSize, |xs|).value;
      && r.Ok?
      && |r.value| == CeilDiv(|xs|, size)
      && (forall k :: 0 <= k < |r.value| ==>
            && Valid(r.value[k])
            && ActionKey(Statement(r.value[k])) == ActionKey(s)
            && ResourceKey(Statement(r.value[k])) == ResourceKey(s)
            && r.value[k][ResourceKey(s)] == ValueJson(ResourceValue(s))
            && Rest(Statement(r.value[k])) == Rest(s)
            && r.value[k][ActionKey(s)].JArr?
            && AllStrings(r.value[k][ActionKey(s)].arr)
            && 0 < |r.value[k][ActionKey(s)].arr| <= size
            && (k < |r.value| - 1 ==> |r.value[k][ActionKey(s)].arr| == size))
      && JoinedActions(r.value, ActionKey(s)) == xs
  {
    var xs := CollectWildcardMatches(ActionValue(s)).items;
    var size := ChunkSize(|dumps(JObj(AsJson(s)), TINIEST)|, maxSize, |xs|).value;
    SplitCanonicalChunks(s, maxSize, dumps);
    ChunkPartitions(xs, size);
    PiecesOfChunks(s, Chunk(xs, size), size);
  }

  /** The pieces built from a list of chunks of bounded length. */
  lemma PiecesOfChunks(s: Statement, cs: seq<seq<string>>, size: nat)
    requires Valid(s.data)
    requires forall k :: 0 <= k < |cs| ==> 0 < |cs[k]| <= size
    requires forall k :: 0 <= k < |cs| - 1 ==> |cs[k]| == size
    ensures var pieces := Pieces(s, seq(|cs|, k requires 0 <= k < |cs| => StringsJson(cs[k])));
      && (forall k :: 0 <= k < |pieces| ==>
            && Valid(pieces[k])
            && ActionKey(Statement(pieces[k])) == ActionKey(s)
            && ResourceKey(Statement(pieces[k])) == ResourceKey(s)
            && pieces[k][ResourceKey(s)] == ValueJson(ResourceValue(s))
            && Rest(Statement(pieces[k])) == Rest(s)
            && pieces[k][ActionKey(s)].JArr?
            && AllStrings(pieces[k][ActionKey(s)].arr)
            && 0 < |pieces[k][ActionKey(s)].arr| <= size
            && (k < |pieces| - 1 ==> |pieces[k][ActionKey(s)].arr| == size))
      && JoinedActions(pieces, ActionKey(s)) == Flatten(cs)
  {
    var ak, rk := ActionKey(s), ResourceKey(s);
    var resources := ValueJson(ResourceValue(s));
    var pieces := Pieces(s, seq(|cs|, k requires 0 <= k < |cs| => StringsJson(cs[k])));
    var base := Rest(s)[rk := resources];
    assert ak != rk;
    forall k | 0 <= k < |cs|
      ensures pieces[k] == base[ak := StringsJson(cs[k])]
      ensures Valid(pieces[k])
      ensures ActionKey(Statement(pieces[k])) == ak && ResourceKey(Statement(pieces[k])) == rk
      ensures pieces[k][rk] == resources
      ensures Rest(Statement(pieces[k])) == Rest(s)
      ensures pieces[k][ak] == StringsJson(cs[k])
    {
      PieceShape(s, cs[k]);
    }
    JoinedChunks(base, ak, cs, pieces);
  }

  /** The number of actions in each piece's action array, in order; `-1`
      for a piece whose action entry is missing or not an array. */
  function SliceLengths(pieces: seq<Data>, key: string): (r: seq<int>)
    ensures |r| == |pieces|
    ensures forall k :: 0 <= k < |pieces| && key in pieces[k] && pieces[k][key].JArr? ==> r[k] == |pieces[k][key].arr|
  {
    seq(|pieces|, k requires 0 <= k < |pieces| =>
      if key in pieces[k] && pieces[k][key].JArr? then |pieces[k][key].arr| else -1)
  }

  /** The example of wonk's own test of `Statement.split`: 26 canonical
      actions whose compact form is 133 characters long, under a
      100-character limit, come out as pieces of 9, 9 and 8 actions:
      `ceil(133 / 45) = 3` chunks of `ceil(26 / 3) = 9`. */
  lemma SplitCanonicalExample(s: Statement, dumps: Dumps)
    requires Valid(s.data)
    requires CollectWildcardMatches(ActionValue(s)).List?
    requires |CollectWildcardMatches(ActionValue(s)).items| == 26
    requires |dumps(JObj(AsJson(s)), TINIEST)| == 133
    ensures SplitCanonical(s, 100, dumps).Ok?
    ensures SliceLengths(SplitCanonical(s, 100, dumps).value, ActionKey(s)) == [9, 9, 8]
  {
    assert CeilDivFraction(133, 900, 20) == 3 by {
      CeilDivUnique(133 * 20, 900, 3);
    }
    assert CeilDiv(26, 3) == 9 by {
      CeilDivUnique(26, 3, 9);
    }
    var xs := CollectWildcardMatches(ActionValue(s)).items;
    var cs := Chunk(xs, 9);
    SplitCanonicalChunks(s, 100, dumps);
    ExamplePieces(s, xs);
  }

  lemma ExamplePieces(s: Statement, xs: seq<string>)
    requires Valid(s.data) && |xs| == 26
    ensures var cs := Chunk(xs, 9);
      SliceLengths(Pieces(s, seq(|cs|, k requires 0 <= k < |cs| => StringsJson(cs[k]))), ActionKey(s)) == [9, 9, 8]
  {
    assert CeilDiv(26, 9) == 3 by {
      CeilDivUnique(26, 9, 3);
    }
    var cs := Chunk(xs, 9);
    ChunkPartitions(xs, 9);
    PiecesOfChunks(s, cs, 9);
    ChunkAt(xs, 9, 2);
    assert |cs[2]| == 8;
  }

  /** `split_statement(statement, max_statement_size)`. The raw action
      entry is sliced as Python slices it: an array into sub-arrays, a
      string into substrings; slicing an object fails, and `len` of a
      number, boolean or null fails. Every other entry, `Sid` included, is
      copied into each piece. */
  function SplitStatement(data: Data, maxSize: int, dumps: Dumps): (r: Result<seq<Data>>)
    ensures WhichType(data, ACTION_KEYS).Err? ==> r == Err(WhichType(data, ACTION_KEYS).error)
  {
    var ak :- WhichType(data, ACTION_KEYS);
    var actions := data[ak];
    var n :- match actions
      case JArr(a) => Ok(|a|)
      case JStr(a) => Ok(|a|)
      case JObj(m) => Ok(|m|)
      case _ => Err(MalformedDocument);
    var size :- ChunkSize(|dumps(JObj(data), TINIEST)|, maxSize, n);
    if size < 0 then Ok([])
    else match actions
      case JArr(a) =>
        var cs := Chunk(a, size);
        Ok(seq(|cs|, k requires 0 <= k < |cs| => data[ak := JArr(cs[k])]))
      case JStr(a) =>
        var cs := Chunk(a, size);
        Ok(seq(|cs|, k requires 0 <= k < |cs| => data[ak := JStr(cs[k])]))
      case _ => Err(MalformedDocument)
  }

  /** The raw action arrays of a run of pieces, glued together. */
  function JoinedRaw(pieces: seq<Data>, key: string): seq<Json>
    requires forall k :: 0 <= k < |pieces| ==> key in pieces[k] && pieces[k][key].JArr?
  {
    if pieces == [] then [] else pieces[0][key].arr + JoinedRaw(pieces[1..], key)
  }

  lemma {:induction false} JoinedRawChunks(data: Data, key: string, cs: seq<seq<Json>>, pieces: seq<Data>)
    requires |pieces| == |cs|
    requires forall k :: 0 <= k < |cs| ==> pieces[k] == data[key := JArr(cs[k])]
    ensures forall k :: 0 <= k < |pieces| ==> key in pieces[k] && pieces[k][key].JArr?
    ensures JoinedRaw(pieces, key) == Flatten(cs)
  {
    if cs != [] {
      JoinedRawChunks(data, key, cs[1..], pieces[1..]);
    }
  }

  /** Splitting a statement whose action entry is a non-empty array, under
      a positive limit, succeeds; the pieces' action arrays are consecutive
      slices of the original array that glue back to it, all of the chunk
      size except possibly the last; every other entry of each piece,
      `Sid` included, is the original's. */
  lemma SplitStatementPieces(data: Data, maxSize: int, dumps: Dumps)
    requires WhichType(data, ACTION_KEYS).Ok?
    requires data[WhichType(data, ACTION_KEYS).value].JArr?
    requires |data[WhichType(data, ACTION_KEYS).value].arr| > 0
    requires maxSize > 0 && |dumps(JObj(data), TINIEST)| > 0
    ensures var ak := WhichType(data, ACTION_KEYS).value;
      var a := data[ak].arr;
      var size := ChunkSize(|dumps(JObj(data), TINIEST)|, maxSize, |a|).value;
      var r := SplitStatement(data, maxSize, dumps);
      && r.Ok?
      && |r.value| == CeilDiv(|a|, size)
      && (forall k :: 0 <= k < |r.value| ==>
            && r.value[k].Keys == data.Keys
            && (forall key :: key in data && key != ak ==> r.value[k][key] == data[key])
            && r.value[k][ak].JArr?
            && 0 < |r.value[k][ak].arr| <= size
            && (k < |r.value| - 1 ==> |r.value[k][ak].arr| == size))
      && JoinedRaw(r.value, ak) == a
  {
    var ak := WhichType(data, ACTION_KEYS).value;
    var a := data[ak].arr;
    var size := ChunkSize(|dumps(JObj(data), TINIEST)|, maxSize, |a|).value;
    var cs := Chunk(a, size);
    var r := SplitStatement(data, maxSize, dumps);
    assert r.value == seq(|cs|, k requires 0 <= k < |cs| => data[ak := JArr(cs[k])]);
    ChunkPartitions(a, size);
    JoinedRawChunks(data, ak, cs, r.value);
  }

  /** The example of wonk's own test of `split_statement`: 120 actions whose
      compact statement is 492 characters long, under a 300-character limit,
      come out as four pieces of 30 actions: `ceil(492 / 135) = 4` chunks
      of `ceil(120 / 4) = 30`. */
  lemma SplitStatementExample(data: Data, dumps: Dumps)
    requires WhichType(data, ACTION_KEYS).Ok?
    requires data[WhichType(data, ACTION_KEYS).value].JArr?
    requires |data[WhichType(data, ACTION_KEYS).value].arr| == 120
    requires |dumps(JObj(data), TINIEST)| == 492
    ensures SplitStatement(data, 300, dumps).Ok?
    ensures SliceLengths(SplitStatement(data, 300, dumps).value, WhichType(data, ACTION_KEYS).value) == [30, 30, 30, 30]
  {
    assert CeilDivFraction(492, 2700, 20) == 4 by {
      CeilDivUnique(492 * 20, 2700, 4);
    }
    assert CeilDiv(120, 4) == 30 by {
      CeilDivUnique(120, 4, 30);
    }
    assert CeilDiv(120, 30) == 4 by {
      CeilDivUnique(120, 30, 4);
    }
    SplitStatementPieces(data, 300, dumps);
    var a := data[WhichType(data, ACTION_KEYS).value].arr;
    var r: seq<Data> := SplitStatement(data, 300, dumps).value;
    var ak: string := WhichType(data, ACTION_KEYS).value;
    assert |r[3][ak].arr| == 30 by {
      ChunkAt(a, 30, 3);
      assert r[3][ak].arr == Chunk(a, 30)[3];
    }
    assert SliceLengths(r, ak) == [30, 30, 30, 30];
  }
}

=== FILE: statements.dfy ===
/** The policy statement of wonk/models.py:24-196: a JSON object that holds
    exactly one of `Action`/`NotAction` and exactly one of
    `Resource`/`NotResource`, read through its key discrimination, its
    canonical values, the `rest` of its entries, `replace`, `as_json` and the
    two grouping keys. */
module Statements {
  import opened Exceptions
  import opened Strings
  import opened Json
  import opened Canon

  type Data = map<string, Json>

  /** One of the `ACTION_KEYS` / `RESOURCE_KEYS` pairs (constants.py:40-41). */
  datatype KeyPair = KeyPair(left: string, right: string)

  const ACTION_KEYS: KeyPair := KeyPair(ACTION, NOT_ACTION)
  const RESOURCE_KEYS: KeyPair := KeyPair(RESOURCE, NOT_RESOURCE)

  /** `which_type` (models.py:367-383): the one key of the pair that the
      statement holds, or the ValueError for both or neither. */
  function WhichType(data: Data, choices: KeyPair): (r: Result<string>)
    ensures r.Ok? <==> (choices.left in data <==> choices.right !in data)
    ensures r.Ok? ==> r.value in data && (r.value == choices.left || r.value == choices.right)
    ensures r.Ok? && choices.left != choices.right ==>
      (if r.value == choices.left then choices.right !in data else choices.left !in data)
    ensures r.Err? ==> r.error == AmbiguousStatement(choices.left, choices.right, choices.left in data)
  {
    var hasLeft := choices.left in data;
    var hasRight := choices.right in data;
    if hasLeft && hasRight then Err(AmbiguousStatement(choices.left, choices.right, true))
    else if !(hasLeft || hasRight) then Err(AmbiguousStatement(choices.left, choices.right, false))
    else Ok(if hasLeft then choices.left else choices.right)
  }

  /** A JSON array of strings. */
  function StringsJson(xs: seq<string>): (r: Json)
    ensures r.JArr? && |r.arr| == |xs|
    ensures forall i :: 0 <= i < |xs| ==> r.arr[i] == JStr(xs[i])
  {
    JArr(seq(|xs|, i requires 0 <= i < |xs| => JStr(xs[i])))
  }

  /** A canonical value as it is stored back into a statement. */
  function ValueJson(v: Value): Json {
    match v
    case Str(s) => JStr(s)
    case List(xs) => StringsJson(xs)
  }

  predicate AllStrings(a: seq<Json>) {
    forall i :: 0 <= i < |a| ==> a[i].JStr?
  }

  /** `to_set` (models.py:349-354) on a JSON value: a string is a
      one-element set, an array of strings the set of its elements, an
      object the set of its keys. Any other value makes Python's `set()`
      fail, and so do arrays holding something other than strings. */
  function ToSet(v: Json): (r: Result<set<string>>)
    ensures v.JStr? ==> r == Ok({v.str})
    ensures v.JArr? ==> (r.Ok? <==> AllStrings(v.arr))
    ensures v.JArr? && r.Ok? ==> forall x :: x in r.value <==> JStr(x) in v.arr
    ensures v.JObj? ==> r == Ok(v.obj.Keys)
    ensures v.JNum? || v.JBool? || v.JNull? ==> r == Err(MalformedDocument)
  {
    match v
    case JStr(s) => Ok({s})
    case JArr(a) =>
      if AllStrings(a) then
        var r := set i | 0 <= i < |a| :: a[i].str;
        assert forall x :: x in r <==> JStr(x) in a by {
          forall x
            ensures x in r <==> JStr(x) in a
          {
            if JStr(x) in a {
              var i :| 0 <= i < |a| && a[i] == JStr(x);
              assert a[i].str == x;
            }
          }
        }
        Ok(r)
      else Err(MalformedDocument)
    case JObj(m) => Ok(m.Keys)
    case _ => Err(MalformedDocument)
  }

  /** A canonical value read back gives the set it was built from. */
  lemma ToSetOfValue(v: Value)
    ensures ToSet(ValueJson(v)) == Ok(Elements(v))
  {
    match v
    case Str(s) =>
    case List(xs) =>
      var j := ValueJson(v);
      assert AllStrings(j.arr);
      forall x
        ensures JStr(x) in j.arr <==> x in xs
      {
        if JStr(x) in j.arr {
          var i :| 0 <= i < |j.arr| && j.arr[i] == JStr(x);
        }
        if x in xs {
          var i :| 0 <= i < |xs| && xs[i] == x;
          assert j.arr[i] == JStr(x);
        }
      }
      assert ToSet(j).value == Elements(v);
  }

  /** `value_to_set` (models.py:357-364): an absent key is the empty set. */
  function ValueToSet(data: Data, key: string): (r: Result<set<string>>)
    ensures key !in data ==> r == Ok({})
    ensures key in data ==> r == ToSet(data[key])
  {
    if key in data then ToSet(data[key]) else Ok({})
  }

  /** A statement every property of `Statement` can be read from: one key of
      each pair, and values that convert to sets of strings. */
  predicate Valid(data: Data) {
    && WhichType(data, ACTION_KEYS).Ok?
    && WhichType(data, RESOURCE_KEYS).Ok?
    && ToSet(data[WhichType(data, ACTION_KEYS).value]).Ok?
    && ToSet(data[WhichType(data, RESOURCE_KEYS).value]).Ok?
  }

  datatype Statement = Statement(data: Data)

  /** Reading a statement's properties the way the grouping code does:
      first the action key, then the resource key and value, then the
      actions; the first failure is the error raised. */
  function Parse(data: Data): (r: Result<Statement>)
    ensures r.Ok? <==> Valid(data)
    ensures r.Ok? ==> r.value.data == data
    ensures WhichType(data, ACTION_KEYS).Err? ==> r == Err(WhichType(data, ACTION_KEYS).error)
    ensures WhichType(data, ACTION_KEYS).Ok? && WhichType(data, RESOURCE_KEYS).Err? ==>
      r == Err(WhichType(data, RESOURCE_KEYS).error)
  {
    var ak :- WhichType(data, ACTION_KEYS);
    var rk :- WhichType(data, RESOURCE_KEYS);
    var _ :- ToSet(data[rk]);
    var _ :- ToSet(data[ak]);
    Ok(Statement(data))
  }

  /** `Statement.action_key`: `Action` or `NotAction`, whichever is present. */
  function ActionKey(s: Statement): (k: string)
    requires Valid(s.data)
    ensures k in s.data
    ensures k == ACTION || k == NOT_ACTION
    ensures k == ACTION <==> NOT_ACTION !in s.data
  {
    WhichType(s.data, ACTION_KEYS).value
  }

  /** `Statement.resource_key`: `Resource` or `NotResource`. */
  function ResourceKey(s: Statement): (k: string)
    requires Valid(s.data)
    ensures k in s.data
    ensures k == RESOURCE || k == NOT_RESOURCE
    ensures k == RESOURCE <==> NOT_RESOURCE !in s.data
  {
    WhichType(s.data, RESOURCE_KEYS).value
  }

  /** `Statement.action_value`: the actions as a set. */
  function ActionValue(s: Statement): (r: set<string>)
    requires Valid(s.data)
    ensures ToSet(s.data[ActionKey(s)]) == Ok(r)
  {
    ToSet(s.data[ActionKey(s)]).value
  }

  /** The resources as a set, before canonicalisation. */
  function ResourceSet(s: Statement): (r: set<string>)
    requires Valid(s.data)
    ensures ToSet(s.data[ResourceKey(s)]) == Ok(r)
  {
    ToSet(s.data[ResourceKey(s)]).value
  }

  /** `Statement.resource_value`: the canonical resources. */
  function ResourceValue(s: Statement): Value
    requires Valid(s.data)
  {
    CanonicalizeResources(ResourceSet(s))
  }

  /** `Statement.rest` (models.py:59-67): every entry except `Sid` and the
      action and resource entries, values unchanged. */
  function Rest(s: Statement): (r: Data)
    requires Valid(s.data)
    ensures forall k :: k in r <==> k in s.data && k != SID && k != ActionKey(s) && k != ResourceKey(s)
    ensures forall k :: k in r ==> r[k] == s.data[k]
  {
    map k | k in s.data && k != SID && k != ActionKey(s) && k != ResourceKey(s) :: s.data[k]
  }

  /** Python passes `None` for "leave this entry alone"; JSON `null` is the
      same Python value. */
  predicate Given(v: Option<Json>) {
    v.Some? && v.value != JNull
  }

  /** `Statement.replace` (models.py:69-78). */
  function Replace(s: Statement, actionValue: Option<Json>, resourceValue: Option<Json>): (r: Statement)
    requires Valid(s.data)
    ensures r.data.Keys == s.data.Keys
    ensures Given(actionValue) ==> r.data[ActionKey(s)] == actionValue.value
    ensures Given(resourceValue) ==> r.data[ResourceKey(s)] == resourceValue.value
    ensures forall k :: k in s.data && k != ActionKey(s) && k != ResourceKey(s) ==> r.data[k] == s.data[k]
    ensures !Given(actionValue) ==> r.data[ActionKey(s)] == s.data[ActionKey(s)]
    ensures !Given(resourceValue) ==> r.data[ResourceKey(s)] == s.data[ResourceKey(s)]
  {
    var d := if Given(actionValue) then s.data[ActionKey(s) := actionValue.value] else s.data;
    var e := if Given(resourceValue) then d[ResourceKey(s) := resourceValue.value] else d;
    Statement(e)
  }

  /** Replacing entries with values that are sets of strings keeps the
      statement well formed, keeps both keys, and changes exactly the
      replaced properties. */
  lemma ReplaceKeepsShape(s: Statement, actionValue: Option<Json>, resourceValue: Option<Json>)
    requires Valid(s.data)
    requires Given(actionValue) ==> ToSet(actionValue.value).Ok?
    requires Given(resourceValue) ==> ToSet(resourceValue.value).Ok?
    ensures Valid(Replace(s, actionValue, resourceValue).data)
    ensures ActionKey(Replace(s, actionValue, resourceValue)) == ActionKey(s)
    ensures ResourceKey(Replace(s, actionValue, resourceValue)) == ResourceKey(s)
    ensures Rest(Replace(s, actionValue, resourceValue)) == Rest(s)
    ensures ActionValue(Replace(s, actionValue, resourceValue)) ==
      (if Given(actionValue) then ToSet(actionValue.value).value else ActionValue(s))
    ensures ResourceSet(Replace(s, actionValue, resourceValue)) ==
      (if Given(resourceValue) then ToSet(resourceValue.value).value else ResourceSet(s))
  {
    var r := Replace(s, actionValue, resourceValue);
    assert WhichType(r.data, ACTION_KEYS) == WhichType(s.data, ACTION_KEYS);
    assert WhichType(r.data, RESOURCE_KEYS) == WhichType(s.data, RESOURCE_KEYS);
  }

  /** `Statement.as_json` (models.py:80-88): the rest, plus the canonical
      actions and the canonical resources under their own keys. */
  function AsJson(s: Statement): Data
    requires Valid(s.data)
  {
    Rest(s)[ActionKey(s) := ValueJson(CollectWildcardMatches(ActionValue(s)))][ResourceKey(s) := ValueJson(ResourceValue(s))]
  }

  /** A statement's rest with new action and resource entries under its own
      keys: the shape of `as_json` and of the pieces of `split`. Entries
      that are sets of strings give a well-formed statement with the same
      keys, the same rest and no `Sid`. */
  lemma RebuildShape(s: Statement, actions: Json, resources: Json)
    requires Valid(s.data)
    requires ToSet(actions).Ok? && ToSet(resources).Ok?
    ensures var d := Rest(s)[ActionKey(s) := actions][ResourceKey(s) := resources];
      && Valid(d)
      && ActionKey(Statement(d)) == ActionKey(s)
      && ResourceKey(Statement(d)) == ResourceKey(s)
      && Rest(Statement(d)) == Rest(s)
      && SID !in d
  {
    var d := Rest(s)[ActionKey(s) := actions][ResourceKey(s) := resources];
    var ak, rk := ActionKey(s), ResourceKey(s);
    assert NOT_ACTION in d ==> ak == NOT_ACTION;
    assert ACTION in d ==> ak == ACTION;
    assert NOT_RESOURCE in d ==> rk == NOT_RESOURCE;
    assert RESOURCE in d ==> rk == RESOURCE;
    assert WhichType(d, ACTION_KEYS) == Ok(ak);
    assert WhichType(d, RESOURCE_KEYS) == Ok(rk);
    assert d[ak] == actions;
    assert Rest(Statement(d)) == Rest(s);
  }

  /** The AWS-ready form is again a statement with the same keys and the same
      rest, without `Sid`, whose actions are the canonical subset of the
      original ones and whose resources are the canonical ones. */
  lemma AsJsonCanonical(s: Statement)
    requires Valid(s.data)
    ensures Valid(AsJson(s))
    ensures ActionKey(Statement(AsJson(s))) == ActionKey(s)
    ensures ResourceKey(Statement(AsJson(s))) == ResourceKey(s)
    ensures Rest(Statement(AsJson(s))) == Rest(s)
    ensures SID !in AsJson(s)
    ensures ActionValue(Statement(AsJson(s))) == Elements(CollectWildcardMatches(ActionValue(s)))
    ensures ActionValue(Statement(AsJson(s))) <= ActionValue(s)
    ensures Elements(ResourceValue(Statement(AsJson(s)))) == Elements(ResourceValue(s))
  {
    var acts := CollectWildcardMatches(ActionValue(s));
    ToSetOfValue(acts);
    ToSetOfValue(ResourceValue(s));
    RebuildShape(s, ValueJson(acts), ValueJson(ResourceValue(s)));
    var t := Statement(AsJson(s));
    assert t.data[ActionKey(s)] == ValueJson(acts);
    CollectIsSubset(ActionValue(s));
    ResourceValueStable(ResourceSet(s));
  }

  /** Canonicalising canonical resources again keeps the same set. */
  lemma ResourceValueStable(rs: set<string>)
    ensures Elements(CanonicalizeResources(Elements(CanonicalizeResources(rs)))) == Elements(CanonicalizeResources(rs))
  {
    if "*" !in rs {
      CollectIsSubset(rs);
      CollectIdempotent(rs);
    }
  }

  /** The key of `grouping_for_actions` (models.py:90-111). The source
      renders it as the `str` of a list of pairs; this model keeps the
      parts themselves. The two groupings differ where the parts hold
      nested objects whose keys come in a different order, or numbers such
      as `1` and `1.0`: `str` tells those apart, while a `Json` value (a
      map of entries, an integer) does not hold the difference at all. */
  datatype ActionsGroup = ActionsGroup(actionKey: string, resourceKey: string, resources: Value, rest: Data)

  function GroupingForActions(s: Statement): ActionsGroup
    requires Valid(s.data)
  {
    ActionsGroup(ActionKey(s), ResourceKey(s), ResourceValue(s), Rest(s))
  }

  lemma ValueJsonInjective(v: Value, w: Value)
    requires ValueJson(v) == ValueJson(w)
    ensures v == w
  {
    match v
    case Str(_) =>
    case List(xs) =>
      var ys := w.items;
      assert |xs| == |ys|;
      forall i | 0 <= i < |xs|
        ensures xs[i] == ys[i]
      {
        assert ValueJson(v).arr[i] == ValueJson(w).arr[i];
      }
  }

  /** Two statements share an action-grouping key exactly when they use the
      same action key and their AWS-ready forms agree on every entry except
      the actions: same resource key, same canonical resources, and the
      same remaining entries apart from `Sid`. */
  lemma GroupingForActionsAgrees(a: Statement, b: Statement)
    requires Valid(a.data) && Valid(b.data)
    ensures GroupingForActions(a) == GroupingForActions(b) <==>
      ActionKey(a) == ActionKey(b) && AsJson(a) - {ActionKey(a)} == AsJson(b) - {ActionKey(b)}
  {
    AsJsonWithoutActions(a);
    AsJsonWithoutActions(b);
    var ja, jb := AsJson(a) - {ActionKey(a)}, AsJson(b) - {ActionKey(b)};
    if ActionKey(a) == ActionKey(b) && ja == jb {
      SameResourceKey(a, b);
      var rk := ResourceKey(a);
      StripUpdate(Rest(a), rk, ValueJson(ResourceValue(a)));
      StripUpdate(Rest(b), rk, ValueJson(ResourceValue(b)));
      assert ja[rk] == ValueJson(ResourceValue(a)) && jb[rk] == ValueJson(ResourceValue(b));
      ValueJsonInjective(ResourceValue(a), ResourceValue(b));
    }
  }

  /** Without its actions, the AWS-ready form of a statement is its rest
      plus the resource entry. */
  lemma AsJsonWithoutActions(s: Statement)
    requires Valid(s.data)
    ensures AsJson(s) - {ActionKey(s)} == Rest(s)[ResourceKey(s) := ValueJson(ResourceValue(s))]
  {
  }

  /** Two statements whose AWS-ready forms agree apart from the actions use
      the same resource key. */
  lemma SameResourceKey(a: Statement, b: Statement)
    requires Valid(a.data) && Valid(b.data)
    requires Rest(a)[ResourceKey(a) := ValueJson(ResourceValue(a))] == Rest(b)[ResourceKey(b) := ValueJson(ResourceValue(b))]
    ensures ResourceKey(a) == ResourceKey(b)
  {
    var rk := ResourceKey(a);
    assert rk in Rest(b)[ResourceKey(b) := ValueJson(ResourceValue(b))];
  }

  lemma StripUpdate<K, V>(m: map<K, V>, k: K, v: V)
    requires k !in m
    ensures m[k := v] - {k} == m
  {
  }

  /** The `Sid` entry never affects the action-grouping key. */
  lemma GroupingIgnoresSid(s: Statement, sid: Json)
    requires Valid(s.data)
    ensures Valid(s.data[SID := sid])
    ensures GroupingForActions(Statement(s.data[SID := sid])) == GroupingForActions(s)
  {
    var t := Statement(s.data[SID := sid]);
    assert WhichType(t.data, ACTION_KEYS) == WhichType(s.data, ACTION_KEYS);
    assert WhichType(t.data, RESOURCE_KEYS) == WhichType(s.data, RESOURCE_KEYS);
    assert Rest(t) == Rest(s);
  }

  /** Replacing the actions of a statement keeps its action-grouping key, so
      actions can be merged into the first statement of a group. */
  lemma GroupingIgnoresActions(s: Statement, actions: Json)
    requires Valid(s.data) && ToSet(actions).Ok? && actions != JNull
    ensures Valid(Replace(s, Some(actions), None).data)
    ensures GroupingForActions(Replace(s, Some(actions), None)) == GroupingForActions(s)
    ensures ActionValue(Replace(s, Some(actions), None)) == ToSet(actions).value
  {
    ReplaceKeepsShape(s, Some(actions), None);
  }

  /** The key of `grouping_for_resources` (models.py:113-133), which the
      combine pipeline never uses. */
  datatype ResourcesGroup = ResourcesGroup(actionKey: string, actions: seq<string>, resourceKey: string, rest: Data)

  function GroupingForResources(s: Statement): ResourcesGroup
    requires Valid(s.data)
  {
    ResourcesGroup(ActionKey(s), SortedSet(ActionValue(s)), ResourceKey(s), Rest(s))
  }

  /** Two statements share a resource-grouping key exactly when they agree on
      the action key, the set of actions, the resource key and the rest. */
  lemma GroupingForResourcesAgrees(a: Statement, b: Statement)
    requires Valid(a.data) && Valid(b.data)
    ensures GroupingForResources(a) == GroupingForResources(b) <==>
      ActionKey(a) == ActionKey(b) && ActionValue(a) == ActionValue(b) &&
      ResourceKey(a) == ResourceKey(b) && Rest(a) == Rest(b)
  {
    if ActionValue(a) == ActionValue(b) {
    } else if SortedSet(ActionValue(a)) == SortedSet(ActionValue(b)) {
      assert forall x :: x in ActionValue(a) <==> x in ActionValue(b);
    }
  }

  /** Replacing the resources of a statement keeps its resource-grouping key. */
  lemma GroupingIgnoresResources(s: Statement, resources: Json)
    requires Valid(s.data) && ToSet(resources).Ok? && resources != JNull
    ensures Valid(Replace(s, None, Some(resources)).data)
    ensures GroupingForResources(Replace(s, None, Some(resources))) == GroupingForResources(s)
  {
    ReplaceKeepsShape(s, None, Some(resources));
  }

  /** Reading the properties of every statement in turn, as sorting or
      grouping a list of statements does: the statements when all are well
      formed, otherwise the error of the first one that is not. */
  function ParseAll(datas: seq<Data>): (r: Result<seq<Statement>>)
    ensures r.Ok? <==> forall i :: 0 <= i < |datas| ==> Valid(datas[i])
    ensures r.Ok? ==> |r.value| == |datas| && forall i :: 0 <= i < |datas| ==> r.value[i] == Statement(datas[i])
    ensures r.Err? ==>
      exists i :: (0 <= i < |datas| && !Valid(datas[i]) && r.error == Parse(datas[i]).error
                   && forall j :: 0 <= j < i ==> Valid(datas[j]))
  {
    if datas == [] then Ok([])
    else
      var s :- Parse(datas[0]);
      var rest :- ParseAll(datas[1..]);
      assert forall i :: 1 <= i < |datas| ==> datas[i] == datas[1..][i - 1];
      Ok([s] + rest)
  }
}

=== FILE: strings.dfy ===
/** Text helpers shared by the model: case folding, Python's string order,
    sorted enumeration of a set, decimal numerals and path pieces. */
module Strings {

  /** Python's `str.casefold` on one character, approximated by ASCII
      lower-casing. */
  function Fold(c: char): char {
    if 'A' <= c <= 'Z' then (c as int + 32) as char else c
  }

  function Lower(s: string): string {
    seq(|s|, i requires 0 <= i < |s| => Fold(s[i]))
  }

  /** Folding leaves `*` alone and never produces it from another character,
      so a pattern's wildcards survive case folding. */
  lemma FoldStar(c: char)
    ensures Fold(c) == '*' <==> c == '*'
  {
  }

  /** Folding leaves the newline alone and never produces it from another
      character. */
  lemma FoldNewline(c: char)
    ensures Fold(c) == '\n' <==> c == '\n'
  {
  }

  /** The part of `s` a regular expression's `$` sees as the end: `$`
      matches at the very end and also just before one final newline. */
  function WithoutFinalNewline(s: string): (r: string)
    ensures s == r + "\n" <==> |s| > 0 && s[|s| - 1] == '\n'
    ensures s != r + "\n" ==> r == s
  {
    if |s| > 0 && s[|s| - 1] == '\n' then s[..|s| - 1] else s
  }

  /** Dropping the final newline only touches the last character, so a
      string that is not just a newline keeps its first one. */
  lemma WithoutFinalNewlineCons(s: string)
    requires |s| > 0 && s != "\n"
    ensures WithoutFinalNewline(s) == [s[0]] + WithoutFinalNewline(s[1..])
  {
    if s[|s| - 1] == '\n' {
      assert s[1..][..|s[1..]| - 1] == s[..|s| - 1][1..];
    }
  }

  lemma LowerIdempotent(s: string)
    ensures Lower(Lower(s)) == Lower(s)
  {
  }

  /** Two non-empty strings are equal exactly when their first characters
      and their remainders are. */
  lemma ConsEqual(a: string, b: string)
    requires |a| > 0 && |b| > 0
    ensures a == b <==> a[0] == b[0] && a[1..] == b[1..]
  {
    if a[0] == b[0] && a[1..] == b[1..] {
      assert a == [a[0]] + a[1..];
      assert b == [b[0]] + b[1..];
    }
  }

  /** Python's `<` on `str`: lexicographic by code point, and a proper
      prefix sorts first. */
  predicate Less(a: string, b: string) {
    if |a| == 0 then |b| > 0
    else |b| > 0 && (a[0] < b[0] || (a[0] == b[0] && Less(a[1..], b[1..])))
  }

  lemma LessIrreflexive(a: string)
    ensures !Less(a, a)
  {
  }

  lemma LessAsymmetric(a: string, b: string)
    requires Less(a, b)
    ensures !Less(b, a)
  {
  }

  lemma LessTransitive(a: string, b: string, c: string)
    requires Less(a, b) && Less(b, c)
    ensures Less(a, c)
  {
  }

  lemma LessTotal(a: string, b: string)
    ensures a == b || Less(a, b) || Less(b, a)
  {
  }

  lemma LessAsymmetricAll()
    ensures forall a, b :: Less(a, b) ==> !Less(b, a)
  {
    forall a, b | Less(a, b) ensures !Less(b, a) {
      LessAsymmetric(a, b);
    }
  }

  /** Strictly increasing in Python's string order (so also duplicate-free). */
  predicate StrictlySorted(r: seq<string>) {
    forall i, j :: 0 <= i < j < |r| ==> Less(r[i], r[j])
  }

  /** `m` is the least element of `s` in Python's string order. */
  predicate IsLeast(s: set<string>, m: string) {
    m in s && forall y :: y in s && y != m ==> Less(m, y)
  }

  lemma {:induction false} LeastExists(s: set<string>) returns (m: string)
    requires s != {}
    ensures IsLeast(s, m)
  {
    var x :| x in s;
    if s == {x} {
      m := x;
    } else {
      var t := s - {x};
      var n := LeastExists(t);
      LessTotal(x, n);
      if Less(x, n) {
        m := x;
        forall y | y in s && y != x
          ensures Less(x, y)
        {
          if y != n {
            assert y in t;
            LessTransitive(x, n, y);
          }
        }
      } else {
        m := n;
        forall y | y in s && y != n
          ensures Less(n, y)
        {
          if y != x {
            assert y in t;
          }
        }
      }
    }
  }

  lemma HasLeast(s: set<string>)
    requires s != {}
    ensures exists m :: IsLeast(s, m)
  {
    var m := LeastExists(s);
  }

  /** The least element of a non-empty set in Python's string order. */
  function MinOf(s: set<string>): (m: string)
    requires s != {}
    ensures IsLeast(s, m)
  {
    HasLeast(s);
    LessAsymmetricAll();
    var m :| IsLeast(s, m);
    m
  }

  /** Python's `sorted(s)` for a set of strings: every element once, in
      increasing order. */
  function SortedSet(s: set<string>): (r: seq<string>)
    ensures |r| == |s|
    ensures forall x :: x in s <==> x in r
    ensures StrictlySorted(r)
    decreases |s|
  {
    if s == {} then []
    else
      var m := MinOf(s);
      [m] + SortedSet(s - {m})
  }

  lemma HeadIn(a: seq<string>)
    requires |a| > 0
    ensures a[0] in a
  {
  }

  /** A strictly sorted sequence is determined by its elements, so
      `sorted(s)` depends only on the set `s`. */
  lemma {:induction false} StrictlySortedUnique(a: seq<string>, b: seq<string>)
    requires StrictlySorted(a) && StrictlySorted(b)
    requires forall x :: x in a <==> x in b
    ensures a == b
  {
    if |a| > 0 && |b| > 0 {
      assert a[0] in a && b[0] in b;
      if a[0] != b[0] {
        var k :| 0 <= k < |b| && b[k] == a[0];
        var m :| 0 <= m < |a| && a[m] == b[0];
        LessAsymmetric(a[0], b[0]);
      }
      forall x
        ensures x in a[1..] <==> x in b[1..]
      {
        if x in a[1..] {
          var i :| 0 <= i < |a[1..]| && a[1..][i] == x;
          assert a[1 + i] == x;
          LessIrreflexive(a[0]);
          assert x in b;
          var k :| 0 <= k < |b| && b[k] == x;
          assert k != 0;
          assert b[1..][k - 1] == x;
        }
        if x in b[1..] {
          var i :| 0 <= i < |b[1..]| && b[1..][i] == x;
          assert b[1 + i] == x;
          LessIrreflexive(b[0]);
          assert x in a;
          var k :| 0 <= k < |a| && a[k] == x;
          assert k != 0;
          assert a[1..][k - 1] == x;
        }
      }
      StrictlySortedUnique(a[1..], b[1..]);
      assert a == [a[0]] + a[1..];
      assert b == [b[0]] + b[1..];
    } else if |a| > 0 {
      HeadIn(a);
      assert false;
    } else if |b| > 0 {
      HeadIn(b);
      assert false;
    }
  }

  predicate IsDigit(c: char) {
    '0' <= c <= '9'
  }

  predicate AllDigits(s: string) {
    forall i :: 0 <= i < |s| ==> IsDigit(s[i])
  }

  function DigitChar(d: nat): char
    requires d < 10
  {
    ('0' as int + d) as char
  }

  /** Python's `str(n)` for a natural number. */
  function Decimal(n: nat): (r: string)
    ensures |r| > 0 && AllDigits(r)
  {
    if n < 10 then [DigitChar(n)] else Decimal(n / 10) + [DigitChar(n % 10)]
  }

  /** A numeral holds nothing but digits. */
  lemma NotADigit(c: char, s: string)
    requires AllDigits(s) && !IsDigit(c)
    ensures c !in s
  {
  }

  /** The value of a numeral (Python's `int(s)` on ASCII digits). */
  function ParseDecimal(s: string): nat
    requires AllDigits(s)
  {
    if |s| == 0 then 0
    else ParseDecimal(s[..|s| - 1]) * 10 + (s[|s| - 1] as int - '0' as int)
  }

  lemma {:induction false} ParseDecimalInverse(n: nat)
    ensures ParseDecimal(Decimal(n)) == n
  {
    if n >= 10 {
      var d := Decimal(n);
      assert d[..|d| - 1] == Decimal(n / 10);
      ParseDecimalInverse(n / 10);
    }
  }

  /** Distinct numbers have distinct numerals. */
  lemma DecimalInjective(m: nat, n: nat)
    requires Decimal(m) == Decimal(n)
    ensures m == n
  {
    ParseDecimalInverse(m);
    ParseDecimalInverse(n);
  }

  /** The text after the last `sep`, or all of `s` when `sep` does not occur:
      Python's `s.split(sep)[-1]` and `s.rsplit(sep, maxsplit=1)[-1]`. */
  function AfterLast(s: string, sep: char): (r: string)
    ensures sep !in r
    ensures |r| <= |s| && r == s[|s| - |r|..]
    ensures |r| < |s| ==> s[|s| - |r| - 1] == sep
  {
    if |s| == 0 then []
    else if s[|s| - 1] == sep then []
    else AfterLast(s[..|s| - 1], sep) + [s[|s| - 1]]
  }

  /** Appending text without the separator extends the last component. */
  lemma {:induction false} AfterLastAppend(s: string, t: string, sep: char)
    requires sep !in t
    ensures AfterLast(s + t, sep) == AfterLast(s, sep) + t
    decreases |t|
  {
    if |t| > 0 {
      var u := t[..|t| - 1];
      assert (s + t)[..|s + t| - 1] == s + u;
      AfterLastAppend(s, u, sep);
      assert t == u + [t[|t| - 1]];
    } else {
      assert s + t == s;
    }
  }

  /** Index of the last occurrence of `c` in `s`, or -1 (Python's `rfind`). */
  function LastIndexOf(s: string, c: char): (i: int)
    ensures -1 <= i < |s|
    ensures 0 <= i ==> s[i] == c
    ensures forall k :: i < k < |s| ==> s[k] != c
  {
    if |s| == 0 then -1
    else if s[|s| - 1] == c then |s| - 1
    else LastIndexOf(s[..|s| - 1], c)
  }

  /** `pathlib.PurePath.stem` of a single path component: the name without
      its final suffix, where a suffix starts at the last dot that is neither
      the first nor the last character. */
  function Stem(name: string): string {
    var i := LastIndexOf(name, '.');
    if 0 < i < |name| - 1 then name[..i] else name
  }
}
